=== FILE: README.md ===
# IEEPROM in Dafny

A model of `IEEPROMClass`, the flash-backed EEPROM emulation of the Maple/STM32F1
Arduino support library. It follows the scheme of ST's application note AN2594.

Two equal flash pages are used alternately. Each page has these parts:

- a 16-bit status header: ERASED 0xFFFF, RECEIVE_DATA 0xEEEE or VALID 0x0000;
- a 16-bit erase counter;
- 4-byte records, each a value halfword followed by a virtual-address halfword.

The engine works as follows:

- `read` scans the valid page backwards, so the last write wins.
- `write` completes or appends a record.
- When the valid page is full, `write` compacts the live records into the spare page (the page transfer).
- `init` resolves any pair of headers a power loss can leave behind.

The model is a functional state transformer. The flash is two sequences of halfwords plus a plan of hardware outcomes. The two flash primitives and every engine routine are pure functions that return a status and the new flash. Scans are recursive functions over slot indices.

Modules, in dependency order:

- `Layout` (layout.dfy): halfwords, sentinels and status codes; the compiled page layout; `maxcount()`.
- `Flash` (flash.dfy): the device and the primitives `FLASH_ProgramHalfWord` and `FLASH_ErasePage`. The device has a plan of outcomes (carry out, a fault before the command, a timeout after it, or sticky power loss), so faults, late timeouts and power cuts can be stated. With an empty plan, every primitive the hardware is asked to do succeeds. Programming follows the STM32F1 controller: a halfword is programmed only if it reads 0xFFFF or the new value is 0. Otherwise the controller reports a programming error and leaves the cell as it was.
- `PageScan` (page.dfy): the page image and its scans: `EE_CheckPage`, the backward and forward address scans, the lookup `read` performs, and `EE_GetVariablesCount`.
- `Engine` (engine.dfy): the `EE_*` routines, `format` and the recovery of `init`.
- `Eeprom` (eeprom.dfy): the public class with its cached `Status` and lazy initialisation.
- Proof modules:
  - `ScanFacts`: lemmas about scans;
  - `CopyInvariant` and `TransferProof`: the page transfer copies the latest record of every address;
  - `WriteProof`: the write path;
  - `InitProof`: the recovery case table;
  - `EepromProof`: the public operations;
  - `PowerCut`: hardware that reports no fault but may lose power at any primitive, the reboot, and what `init` must make of the flash afterwards;
  - `CutTransfer`: the copy loop under a power cut, and the proof that `init` finishes the transfer the cut interrupted;
  - `CutWrite`: the whole write path under a power cut.

Behaviour of the code that the model keeps as written:

- **The backward scan of `write` visits word 0.** It runs down to `idx > pageBase`, so it compares the erase counter with the address and then reads the header as the value. With no record of `a`, a counter equal to `a` and a value of 0, the write reports OK and stores nothing. `WriteProof.CounterQuirk` states this. `read` stops at the first record and never sees the counter.
- **A failed in-place completion falls through to append.** It does not report the flash error, although the doc comment of `write` (IEEPROM.cpp:540) lists a flash error code on a failed write.
- **The full-page check uses `>=`.** Appends can fill a page with `maxcount()` distinct addresses. Overwriting one of them is then refused with OUT_SIZE, although the records a transfer would keep fit the spare page exactly (`EepromProof.FullPageRefusesOverwrite`).
- **`erases()` reports the valid page's header plus 2, not the erase counter.** Its doc comment (IEEPROM.cpp:450) says it returns the erase counter, but the header of the valid page is VALID (0), so it always reports 2.
- **Lazy initialisation has two conditions.**
  - `read`, `write` and `count` run `init` again only when the status is NOT_INIT.
  - `erases` runs it again whenever the status is not OK.
  - `write` refuses the reserved address 0xFFFF only after this initialisation, and on every store except one whose initialisation has just failed.
- **`EE_FindValidPage` accepts a VALID page only if the other page's header reads ERASED.**

## Model

| member | source | states |
|---|---|---|
| Layout.FlashCode | examples/arm/IEEPROM/src/IEEPROM.h:6-14 | every FLASH_Status is stored as a code in 1..7 |
| Layout.Code | examples/arm/IEEPROM/src/IEEPROM.h:68-75 | a status is stored as 0 exactly when it is EEPROM_OK, and as a code in 1..7 other than 5 (FLASH_COMPLETE) exactly when it is a propagated flash error |
| Layout.CodeInjective | examples/arm/IEEPROM/src/IEEPROM.h:68-75 | distinct statuses have distinct codes, so a flash error is never read back as OK or as an engine code |
| Layout.FlashCodeInjective | examples/arm/IEEPROM/src/IEEPROM.h:6-14 | the FLASH_Status values are pairwise distinct |
| Layout.SentinelsOnlyClearBits | examples/arm/IEEPROM/src/IEEPROM.h:63-65 | the three sentinels are distinct, and ERASED to RECEIVE_DATA to VALID only clears bits |
| Layout.DefaultDataIsErased | examples/arm/IEEPROM/src/IEEPROM.h:77 | the value reported for a missing variable is the erased halfword 0xFFFF |
| Layout.DefaultConfigSound | examples/arm/IEEPROM/src/IEEPROM.h:34-60 | the compiled layout has 0x400-byte pages at 0x0801F800, adjacent and disjoint, and every halfword of both pages lies in the range IS_FLASH_ADDRESS accepts |
| Layout.MaxCount | examples/arm/IEEPROM/src/IEEPROM.cpp:582-585 | maxcount() is one less than the number of 4-byte words of a page, the record slot count |
| Flash.ProgramHalfWord | examples/arm/IEEPROM/src/IEEPROM.cpp:684-705 | only the addressed halfword of the addressed page can change, and only to the new value when the cell reads 0xFFFF or the value is 0; a reported error other than a timeout leaves the page as it was, a timeout may leave the cell programmed; with working hardware inside the flash range it succeeds exactly when the cell is programmable |
| Flash.ProgramLateTimeout | examples/arm/IEEPROM/src/IEEPROM.cpp:693-697 | a timeout of the wait after the write was issued is reported as FLASH_TIMEOUT while the cell holds the new value |
| Flash.ErasePage | examples/arm/IEEPROM/src/IEEPROM.cpp:651-675 | on success the page reads all 0xFFFF; a reported error other than a timeout leaves it unchanged, a timeout leaves it unchanged or blank; the other page is never touched; with working hardware it succeeds |
| Flash.EraseLateTimeout | examples/arm/IEEPROM/src/IEEPROM.cpp:660-666 | a timeout of the wait after the erase was started is reported as FLASH_TIMEOUT while the page is blank |
| PageScan.FirstBlank | examples/arm/IEEPROM/src/IEEPROM.cpp:150-156 | the result is the first slot at or after i whose word reads 0xFFFFFFFF, or the slot count when none does |
| PageScan.FirstUsed | examples/arm/IEEPROM/src/IEEPROM.cpp:21-26 | the result is the first non-blank slot at or after i, and it is the slot count exactly when every slot from i on is blank |
| PageScan.CheckPage | examples/arm/IEEPROM/src/IEEPROM.cpp:13-28 | EE_CheckPage is OK exactly when the header reads ERASED or the given status and every record word reads 0xFFFFFFFF, and BAD_FLASH otherwise |
| PageScan.LatestIn | examples/arm/IEEPROM/src/IEEPROM.cpp:521-525 | the backward scan finds the highest slot in range carrying the address, and finds none exactly when no slot in range carries it |
| PageScan.FirstIn | examples/arm/IEEPROM/src/IEEPROM.cpp:172-177 | the forward scan finds the lowest slot in range carrying the address, and finds none exactly when no slot carries it |
| PageScan.CountFrom | examples/arm/IEEPROM/src/IEEPROM.cpp:111-125 | the outer counting loop from slot i counts at most the slots left |
| PageScan.VariablesCount | examples/arm/IEEPROM/src/IEEPROM.cpp:104-127 | EE_GetVariablesCount never exceeds the record slot count |
| PageScan.CountIsDistinct | examples/arm/IEEPROM/src/IEEPROM.cpp:104-127 | the count equals the number of distinct address halfwords in the scanned slots, other than 0xFFFF and the skipped address |
| Engine.EraseWithCounter | examples/arm/IEEPROM/src/IEEPROM.cpp:37-53 | on success the page is ERASED with blank records, and its counter is the old counter plus one (mod 2^16) when the old header was a known status, else 0; the other page is untouched |
| Engine.CheckErasePage | examples/arm/IEEPROM/src/IEEPROM.cpp:63-74 | OK only for a page that is ERASED or the given status with blank records; a page that already passes is left alone; the result is OK, BAD_FLASH or a flash error; with working hardware it is OK |
| Engine.FindValidPage | examples/arm/IEEPROM/src/IEEPROM.cpp:82-95 | page 0 exactly when page 0 reads VALID and page 1 ERASED, page 1 in the mirror case, and none for every other pair |
| Engine.CopyLoop | examples/arm/IEEPROM/src/IEEPROM.cpp:164-200 | the copy loop never touches the old page or the new page's header, only advances the free slot, and stops only with OUT_SIZE or a flash error |
| Engine.PageTransfer | examples/arm/IEEPROM/src/IEEPROM.cpp:139-215 | on OK the new page is VALID and the old page ERASED and blank; otherwise the new page's header is unchanged, except that a timeout of the final header program may leave it VALID; a new page without a free slot gives OUT_SIZE with nothing touched |
| Engine.CommitTransfer | examples/arm/IEEPROM/src/IEEPROM.cpp:202-214 | the old page is verified-erased before the new header is programmed VALID; on OK the new page's records are unchanged; on failure the new page's header is unchanged, or, after a timeout of the header program, the new page is exactly its old image with a VALID header |
| Engine.AppendRecord | examples/arm/IEEPROM/src/IEEPROM.cpp:260-272 | on OK the slot holds the value then the address and nothing else changed; with working hardware a blank slot is filled |
| Engine.WriteFull | examples/arm/IEEPROM/src/IEEPROM.cpp:274-285 | OUT_SIZE with the flash untouched exactly when the variable count without the address, plus one, reaches the slot count less one |
| Engine.StartTransfer | examples/arm/IEEPROM/src/IEEPROM.cpp:287-304 | an OUT_SIZE from the transfer leaves the spare page marked RECEIVE_DATA, and it was ERASED before |
| Engine.WriteVariable | examples/arm/IEEPROM/src/IEEPROM.cpp:228-305 | NO_VALID_PAGE with the flash untouched when there is no valid page; OK with nothing programmed when the latest record found by the scan down to the counter already holds the value |
| Engine.Format | examples/arm/IEEPROM/src/IEEPROM.cpp:426-447 | on OK page 0 is VALID with blank records and page 1 is ERASED and blank; the result is OK, BAD_FLASH or a flash error; with working hardware it is OK |
| Engine.InitPages | examples/arm/IEEPROM/src/IEEPROM.cpp:323-419 | on OK one page is VALID and found as the valid page, and the other is ERASED and blank; BAD_ADDRESS and NOT_INIT never result |
| Engine.PromoteThenErase | examples/arm/IEEPROM/src/IEEPROM.cpp:347-353 | on OK page 1 is its old image with the header VALID, and page 0 is ERASED and blank |
| ScanFacts.LatestInDrop | examples/arm/IEEPROM/src/IEEPROM.cpp:243-244 | widening the backward scan by one slot at the bottom finds the same slot, or the new slot when nothing above matched |
| ScanFacts.LatestInRaise | examples/arm/IEEPROM/src/IEEPROM.cpp:521-522 | widening the backward scan by one slot at the top finds that slot when it matches, else the same slot |
| ScanFacts.LatestInFrame | examples/arm/IEEPROM/src/IEEPROM.cpp:521-522 | the backward scan depends only on the address halfwords of the scanned slots |
| ScanFacts.LookupBelowFrame | examples/arm/IEEPROM/src/IEEPROM.cpp:521-523 | the lookup depends only on the scanned slots |
| ScanFacts.LatestInBlankTail | examples/arm/IEEPROM/src/IEEPROM.cpp:521-522 | blank slots never match an address other than 0xFFFF, so the scan may start below the blank tail |
| ScanFacts.LookupBlankTail | examples/arm/IEEPROM/src/IEEPROM.cpp:521-528 | the lookup of an address other than 0xFFFF ignores the blank tail |
| ScanFacts.FirstInLatestIn | examples/arm/IEEPROM/src/IEEPROM.cpp:118-123 | the forward and backward scans agree on whether the address occurs |
| ScanFacts.LookupAppend | examples/arm/IEEPROM/src/IEEPROM.cpp:263-270 | a record written into slot f is what the lookup below f + 1 finds for its address, and every other address reads as below f |
| ScanFacts.FirstBlankIs | examples/arm/IEEPROM/src/IEEPROM.cpp:260-261 | the first blank slot is the one after the used slots, when it is blank or the end of the page |
| ScanFacts.AppendKeepsLog | examples/arm/IEEPROM/src/IEEPROM.cpp:260-272 | appending into the first blank slot keeps the blank slots a suffix, moves the first blank slot on by one, makes the address read the value and leaves every other address alone |
| ScanFacts.FillKeepsLog | examples/arm/IEEPROM/src/IEEPROM.cpp:249-253 | completing the value of the latest record makes the address read the value, keeps the page's shape and leaves every other address alone |
| ScanFacts.ValueUpdate | examples/arm/IEEPROM/src/IEEPROM.cpp:250 | programming a value halfword changes no address halfword and no other value halfword |
| CopyInvariant.Copied | examples/arm/IEEPROM/src/IEEPROM.cpp:164-200 | the number of old slots the copy loop copies is at most the number of slots walked |
| CopyInvariant.CopiedMonotone | examples/arm/IEEPROM/src/IEEPROM.cpp:164-200 | walking more of the old page never copies fewer records |
| TransferProof.TargetDrop | examples/arm/IEEPROM/src/IEEPROM.cpp:164-180 | walking one more old slot changes what the new page must say only for that slot's address, and only if nothing decided it before |
| TransferProof.PassStep | examples/arm/IEEPROM/src/IEEPROM.cpp:166-181 | an old record with a blank or skipped address, or already on the new page, is passed over and the loop invariant still holds |
| TransferProof.CopyRoom | examples/arm/IEEPROM/src/IEEPROM.cpp:183-198 | a record to copy counts once, and the room hypothesis leaves a free slot for it, so OUT_SIZE is not reached |
| TransferProof.ProgramSlot | examples/arm/IEEPROM/src/IEEPROM.cpp:184-194 | with working hardware, programming value then address into a blank slot succeeds and changes only that slot |
| TransferProof.CopyCounts | examples/arm/IEEPROM/src/IEEPROM.cpp:164-181 | a record the loop has to copy is the latest of its address on the old page, is not on the new page, and counts once among the copied records |
| TransferProof.CopyStepAt | examples/arm/IEEPROM/src/IEEPROM.cpp:183-196 | with a free slot left, a copied record lands in it, the free slot moves on and the loop invariant still holds |
| TransferProof.CopyInv | examples/arm/IEEPROM/src/IEEPROM.cpp:183-196 | the loop invariant holds one slot further down on the device where the copied record was programmed |
| TransferProof.CopyUnroll | examples/arm/IEEPROM/src/IEEPROM.cpp:183-196 | with both programs succeeding, the loop continues from the programmed device and the next free slot |
| TransferProof.NextPage | examples/arm/IEEPROM/src/IEEPROM.cpp:183-196 | after a copy the new page keeps its blank suffix and every address reads as the invariant requires |
| TransferProof.CopyLoopCorrect | examples/arm/IEEPROM/src/IEEPROM.cpp:164-200 | started in the invariant with room for every record to copy, the copy loop runs to the end and the new page reads, for every address, the first of its own records or else the old page's latest record |
| TransferProof.LoopStep | examples/arm/IEEPROM/src/IEEPROM.cpp:164-200 | with room for the whole transfer, one turn of the copy loop, copied or passed over, keeps the invariant |
| TransferProof.TurnOn | examples/arm/IEEPROM/src/IEEPROM.cpp:164-194 | a turn that passes over a record, or copies one into a free slot, keeps the invariant one slot further down |
| TransferProof.FullStop | examples/arm/IEEPROM/src/IEEPROM.cpp:183-198 | a record to copy with no free slot left stops the loop with OUT_SIZE, and the old page then holds more to copy than there was room |
| TransferProof.CopyLoopStops | examples/arm/IEEPROM/src/IEEPROM.cpp:164-200 | the copy loop stops with OUT_SIZE exactly when the old page holds more records to copy than the new page had free slots, and otherwise runs to the end |
| TransferProof.TransferStart | examples/arm/IEEPROM/src/IEEPROM.cpp:150-162 | before the copy loop the invariant holds with the new page's records untouched |
| TransferProof.TransferEnd | examples/arm/IEEPROM/src/IEEPROM.cpp:202-214 | after the copy loop the old page is erased, the new page becomes VALID and answers every lookup as the invariant says |
| TransferProof.TargetIsMerged | examples/arm/IEEPROM/src/IEEPROM.cpp:164-200 | with the whole old page walked, the new page's reading of an address is its own record if any, else the old page's latest record unless skipped |
| TransferProof.TransferMerges | examples/arm/IEEPROM/src/IEEPROM.cpp:139-215 | with working hardware, a log-shaped new page and room: OK; the new page VALID, log-shaped, one slot per copied address, each address read as its own record or else the old page's latest; the old page ERASED and blank |
| TransferProof.TransferOutSize | examples/arm/IEEPROM/src/IEEPROM.cpp:139-200 | with working hardware and a log-shaped new page with a free slot, the transfer reports OUT_SIZE exactly when the old page holds more addresses to copy than the new page has free slots, and then the old page and the new header are as they were; otherwise it reports OK |
| WriteProof.GoodIsFound | examples/arm/IEEPROM/src/IEEPROM.cpp:235-238 | in the state between operations, the valid page is the one EE_FindValidPage returns |
| WriteProof.AppendCorrect | examples/arm/IEEPROM/src/IEEPROM.cpp:260-272 | with working hardware the append succeeds, keeps the state good, moves the first blank slot on by one, makes the address read the value and leaves every other address alone |
| WriteProof.FillCorrect | examples/arm/IEEPROM/src/IEEPROM.cpp:249-253 | with working hardware the in-place completion succeeds, keeps the state good, makes the address read the value and leaves every other address alone |
| WriteProof.CopiedIsCount | examples/arm/IEEPROM/src/IEEPROM.cpp:276 | for a spare page holding only the new record, the records the transfer copies are exactly those EE_GetVariablesCount counts |
| WriteProof.ReceiveCorrect | examples/arm/IEEPROM/src/IEEPROM.cpp:287-302 | with working hardware the spare page gets the RECEIVE_DATA header and the record in its first slot, and the old page is untouched |
| WriteProof.FullCorrect | examples/arm/IEEPROM/src/IEEPROM.cpp:281-304 | when the count leaves room, the spare page becomes the valid page, reads the value for the address and reads every other address as the old page did |
| WriteProof.ReceivedMerges | examples/arm/IEEPROM/src/IEEPROM.cpp:304 | the transfer that skips the written address succeeds from a spare page holding only that record, and its result reads the new value there and the old page elsewhere |
| WriteProof.ReceivedRoom | examples/arm/IEEPROM/src/IEEPROM.cpp:276-278 | a count that passes the full-page check leaves the spare page room for every record the transfer copies |
| WriteProof.OneRecordReads | examples/arm/IEEPROM/src/IEEPROM.cpp:172-181 | merging into a page whose only record is the written one reads the new value for its address and the old page elsewhere |
| WriteProof.OneRecordMerged | examples/arm/IEEPROM/src/IEEPROM.cpp:166-181 | per address: the skipped address keeps the new record, every other address takes the old page's latest record |
| WriteProof.MatchCorrect | examples/arm/IEEPROM/src/IEEPROM.cpp:243-248 | a latest record already holding the value gives OK with nothing programmed, and the written-state promise holds |
| WriteProof.WriteCorrect | examples/arm/IEEPROM/src/IEEPROM.cpp:228-305 | from a good state with working hardware: OK or OUT_SIZE; OUT_SIZE exactly when no in-place case applies, the page has no blank slot and the count check fails, with the flash untouched; OK leaves a good state where the address reads the value (but for the counter quirk) and every other address reads as before |
| WriteProof.RewriteIsNoop | examples/arm/IEEPROM/src/IEEPROM.cpp:243-248 | writing the value an address already reads programs nothing |
| WriteProof.CounterQuirk | examples/arm/IEEPROM/src/IEEPROM.cpp:243-248 | with no record of the address, a counter equal to it and the value 0, the write reports OK, programs nothing and the address stays missing |
| WriteProof.WriteTwice | examples/arm/IEEPROM/src/IEEPROM.cpp:228-305 | after a successful write, the same write again programs nothing |
| Eeprom.Create | examples/arm/IEEPROM/src/IEEPROM.cpp:307-313 | the constructor gives the compiled layout with status NOT_INIT; the definition is spelled `iEEPROMClass` while IEEPROM.h:83 declares `IEEPROMClass`, and the model takes it as the declared constructor |
| Eeprom.Init | examples/arm/IEEPROM/src/IEEPROM.cpp:323-419 | init caches its result, which is never NOT_INIT or BAD_ADDRESS; on OK the pages are settled with a valid page |
| Eeprom.Format | examples/arm/IEEPROM/src/IEEPROM.cpp:426-447 | format leaves the cached status alone; on OK page 0 is the valid page with no records |
| Eeprom.InitIfNotInit | examples/arm/IEEPROM/src/IEEPROM.cpp:505-509 | a NOT_INIT store runs init and takes its result, any other store is left alone; afterwards the status is not NOT_INIT |
| Eeprom.Erases | examples/arm/IEEPROM/src/IEEPROM.cpp:456-473 | a store whose status is not OK is re-initialised first, an OK store is left alone; on OK it reports 2 and there is a valid page; the output is set exactly on OK |
| Eeprom.ErasesReport | examples/arm/IEEPROM/src/IEEPROM.cpp:465-472 | OK exactly when the status is OK and there is a valid page, and then the report is 2 |
| Eeprom.Read | examples/arm/IEEPROM/src/IEEPROM.cpp:498-529 | the output is always set; unless a just-run init failed, with a valid page the code is OK exactly when the address has a record, giving its latest value, and BAD_ADDRESS with 0xFFFF otherwise, whatever stale status the store held; every failure gives 0xFFFF |
| Eeprom.ReadAfterInit | examples/arm/IEEPROM/src/IEEPROM.cpp:505-529 | an init that just failed is reported with its status; otherwise, with a valid page, OK exactly when the address has a record, with its latest value, and BAD_ADDRESS with 0xFFFF otherwise |
| Eeprom.ReadValidPage | examples/arm/IEEPROM/src/IEEPROM.cpp:511-528 | NO_VALID_PAGE exactly without a valid page; with one, OK exactly when the address has a record, giving the latest record's value, and otherwise BAD_ADDRESS with 0xFFFF |
| Eeprom.ReadValue | examples/arm/IEEPROM/src/IEEPROM.cpp:481-486 | read(address) keeps the store the lazy initialisation left; unless that initialisation just failed, with a valid page it returns the latest record's value of the address or 0xFFFF when there is none; whenever read(address, &data) fails it returns 0xFFFF |
| Eeprom.Write | examples/arm/IEEPROM/src/IEEPROM.cpp:543-558 | write keeps the status init left; unless an initialisation has just failed, the address 0xFFFF is refused with BAD_ADDRESS and nothing changes, and any other address is handed to the engine's write, whose code and flash are returned |
| Eeprom.WriteAfterInit | examples/arm/IEEPROM/src/IEEPROM.cpp:545-557 | an init that just failed is reported with the flash untouched; otherwise, whatever the cached status, 0xFFFF is refused with BAD_ADDRESS and nothing changes, and any other address is handed to the engine's write |
| Eeprom.Count | examples/arm/IEEPROM/src/IEEPROM.cpp:564-580 | the output is set exactly on OK; unless a just-run init failed, OK exactly when there is a valid page, whatever stale status the store held; the output is then EE_GetVariablesCount of the valid page with no address skipped, at most maxcount() |
| Eeprom.CountAfterInit | examples/arm/IEEPROM/src/IEEPROM.cpp:566-579 | the output is set exactly on OK; unless the init just run failed, OK exactly when there is a valid page; the output is then EE_GetVariablesCount of the valid page with no address skipped, at most maxcount() |
| InitProof.InitRefuses | examples/arm/IEEPROM/src/IEEPROM.cpp:334-417 | init reports NO_VALID_PAGE exactly for VALID/VALID and the header pairs its case table has no entry for, and then touches nothing |
| InitProof.HeaderKeepsLookup | examples/arm/IEEPROM/src/IEEPROM.cpp:521 | read starts at the first record, so changing the header changes no lookup |
| InitProof.InitKeepsValid | examples/arm/IEEPROM/src/IEEPROM.cpp:389-396 | one page VALID and the other neither VALID nor RECEIVE_DATA: with working hardware init succeeds, the valid page is found and its content is unchanged |
| InitProof.InitPromotes | examples/arm/IEEPROM/src/IEEPROM.cpp:370-379 | a RECEIVE_DATA page beside an ERASED one (or, for page 1, beside any header but VALID and RECEIVE_DATA) becomes the valid page with its records and lookups unchanged |
| InitProof.InitFormats | examples/arm/IEEPROM/src/IEEPROM.cpp:354-356 | both pages ERASED: init formats and page 0 becomes the valid page with every address missing |
| InitProof.InitRedoesTransfer | examples/arm/IEEPROM/src/IEEPROM.cpp:366-369 | RECEIVE_DATA beside VALID with room: init redoes the transfer with nothing skipped, and the receiving page becomes valid, reading its own records first and the old page's latest records for the rest |
| EepromProof.ReadIsLookup | examples/arm/IEEPROM/src/IEEPROM.cpp:498-529 | on an initialised store, read is OK exactly when the valid page has a record of the address, and gives its latest value, else 0xFFFF with BAD_ADDRESS |
| EepromProof.WriteThenRead | examples/arm/IEEPROM/src/IEEPROM.cpp:543-558 | with working hardware a write is OK or OUT_SIZE; OUT_SIZE changes nothing; after OK the store is healthy, read returns the value (but for the counter quirk) and every other address reads as before |
| EepromProof.CountIsDistinctAddresses | examples/arm/IEEPROM/src/IEEPROM.cpp:564-580 | count reports the number of distinct addresses other than 0xFFFF on the valid page, which is at most maxcount() |
| EepromProof.LiveWithout | examples/arm/IEEPROM/src/IEEPROM.cpp:113-115 | skipping one more address removes exactly that address from the counted set |
| EepromProof.FullPageRefusesOverwrite | examples/arm/IEEPROM/src/IEEPROM.cpp:274-279 | a full valid page holding maxcount() distinct addresses refuses to overwrite one of them with OUT_SIZE and changes nothing, although the records to keep number exactly maxcount() |
| EepromProof.OthersCount | examples/arm/IEEPROM/src/IEEPROM.cpp:276 | with one address per slot, the count that skips one of them is the slot count less two |
| EepromProof.FormatForgets | examples/arm/IEEPROM/src/IEEPROM.cpp:426-447 | with working hardware format succeeds, and afterwards every address other than 0xFFFF reads BAD_ADDRESS with 0xFFFF |
| PowerCut.ProgramCut | examples/arm/IEEPROM/src/IEEPROM.cpp:684-705 | on fault-free hardware, programming a programmable cell either programs it or, once the power is gone, reports a timeout and changes nothing; the hardware stays fault-free |
| PowerCut.LostProgram | examples/arm/IEEPROM/src/IEEPROM.cpp:684-705 | once the power is gone, every program inside the flash range reports a timeout and changes nothing, whatever the cell holds |
| PowerCut.EraseCut | examples/arm/IEEPROM/src/IEEPROM.cpp:651-675 | on fault-free hardware the erase either blanks the page or, once the power is gone, reports a timeout and changes nothing |
| PowerCut.GoodRecovers | examples/arm/IEEPROM/src/IEEPROM.cpp:323-419 | after a reboot in the state between operations, init succeeds, programs nothing and finds the same valid page |
| PowerCut.GoodRecoversAs | examples/arm/IEEPROM/src/IEEPROM.cpp:323-419 | a state between operations whose valid page reads as required recovers as required after a reboot |
| PowerCut.HalfSlot | examples/arm/IEEPROM/src/IEEPROM.cpp:263-270 | a cut between the value and the address of a record leaves the blank slots a suffix and changes no lookup of an address other than 0xFFFF |
| PowerCut.HalfSlotShape | examples/arm/IEEPROM/src/IEEPROM.cpp:263-267 | after a half-programmed record the slot has address 0xFFFF, it counts as used unless the value is 0xFFFF, and every other slot is unchanged |
| PowerCut.HalfSlotLookup | examples/arm/IEEPROM/src/IEEPROM.cpp:521-528 | the lookup of an address other than 0xFFFF never sees a half-programmed record |
| CutTransfer.SlotPrograms | examples/arm/IEEPROM/src/IEEPROM.cpp:186-194 | programming the value and then the address of slot f sets exactly that slot |
| CutTransfer.CutStep | examples/arm/IEEPROM/src/IEEPROM.cpp:164-200 | one turn of the copy loop under a cut either keeps the loop invariant on the rebooted flash or stops with a timeout where the interrupted-transfer description holds |
| CutTransfer.CutPass | examples/arm/IEEPROM/src/IEEPROM.cpp:166-181 | a turn that passes over an old record programs nothing, so a cut cannot stop it, and the invariant holds one slot further down |
| CutTransfer.CutCopy | examples/arm/IEEPROM/src/IEEPROM.cpp:183-194 | a cut before the value halfword of a copied record stops the loop with the receiving page as after the last complete record |
| CutTransfer.CutSecond | examples/arm/IEEPROM/src/IEEPROM.cpp:191-196 | a cut before the address halfword stops the loop with the value alone programmed into the free slot; otherwise the invariant holds one slot further down |
| CutTransfer.SecondLost | examples/arm/IEEPROM/src/IEEPROM.cpp:191-194 | the loop stopped between the two halfwords of a copied record reports a timeout, with the value alone programmed |
| CutTransfer.SecondInv | examples/arm/IEEPROM/src/IEEPROM.cpp:183-196 | with both halfwords programmed, the invariant holds one slot further down on the rebooted flash |
| CutTransfer.CopyLoopCut | examples/arm/IEEPROM/src/IEEPROM.cpp:164-200 | from the invariant with room, the copy loop under a cut either runs to the end with the invariant for the whole old page, or stops with a timeout in a state the interrupted-transfer description covers |
| CutTransfer.RedoRecovers | examples/arm/IEEPROM/src/IEEPROM.cpp:366-369 | a log-shaped RECEIVE_DATA page with room beside the VALID page recovers after a reboot, reading its own records first and the old page's for the rest |
| CutTransfer.LatestInUpper | examples/arm/IEEPROM/src/IEEPROM.cpp:521-522 | the latest record of an address in an upper range is also its latest in any wider range below |
| CutTransfer.TargetThenOld | examples/arm/IEEPROM/src/IEEPROM.cpp:164-181 | a transfer started from the record (v, a) alone, merged with the old page, reads v for a and the old page elsewhere |
| CutTransfer.RedoCopies | examples/arm/IEEPROM/src/IEEPROM.cpp:171-181 | the transfer init redoes copies an old record below the interrupted transfer's position only if the interrupted transfer would have copied it |
| CutTransfer.TailNotCopied | examples/arm/IEEPROM/src/IEEPROM.cpp:171-180 | the redone transfer does not copy again an old record the interrupted transfer already walked |
| CutTransfer.RedoCopiedTail | examples/arm/IEEPROM/src/IEEPROM.cpp:164-181 | the redone transfer copies nothing from the part of the old page the interrupted one walked |
| CutTransfer.RedoCopied | examples/arm/IEEPROM/src/IEEPROM.cpp:164-200 | the redone transfer copies at most what the interrupted one still had left to copy |
| CutTransfer.RedoPage | examples/arm/IEEPROM/src/IEEPROM.cpp:183-198 | the receiving page a cut leaves is log-shaped with a free slot, has room for the redone transfer, and reads v for a and the old page elsewhere |
| CutTransfer.InterruptedPage | examples/arm/IEEPROM/src/IEEPROM.cpp:183-198 | the receiving page of an interrupted transfer that started from (v, a) is log-shaped, has room, and reads v for a and the old page elsewhere |
| CutTransfer.RecoverInterrupted | examples/arm/IEEPROM/src/IEEPROM.cpp:366-369 | after a cut in the copy loop of a write's transfer, init redoes the transfer after the reboot and the write took |
| CutWrite.CountSkipOne | examples/arm/IEEPROM/src/IEEPROM.cpp:111-125 | the count with nothing skipped is the count that skips a, plus one exactly when a occurs |
| CutWrite.HeaderKeepsShape | examples/arm/IEEPROM/src/IEEPROM.cpp:209-211 | programming the header keeps the blank slots a suffix and the first blank slot |
| CutWrite.PromotedRecovers | examples/arm/IEEPROM/src/IEEPROM.cpp:347-379 | a log-shaped RECEIVE_DATA page beside an ERASED one, reading as the write leaves the valid page, is promoted after a reboot and the write took |
| CutWrite.CommittedPage | examples/arm/IEEPROM/src/IEEPROM.cpp:164-200 | after the copy loop of a write's transfer, the receiving page is log-shaped and reads v for a and the old page elsewhere |
| CutWrite.CommitCut | examples/arm/IEEPROM/src/IEEPROM.cpp:202-214 | a cut in the commit of a write's transfer recovers with the write taken: before the erase init redoes the transfer, later it promotes the receiving page |
| CutWrite.CommitAfterErase | examples/arm/IEEPROM/src/IEEPROM.cpp:202-214 | once the old page is erased, a cut before the counter, before the VALID header, or none, recovers with the write taken |
| CutWrite.CommitDone | examples/arm/IEEPROM/src/IEEPROM.cpp:208-214 | a commit that ran to the end leaves a state between operations where the write took |
| CutWrite.RecoverEarly | examples/arm/IEEPROM/src/IEEPROM.cpp:287-302 | a cut before the first record of the receiving page is complete recovers with the write not taken: init redoes the transfer with nothing to add |
| CutWrite.TransferCut | examples/arm/IEEPROM/src/IEEPROM.cpp:304 | a cut anywhere in the transfer of a write into a full page recovers with the write taken |
| CutWrite.StartCut | examples/arm/IEEPROM/src/IEEPROM.cpp:287-304 | a cut anywhere in the full-page path recovers either as before the write or with the write taken |
| CutWrite.ReceiveCut | examples/arm/IEEPROM/src/IEEPROM.cpp:293-304 | once the receiving page's header reads RECEIVE_DATA, a cut anywhere later recovers as before the write or with the write taken |
| CutWrite.ReceivedShape | examples/arm/IEEPROM/src/IEEPROM.cpp:293-302 | the receiving page after its first record holds (v, a) in slot 1 and is log-shaped with slot 2 free |
| CutWrite.AppendCut | examples/arm/IEEPROM/src/IEEPROM.cpp:260-272 | a cut anywhere in the append recovers either as before the write or with the write taken |
| CutWrite.AppendSecond | examples/arm/IEEPROM/src/IEEPROM.cpp:267-271 | once the value halfword is appended, a cut before the address recovers as before the write, and otherwise the write took |
| CutWrite.HalfRecovers | examples/arm/IEEPROM/src/IEEPROM.cpp:263-270 | a cut between the two halfwords of an appended record recovers as before the write |
| CutWrite.AppendDone | examples/arm/IEEPROM/src/IEEPROM.cpp:260-272 | a complete append recovers with the write taken |
| CutWrite.FillCut | examples/arm/IEEPROM/src/IEEPROM.cpp:249-255 | the in-place completion under a cut either programs the value and the write took, or changes nothing and reports a timeout |
| CutWrite.FillDone | examples/arm/IEEPROM/src/IEEPROM.cpp:249-253 | a completed in-place value recovers with the write taken |
| CutWrite.LostStays | examples/arm/IEEPROM/src/IEEPROM.cpp:255-304 | once the power is gone, the rest of the write path after a failed completion changes nothing |
| CutWrite.WriteCut | examples/arm/IEEPROM/src/IEEPROM.cpp:228-305 | from the state between operations with an address other than 0xFFFF, a power cut at any primitive of the write leaves a flash that init, after the reboot, turns into a state between operations whose valid page reads either as before the write or with a holding v and every other address as before |

## Left out

- The three-argument `init(pageBase0, pageBase1, pageSize)` (IEEPROM.cpp:315-321) is not modelled. It reconfigures the layout and then runs `init()`. The model's configuration is fixed in the store. Every routine takes it as a parameter, so another layout is covered by choosing another `Config`, within `ValidConfig`: a page whose end is 0x1_0000_0000 makes the code's `uint32` page end wrap to 0, and such layouts are excluded.
- The code does not validate a configuration. The model assumes `ValidConfig`: disjoint pages of at least one record, a size that is a multiple of 4 and at most 0x1_0000 bytes, and 32-bit addresses. The size cap keeps the `uint16` record count of `EE_GetVariablesCount` (IEEPROM.cpp:108-125) from wrapping. Overlapping or odd-sized pages have no meaning in the two-sequence representation.
- Left out as hardware side effects with no effect on the flash contents:
  - the `FLASH_Unlock` calls (IEEPROM.cpp:328, 431);
  - `FLASH_Lock`, `delay`, `FLASH_GetStatus` and the busy-wait of `FLASH_WaitForLastOperation` (IEEPROM.cpp:587-728);
  - the register writes inside the two primitives.
- The outcome of each primitive comes from the device's plan, a parameter: success, a fault reported before the command is issued, a timeout after the command took effect, or a power loss. Busy states and timeouts are therefore outcomes the plan supplies. A timeout is modelled as the command either never issued or fully carried out; a partly programmed halfword or partly erased page is not modelled.
- A power loss is modelled as sticky and atomic per primitive: the interrupted primitive and every later one leave the cells as they were. Torn programs and half-erased pages are not modelled.
- `FLASH_ErasePage` only asserts `IS_FLASH_ADDRESS` (IEEPROM.cpp:655), so the model's erase does not check the address.
- The global instance `ieepromClass` (IEEPROM.cpp:730) is replaced by an explicit `Store` value.
- The code keeps status, engine codes and flash codes in one `uint16`. The model keeps them as the `Status` datatype; `Code` gives the `uint16` and is proved injective.
- Recovery from a power cut is proved for the write path (`CutWrite.WriteCut`), starting from the state between operations. It is not proved for a cut during `init` or `format` themselves, nor for a second cut during the recovering `init`.
- Recovery assumes hardware that reports no fault and no timeout before the power goes. A reported fault or timeout followed by a power loss is not covered.
- CutWrite.WriteCut: requires an address other than 0xFFFF and the state between operations. The public `write` refuses 0xFFFF before the engine runs, and a write after a failed one starts from whatever that write left, which is not covered.
- The property that the engine only programs cells reading 0xFFFF, or writes VALID over RECEIVE_DATA, is not stated as a global lemma. The device refuses any other program with a programming error. With working hardware the correctness lemmas prove every write and transfer returns OK, so no refused program occurs on those paths.
- Engine.WriteVariable: its own contract covers only the no-valid-page and value-already-present cases. The full case analysis is stated by `WriteProof.WriteCorrect` for the good state between operations, with working hardware.
- Engine.StartTransfer: its contract covers only OUT_SIZE from the transfer. Its success path is stated by `WriteProof.FullCorrect`.
- Eeprom.Write: its own contract covers the status and the 0xFFFF refusal, and says that any other address is handed to `Engine.WriteVariable`, whose code and flash it returns. What a write stores is stated by `EepromProof.WriteThenRead` for a healthy store with working hardware, and by `WriteProof.WriteCorrect` for the engine in a good state.
- Eeprom.WriteAfterInit: the same as `Eeprom.Write`, once the lazy initialisation is done: the contract states the hand-over to `Engine.WriteVariable` (IEEPROM.cpp:555-557), and what the engine stores is stated by `WriteProof.WriteCorrect` for a good state with working hardware only.
- Last write wins over a sequence of writes is stated for one write at a time (`EepromProof.WriteThenRead`), not as a lemma over a sequence.

=== FILE: copy_invariant.dfy ===
/** The invariant of the copy loop of `EE_PageTransfer`: what the new page says
    about each address once part of the old page has been walked, and how many
    old slots the loop copies. */
module CopyInvariant {
  import opened Layout
  import opened Flash
  import opened PageScan
  import opened Engine

  /** What the new page's slots [1, free) say about `a` once the old page's slots
      [k, N) have been walked. */
  ghost function Target(n0: seq<Half>, f0: nat, o: seq<Half>, skip: Half, k: nat, a: Half): Option<Half>
    requires 1 <= f0 <= SlotCount(n0) && 1 <= k <= SlotCount(o)
  {
    if LatestIn(n0, a, 1, f0).Some? then LookupBelow(n0, a, f0)
    else if a != skip && LatestIn(o, a, k, SlotCount(o)).Some? then
      Some(ValueAt(o, LatestIn(o, a, k, SlotCount(o)).value))
    else None
  }

  /** Whether the copy loop copies the old page's slot `j`: a live record whose
      address has no later record on the old page and no record on the new page's
      first `f0` slots. */
  predicate Copies(n0: seq<Half>, f0: nat, o: seq<Half>, skip: Half, j: nat)
    requires 1 <= f0 <= SlotCount(n0) && j < SlotCount(o)
  {
    && Live(o, skip, j)
    && LatestIn(n0, AddressAt(o, j), 1, f0).None?
    && LatestIn(o, AddressAt(o, j), j + 1, SlotCount(o)).None?
  }

  /** How many of the old page's slots [k, N) the copy loop copies. */
  function Copied(n0: seq<Half>, f0: nat, o: seq<Half>, skip: Half, k: nat): (r: nat)
    requires 1 <= f0 <= SlotCount(n0) && k <= SlotCount(o)
    ensures r <= SlotCount(o) - k
    decreases SlotCount(o) - k
  {
    if k == SlotCount(o) then 0
    else Copied(n0, f0, o, skip, k + 1) + (if Copies(n0, f0, o, skip, k) then 1 else 0)
  }

  /** Walking more of the old page never copies fewer slots. */
  lemma {:induction false} CopiedMonotone(n0: seq<Half>, f0: nat, o: seq<Half>, skip: Half, k: nat, k': nat)
    requires 1 <= f0 <= SlotCount(n0) && k' <= k <= SlotCount(o)
    ensures Copied(n0, f0, o, skip, k) <= Copied(n0, f0, o, skip, k')
    decreases k - k'
  {
    if k' < k {
      CopiedMonotone(n0, f0, o, skip, k, k' + 1);
    }
  }

  /** Address `a` (unless it is 0xFFFF) reads on the new page's slots [1, free) as
      its target once the old page's slots [k, N) were walked. */
  ghost predicate AgreeAt(pg: seq<Half>, n0: seq<Half>, f0: nat, o: seq<Half>, skip: Half, k: nat, free: nat, a: Half)
    requires 1 <= free <= SlotCount(pg) && 1 <= f0 <= SlotCount(n0) && 1 <= k <= SlotCount(o)
  {
    a != PageErased ==> LookupBelow(pg, a, free) == Target(n0, f0, o, skip, k, a)
  }

  /** The loop invariant of the copy loop, with the old page's slots [k, N) walked. */
  ghost predicate Inv(c: Config, d: Dev, np: PageId, skip: Half, n0: seq<Half>, f0: nat, o: seq<Half>, k: nat, free: nat)
  {
    && Wf(c, d) && NoFaults(d) && InFlash(c)
    && 1 <= k <= Slots(c)
    && |n0| == 2 * Slots(c) && |o| == 2 * Slots(c)
    && 1 <= f0 <= free <= Slots(c)
    && PageOf(d, np.Other()) == o
    && BlankFrom(PageOf(d, np), free)
    && (forall j :: 1 <= j < free ==> !SlotBlank(PageOf(d, np), j))
    && (forall a: Half :: AgreeAt(PageOf(d, np), n0, f0, o, skip, k, free, a))
    && free - f0 == Copied(n0, f0, o, skip, k)
  }

  /** The copy loop ran to the end without stopping, leaving the invariant for the
      whole old page. */
  ghost predicate Done(c: Config, r: Copy, np: PageId, skip: Half, n0: seq<Half>, f0: nat, o: seq<Half>)
  {
    r.stop.None? && Inv(c, r.dev, np, skip, n0, f0, o, 1, r.free)
  }
}

=== FILE: cut_transfer.dfy ===
/** The copy loop of a page transfer under a possible power cut: where a cut
    can leave the receiving page, and the proof that `init`, after the reboot,
    finishes the transfer the cut interrupted. */
module CutTransfer {
  import opened Layout
  import opened Flash
  import opened PageScan
  import opened Engine
  import opened ScanFacts
  import opened CopyInvariant
  import opened TransferProof
  import opened WriteProof
  import opened InitProof
  import opened PowerCut

  /** Where a cut can stop the copy loop. Device `e` is the flash as it was after
      the last complete record, satisfying the loop invariant with the old page's
      slots [k, N) walked and `free` the next free slot; the cut flash `d` differs
      from it at most in the value halfword of slot `free`, programmed with the
      value `x` when the cut came between the two halfwords of a copied record. */
  ghost predicate Interrupted(c: Config, d: Dev, e: Dev, np: PageId, skip: Half, n0: seq<Half>, f0: nat, o: seq<Half>,
                              k: nat, free: nat, x: Option<Half>)
  {
    && Wf(c, d) && Inv(c, e, np, skip, n0, f0, o, k, free)
    && PageOf(d, np.Other()) == o
    && match x
       case None => PageOf(d, np) == PageOf(e, np)
       case Some(h) =>
         && 1 < k && free < Slots(c)
         && Copied(n0, f0, o, skip, k - 1) == Copied(n0, f0, o, skip, k) + 1
         && PageOf(d, np) == PageOf(e, np)[2 * free := h]
  }

  /** How the copy loop `r` ends under a possible cut: it runs to the end with
      the invariant for the whole old page on the rebooted flash, or it stops
      with a timeout because the power went, as Interrupted describes. */
  ghost predicate Stopped(c: Config, r: Copy, np: PageId, skip: Half, n0: seq<Half>, f0: nat, o: seq<Half>,
                          e: Dev, k: nat, free: nat, x: Option<Half>)
  {
    && Cuts(r.dev)
    && (r.stop.None? ==> Inv(c, Reboot(r.dev), np, skip, n0, f0, o, 1, r.free))
    && (r.stop.Some? ==>
          && r.stop == Some(FlashError(Timeout)) && Lost(r.dev)
          && Interrupted(c, r.dev, e, np, skip, n0, f0, o, k, free, x))
  }

  /** Programming value then address into slot `f`: what the page holds after
      both halfwords. */
  lemma SlotPrograms(pg: seq<Half>, pg': seq<Half>, f: nat, v: Half, a: Half)
    requires IsPage(pg) && 1 <= f < SlotCount(pg)
    requires pg' == pg[2 * f := v][2 * f + 1 := a]
    ensures SlotCount(pg') == SlotCount(pg)
    ensures AddressAt(pg', f) == a && ValueAt(pg', f) == v
    ensures forall j :: 0 <= j < SlotCount(pg) && j != f ==>
              AddressAt(pg', j) == AddressAt(pg, j) && ValueAt(pg', j) == ValueAt(pg, j)
  {
  }

  /** One turn of the copy loop under a possible cut: either the loop goes on
      from device `d2` and free slot `f2` with the invariant one slot further
      down on the rebooted flash, or the cut stopped it here. */
  lemma CutStep(c: Config, d: Dev, np: PageId, skip: Half, n0: seq<Half>, f0: nat, o: seq<Half>, k: nat, free: nat)
      returns (d2: Dev, f2: nat, e: Dev, x: Option<Half>, cut: bool)
    requires Cuts(d) && Inv(c, Reboot(d), np, skip, n0, f0, o, k, free) && k > 1
    requires Copied(n0, f0, o, skip, 1) <= Slots(c) - f0
    ensures !cut ==>
              && Cuts(d2) && Inv(c, Reboot(d2), np, skip, n0, f0, o, k - 1, f2)
              && CopyLoop(c, d, np, skip, k, free) == CopyLoop(c, d2, np, skip, k - 1, f2)
    ensures cut ==> Stopped(c, CopyLoop(c, d, np, skip, k, free), np, skip, n0, f0, o, e, k, free, x)
  {
    var a := AddressAt(o, k - 1);
    if a == PageErased || a == skip || FirstIn(PageOf(d, np), a, 1, free).Some? {
      d2, f2, e, x, cut := CutPass(c, d, np, skip, n0, f0, o, k, free);
    } else {
      d2, f2, e, x, cut := CutCopy(c, d, np, skip, n0, f0, o, k, free);
    }
  }

  /** A turn of the copy loop that passes over the old page's slot k - 1
      programs nothing, so no cut can stop it. */
  lemma CutPass(c: Config, d: Dev, np: PageId, skip: Half, n0: seq<Half>, f0: nat, o: seq<Half>, k: nat, free: nat)
      returns (d2: Dev, f2: nat, e: Dev, x: Option<Half>, cut: bool)
    requires Cuts(d) && Inv(c, Reboot(d), np, skip, n0, f0, o, k, free) && k > 1
    requires var a := AddressAt(o, k - 1);
             a == PageErased || a == skip || FirstIn(PageOf(d, np), a, 1, free).Some?
    ensures !cut && d2 == d && f2 == free
    ensures Inv(c, Reboot(d2), np, skip, n0, f0, o, k - 1, f2)
    ensures CopyLoop(c, d, np, skip, k, free) == CopyLoop(c, d2, np, skip, k - 1, f2)
  {
    PassStep(c, Reboot(d), np, skip, n0, f0, o, k, free);
    d2, f2, e, x, cut := d, free, d, None, false;
  }

  /** A turn of the copy loop that copies the old page's slot k - 1 into slot
      `free`, under a possible cut before either halfword. */
  lemma CutCopy(c: Config, d: Dev, np: PageId, skip: Half, n0: seq<Half>, f0: nat, o: seq<Half>, k: nat, free: nat)
      returns (d2: Dev, f2: nat, e: Dev, x: Option<Half>, cut: bool)
    requires Cuts(d) && Inv(c, Reboot(d), np, skip, n0, f0, o, k, free) && k > 1
    requires Copied(n0, f0, o, skip, 1) <= Slots(c) - f0
    requires var a := AddressAt(o, k - 1);
             a != PageErased && a != skip && FirstIn(PageOf(d, np), a, 1, free).None?
    ensures !cut ==>
              && Cuts(d2) && Inv(c, Reboot(d2), np, skip, n0, f0, o, k - 1, f2)
              && CopyLoop(c, d, np, skip, k, free) == CopyLoop(c, d2, np, skip, k - 1, f2)
    ensures cut ==> Stopped(c, CopyLoop(c, d, np, skip, k, free), np, skip, n0, f0, o, e, k, free, x)
  {
    f2 := free + 1;
    var rd := Reboot(d);
    CopyRoom(c, rd, np, skip, n0, f0, o, k, free);
    var v := ValueAt(o, k - 1);
    assert SlotBlank(PageOf(d, np), free);
    ProgramCut(c, d, np, 2 * free, v);
    var w1 := ProgramHalfWord(c, d, np, 2 * free, v);
    if Lost(d) {
      d2, e, x, cut := d, rd, None, true;
    } else {
      d2, e, x, cut := CutSecond(c, d, w1.dev, np, skip, n0, f0, o, k, free);
    }
  }

  /** The address halfword of a copied record, once its value halfword is
      programmed into slot `free` of device `d1`: a cut leaves the half slot. */
  lemma CutSecond(c: Config, d: Dev, d1: Dev, np: PageId, skip: Half, n0: seq<Half>, f0: nat, o: seq<Half>, k: nat, free: nat)
      returns (d2: Dev, e: Dev, x: Option<Half>, cut: bool)
    requires Cuts(d) && Inv(c, Reboot(d), np, skip, n0, f0, o, k, free) && k > 1 && free < Slots(c)
    requires var a := AddressAt(o, k - 1);
             && a != PageErased && a != skip && FirstIn(PageOf(d, np), a, 1, free).None?
             && LatestIn(n0, a, 1, f0).None? && LatestIn(o, a, k, SlotCount(o)).None?
    requires Copied(n0, f0, o, skip, k - 1) == Copied(n0, f0, o, skip, k) + 1
    requires !Lost(d)
    requires var w1 := ProgramHalfWord(c, d, np, 2 * free, ValueAt(o, k - 1));
             && w1.dev == d1 && w1.fs == Complete && Cuts(d1)
             && PageOf(d1, np) == PageOf(d, np)[2 * free := ValueAt(o, k - 1)]
    ensures !cut ==>
              && Cuts(d2) && Inv(c, Reboot(d2), np, skip, n0, f0, o, k - 1, free + 1)
              && CopyLoop(c, d, np, skip, k, free) == CopyLoop(c, d2, np, skip, k - 1, free + 1)
    ensures cut ==> Stopped(c, CopyLoop(c, d, np, skip, k, free), np, skip, n0, f0, o, e, k, free, x)
  {
    var a := AddressAt(o, k - 1);
    assert SlotBlank(PageOf(d, np), free);
    ProgramCut(c, d1, np, 2 * free + 1, a);
    var w2 := ProgramHalfWord(c, d1, np, 2 * free + 1, a);
    if Lost(d1) {
      SecondLost(c, d, d1, np, skip, n0, f0, o, k, free);
      d2, e, x, cut := d1, Reboot(d), Some(ValueAt(o, k - 1)), true;
    } else {
      assert PageOf(d, np.Other()) == o;
      CopyUnroll(c, d, np, skip, k, free);
      SecondInv(c, d, w2.dev, np, skip, n0, f0, o, k, free);
      d2, e, x, cut := w2.dev, d1, None, false;
    }
  }

  /** The cut comes between the two halfwords of a copied record. */
  lemma SecondLost(c: Config, d: Dev, d1: Dev, np: PageId, skip: Half, n0: seq<Half>, f0: nat, o: seq<Half>, k: nat, free: nat)
    requires Cuts(d) && Inv(c, Reboot(d), np, skip, n0, f0, o, k, free) && k > 1 && free < Slots(c)
    requires var a := AddressAt(o, k - 1);
             a != PageErased && a != skip && FirstIn(PageOf(d, np), a, 1, free).None?
    requires Copied(n0, f0, o, skip, k - 1) == Copied(n0, f0, o, skip, k) + 1
    requires !Lost(d) && Lost(d1)
    requires var w1 := ProgramHalfWord(c, d, np, 2 * free, ValueAt(o, k - 1));
             && w1.dev == d1 && w1.fs == Complete && Cuts(d1)
             && PageOf(d1, np) == PageOf(d, np)[2 * free := ValueAt(o, k - 1)]
    requires var w2 := ProgramHalfWord(c, d1, np, 2 * free + 1, AddressAt(o, k - 1));
             w2 == Flashed(Timeout, d1)
    ensures Stopped(c, CopyLoop(c, d, np, skip, k, free), np, skip, n0, f0, o, Reboot(d), k, free, Some(ValueAt(o, k - 1)))
  {
    assert CopyLoop(c, d, np, skip, k, free) == Copy(Some(FlashError(Timeout)), d1, free);
  }

  /** Both halfwords of a copied record are programmed: the invariant holds one
      slot further down on the rebooted flash. */
  lemma SecondInv(c: Config, d: Dev, d2: Dev, np: PageId, skip: Half, n0: seq<Half>, f0: nat, o: seq<Half>, k: nat, free: nat)
    requires Inv(c, Reboot(d), np, skip, n0, f0, o, k, free) && k > 1 && free < Slots(c)
    requires var a := AddressAt(o, k - 1);
             && a != PageErased && a != skip
             && LatestIn(n0, a, 1, f0).None? && LatestIn(o, a, k, SlotCount(o)).None?
    requires Copied(n0, f0, o, skip, k - 1) == Copied(n0, f0, o, skip, k) + 1
    requires Wf(c, d2) && PageOf(d2, np.Other()) == o
    requires PageOf(d2, np) == PageOf(d, np)[2 * free := ValueAt(o, k - 1)][2 * free + 1 := AddressAt(o, k - 1)]
    ensures Inv(c, Reboot(d2), np, skip, n0, f0, o, k - 1, free + 1)
  {
    SlotPrograms(PageOf(d, np), PageOf(d2, np), free, ValueAt(o, k - 1), AddressAt(o, k - 1));
    CopyInv(c, Reboot(d), Reboot(d2), np, skip, n0, f0, o, k, free);
  }

  /** The copy loop under a possible cut, started in the invariant on the
      rebooted flash and with room for every address it has to copy: it runs to
      the end, or the cut stops it in a state Interrupted describes. */
  lemma {:induction false} CopyLoopCut(c: Config, d: Dev, np: PageId, skip: Half, n0: seq<Half>, f0: nat, o: seq<Half>,
                                       k: nat, free: nat)
      returns (r: Copy, e: Dev, k': nat, f': nat, x: Option<Half>)
    requires Cuts(d) && Inv(c, Reboot(d), np, skip, n0, f0, o, k, free)
    requires Copied(n0, f0, o, skip, 1) <= Slots(c) - f0
    ensures r == CopyLoop(c, d, np, skip, k, free)
    ensures Stopped(c, r, np, skip, n0, f0, o, e, k', f', x)
    decreases k
  {
    if k == 1 {
      r, e, k', f', x := Copy(None, d, free), Reboot(d), 1, free, None;
    } else {
      var d2, f2, e1, x1, cut := CutStep(c, d, np, skip, n0, f0, o, k, free);
      if cut {
        r, e, k', f', x := CopyLoop(c, d, np, skip, k, free), e1, k, free, x1;
      } else {
        r, e, k', f', x := CopyLoopCut(c, d2, np, skip, n0, f0, o, k - 1, f2);
      }
    }
  }

  /** A RECEIVE_DATA page beside the VALID page, log-shaped and with room for the
      transfer `init` redoes: when its own records, with the old page's for the
      rest, read as a recovery must read, the reboot recovers. */
  lemma RedoRecovers(c: Config, d: Dev, np: PageId, o: seq<Half>, a: Half, v: Half, took: bool)
    requires Wf(c, d) && InFlash(c) && o == PageOf(d, np.Other())
    requires var n := PageOf(d, np);
             && Header(n) == PageReceiveData && Header(o) == PageValid
             && FirstBlank(n, 1) < Slots(c) && LogShaped(n)
             && Copied(n, FirstBlank(n, 1), o, PageErased, 1) <= Slots(c) - FirstBlank(n, 1)
    requires var n := PageOf(d, np);
             forall b :: b != PageErased ==>
               (if Lookup(n, b).Some? then Lookup(n, b) else Lookup(o, b)) == if took && b == a then Some(v) else Lookup(o, b)
    ensures Recovers(c, d, o, a, v, took)
  {
    var rd := Reboot(d);
    InitRedoesTransfer(c, rd, np);
    var i := InitPages(c, rd);
    assert Good(c, i.dev, np);
  }

  /** The latest record of `b` among slots [k, hi), if any, is its latest among
      any wider range [lo, hi). */
  lemma LatestInUpper(pg: seq<Half>, b: Half, lo: nat, k: nat, hi: nat)
    requires lo <= k <= hi <= SlotCount(pg) && LatestIn(pg, b, k, hi).Some?
    ensures LatestIn(pg, b, lo, hi) == LatestIn(pg, b, k, hi)
  {
    var j := LatestIn(pg, b, k, hi).value;
    var r := LatestIn(pg, b, lo, hi);
    assert r.Some? && r.value >= j;
  }

  /** A transfer that started from the record (v, a) alone, skipping `a`, and
      walked the old page's slots [k, N): merged with the old page, its target
      reads `v` for `a` and as the old page for every other address. */
  lemma TargetThenOld(n0: seq<Half>, o: seq<Half>, a: Half, v: Half, k: nat, b: Half)
    requires IsPage(n0) && IsPage(o) && 1 <= k <= SlotCount(o) && b != PageErased
    requires AddressAt(n0, 1) == a && ValueAt(n0, 1) == v
    ensures var t := Target(n0, 2, o, a, k, b);
            (if t.Some? then t else Lookup(o, b)) == if b == a then Some(v) else Lookup(o, b)
  {
    if b != a && LatestIn(o, b, k, SlotCount(o)).Some? {
      LatestInUpper(o, b, 1, k, SlotCount(o));
    }
  }

  /** Whether the transfer `init` redoes copies the old page's slot `j` below the
      part the interrupted transfer walked: only if the interrupted one would have
      copied it too. */
  lemma RedoCopies(n: seq<Half>, f: nat, n0: seq<Half>, o: seq<Half>, a: Half, k: nat, j: nat)
    requires 1 <= f <= SlotCount(n) && 2 <= SlotCount(n0) && 1 <= j < k <= SlotCount(o)
    requires AddressAt(n0, 1) == a && a != PageErased
    requires forall b: Half :: AgreeAt(n, n0, 2, o, a, k, f, b)
    ensures Copies(n, f, o, PageErased, j) ==> Copies(n0, 2, o, a, j)
  {
    if Copies(n, f, o, PageErased, j) {
      var b := AddressAt(o, j);
      assert AgreeAt(n, n0, 2, o, a, k, f, b);
      assert LookupBelow(n, b, f).None?;
      assert LatestIn(n0, a, 1, 2).Some?;
    }
  }

  /** An old slot the interrupted transfer walked is not copied again: its
      address is on the receiving page already. */
  lemma TailNotCopied(n: seq<Half>, f: nat, n0: seq<Half>, o: seq<Half>, a: Half, k: nat, j: nat)
    requires 1 <= f <= SlotCount(n) && 2 <= SlotCount(n0) && 1 <= k <= j < SlotCount(o)
    requires AddressAt(n0, 1) == a && a != PageErased
    requires forall b: Half :: AgreeAt(n, n0, 2, o, a, k, f, b)
    ensures !Copies(n, f, o, PageErased, j)
  {
    var b := AddressAt(o, j);
    assert AgreeAt(n, n0, 2, o, a, k, f, b);
  }

  /** The redone transfer copies nothing from the part of the old page the
      interrupted one walked. */
  lemma {:induction false} RedoCopiedTail(n: seq<Half>, f: nat, n0: seq<Half>, o: seq<Half>, a: Half, k: nat, j: nat)
    requires 1 <= f <= SlotCount(n) && 2 <= SlotCount(n0) && 1 <= k <= j <= SlotCount(o)
    requires AddressAt(n0, 1) == a && a != PageErased
    requires forall b: Half :: AgreeAt(n, n0, 2, o, a, k, f, b)
    ensures Copied(n, f, o, PageErased, j) == 0
    decreases SlotCount(o) - j
  {
    if j < SlotCount(o) {
      RedoCopiedTail(n, f, n0, o, a, k, j + 1);
      TailNotCopied(n, f, n0, o, a, k, j);
    }
  }

  /** The redone transfer copies at most what the interrupted one had left to
      copy below slot `k`. */
  lemma {:induction false} RedoCopied(n: seq<Half>, f: nat, n0: seq<Half>, o: seq<Half>, a: Half, k: nat, j: nat)
    requires 1 <= f <= SlotCount(n) && 2 <= SlotCount(n0) && 1 <= j <= k <= SlotCount(o)
    requires AddressAt(n0, 1) == a && a != PageErased
    requires forall b: Half :: AgreeAt(n, n0, 2, o, a, k, f, b)
    ensures Copied(n, f, o, PageErased, j) + Copied(n0, 2, o, a, k) <= Copied(n0, 2, o, a, j)
    decreases k - j
  {
    if j < k {
      RedoCopied(n, f, n0, o, a, k, j + 1);
      RedoCopies(n, f, n0, o, a, k, j);
    } else {
      RedoCopiedTail(n, f, n0, o, a, k, k);
    }
  }

  /** The receiving page of an interrupted transfer that started from the record
      (v, a) alone: `m` is the page after the last complete record, and the cut
      may have programmed `h` into the value halfword of the free slot. It is
      log-shaped with a blank slot left, has room for the transfer `init` redoes,
      and with the old page's records for the rest reads `v` for `a` and as the
      old page elsewhere. */
  lemma RedoPage(n0: seq<Half>, o: seq<Half>, m: seq<Half>, a: Half, v: Half, k: nat, free: nat, h: Half)
    requires IsPage(n0) && IsPage(o) && IsPage(m) && SlotCount(n0) == SlotCount(o) == SlotCount(m)
    requires AddressAt(n0, 1) == a && ValueAt(n0, 1) == v && a != PageErased
    requires 1 <= k <= SlotCount(o) && 2 <= free < SlotCount(m)
    requires BlankFrom(m, free) && forall j :: 1 <= j < free ==> !SlotBlank(m, j)
    requires forall b: Half :: AgreeAt(m, n0, 2, o, a, k, free, b)
    requires free - 2 == Copied(n0, 2, o, a, k) && Copied(n0, 2, o, a, 1) + 1 < SlotCount(o) - 1
    requires h != PageErased ==> Copied(n0, 2, o, a, k) < Copied(n0, 2, o, a, 1)
    ensures var n := m[2 * free := h];
            && IsPage(n) && LogShaped(n) && FirstBlank(n, 1) < SlotCount(n)
            && Copied(n, FirstBlank(n, 1), o, PageErased, 1) <= SlotCount(n) - FirstBlank(n, 1)
            && forall b :: b != PageErased ==>
                 (if Lookup(n, b).Some? then Lookup(n, b) else Lookup(o, b)) == if b == a then Some(v) else Lookup(o, b)
  {
    var n := m[2 * free := h];
    HalfSlot(m, free, h);
    var f' := if h == PageErased then free else free + 1;
    assert FirstBlank(n, 1) == f';
    forall b: Half
      ensures AgreeAt(n, n0, 2, o, a, k, f', b)
    {
      assert AgreeAt(m, n0, 2, o, a, k, free, b);
      if b != PageErased {
        assert LookupBelow(n, b, f') == LookupBelow(m, b, free);
      }
    }
    RedoCopied(n, f', n0, o, a, k, 1);
    forall b | b != PageErased
      ensures (if Lookup(n, b).Some? then Lookup(n, b) else Lookup(o, b)) == if b == a then Some(v) else Lookup(o, b)
    {
      assert AgreeAt(n, n0, 2, o, a, k, f', b);
      LookupBlankTail(n, b, f');
      TargetThenOld(n0, o, a, v, k, b);
    }
  }

  /** The receiving page a cut in the copy loop leaves, for a transfer that
      started from the record (v, a) alone and skipped `a`: log-shaped with a
      blank slot left, room for the transfer `init` redoes, and with the old
      page's records for the rest it reads `v` for `a` and as the old page
      elsewhere. */
  lemma InterruptedPage(c: Config, d: Dev, e: Dev, np: PageId, a: Half, v: Half, n0: seq<Half>, o: seq<Half>,
                        k: nat, free: nat, x: Option<Half>)
    requires Interrupted(c, d, e, np, a, n0, 2, o, k, free, x)
    requires AddressAt(n0, 1) == a && ValueAt(n0, 1) == v && a != PageErased
    requires VariablesCount(o, a) + 1 < Slots(c) - 1
    ensures var n := PageOf(d, np);
            && LogShaped(n) && FirstBlank(n, 1) < Slots(c)
            && Copied(n, FirstBlank(n, 1), o, PageErased, 1) <= Slots(c) - FirstBlank(n, 1)
            && forall b :: b != PageErased ==>
                 (if Lookup(n, b).Some? then Lookup(n, b) else Lookup(o, b)) == if b == a then Some(v) else Lookup(o, b)
  {
    var m := PageOf(e, np);
    CopiedMonotone(n0, 2, o, a, k, 1);
    CopiedIsCount(n0, o, a, 1);
    if x.Some? {
      CopiedMonotone(n0, 2, o, a, k - 1, 1);
    }
    var h := if x.Some? then x.value else PageErased;
    assert SlotBlank(m, free);
    assert PageOf(d, np) == m[2 * free := h];
    RedoPage(n0, o, m, a, v, k, free, h);
  }

  /** A cut in the copy loop of the transfer a write into a full page started,
      from the record (v, a) alone and skipping `a`: after the reboot `init`
      redoes the transfer with room to spare, and the write took. */
  lemma RecoverInterrupted(c: Config, d: Dev, e: Dev, np: PageId, a: Half, v: Half, n0: seq<Half>, o: seq<Half>,
                           k: nat, free: nat, x: Option<Half>)
    requires Interrupted(c, d, e, np, a, n0, 2, o, k, free, x)
    requires AddressAt(n0, 1) == a && ValueAt(n0, 1) == v && a != PageErased
    requires Header(PageOf(d, np)) == PageReceiveData && Header(o) == PageValid
    requires VariablesCount(o, a) + 1 < Slots(c) - 1
    ensures Recovers(c, d, o, a, v, true)
  {
    InterruptedPage(c, d, e, np, a, v, n0, o, k, free, x);
    RedoRecovers(c, d, np, o, a, v, true);
  }
}

=== FILE: cut_write.dfy ===
/** `EE_VerifyPageFullWriteVariable` under a possible power cut: wherever the
    power goes, the reboot's `init` recovers either the state before the write or
    the state after it. */
module CutWrite {
  import opened Layout
  import opened Flash
  import opened PageScan
  import opened Engine
  import opened ScanFacts
  import opened CopyInvariant
  import opened TransferProof
  import opened WriteProof
  import opened InitProof
  import opened PowerCut
  import opened CutTransfer

  /** The reboot recovers the valid page `o` as it was before writing `v` to `a`,
      or as the write leaves it. */
  ghost predicate Atomic(c: Config, d: Dev, o: seq<Half>, a: Half, v: Half)
    requires Wf(c, d) && IsPage(o)
  {
    Recovers(c, d, o, a, v, false) || Recovers(c, d, o, a, v, true)
  }

  /** Counting the live addresses with nothing skipped counts at most one more
      than skipping `a`: exactly one more when `a` occurs in the range. */
  lemma {:induction false} CountSkipOne(o: seq<Half>, a: Half, i: nat)
    requires 1 <= i <= SlotCount(o) && a != PageErased
    ensures CountFrom(o, PageErased, i) ==
              CountFrom(o, a, i) + if FirstIn(o, a, i, SlotCount(o)).Some? then 1 else 0
    decreases SlotCount(o) - i
  {
    if i < SlotCount(o) {
      CountSkipOne(o, a, i + 1);
    }
  }

  /** Rewriting the header keeps the slots, so the shape of the log. */
  lemma HeaderKeepsShape(pg: seq<Half>, h: Half)
    requires IsPage(pg) && LogShaped(pg)
    ensures LogShaped(pg[0 := h]) && FirstBlank(pg[0 := h], 1) == FirstBlank(pg, 1)
  {
    var pg' := pg[0 := h];
    var f := FirstBlank(pg, 1);
    forall j | 1 <= j < f
      ensures !SlotBlank(pg', j)
    {
      assert !SlotBlank(pg, j);
    }
    forall j | f <= j < SlotCount(pg')
      ensures SlotBlank(pg', j)
    {
      assert SlotBlank(pg, j);
    }
    FirstBlankIs(pg', 1, f);
  }

  /** A RECEIVE_DATA page that already reads as the write leaves the valid page,
      beside a page whose header reads ERASED: `init` promotes it, and the write
      took. */
  lemma PromotedRecovers(c: Config, d: Dev, np: PageId, o: seq<Half>, a: Half, v: Half)
    requires Wf(c, d) && InFlash(c) && IsPage(o)
    requires Header(PageOf(d, np)) == PageReceiveData && Header(PageOf(d, np.Other())) == PageErased
    requires LogShaped(PageOf(d, np))
    requires forall b :: b != PageErased ==> Lookup(PageOf(d, np), b) == if b == a then Some(v) else Lookup(o, b)
    ensures Recovers(c, d, o, a, v, true)
  {
    InitPromotes(c, Reboot(d), np);
    HeaderKeepsShape(PageOf(d, np), PageValid);
  }

  /** The receiving page of a transfer that started from the record (v, a) alone,
      once the copy loop has walked the whole old page: log-shaped, and it reads
      `v` for `a` and as the old page elsewhere. */
  lemma CommittedPage(c: Config, d: Dev, np: PageId, n0: seq<Half>, o: seq<Half>, a: Half, v: Half, free: nat)
    requires Inv(c, Reboot(d), np, a, n0, 2, o, 1, free)
    requires AddressAt(n0, 1) == a && ValueAt(n0, 1) == v && a != PageErased && BlankFrom(n0, 2)
    ensures var n := PageOf(d, np);
            && LogShaped(n) && FirstBlank(n, 1) == free
            && forall b :: b != PageErased ==> Lookup(n, b) == if b == a then Some(v) else Lookup(o, b)
  {
    var n := PageOf(d, np);
    FirstBlankIs(n, 1, free);
    forall b | b != PageErased
      ensures Lookup(n, b) == if b == a then Some(v) else Lookup(o, b)
    {
      assert AgreeAt(n, n0, 2, o, a, 1, free, b);
      LookupBlankTail(n, b, free);
      TargetIsMerged(n0, 2, o, a, b);
      OneRecordMerged(n0, o, a, v, b);
    }
  }

  /** The commit of a transfer under a possible cut, once the copy loop has
      walked the whole old page: a cut before the erase leaves the transfer for
      `init` to redo, a later one leaves the receiving page for `init` to
      promote, and either way the write took. */
  lemma CommitCut(c: Config, d: Dev, np: PageId, n0: seq<Half>, o: seq<Half>, a: Half, v: Half, free: nat)
    requires Cuts(d) && Inv(c, Reboot(d), np, a, n0, 2, o, 1, free)
    requires Header(PageOf(d, np)) == PageReceiveData && Header(o) == PageValid
    requires AddressAt(n0, 1) == a && ValueAt(n0, 1) == v && a != PageErased && BlankFrom(n0, 2)
    requires VariablesCount(o, a) + 1 < Slots(c) - 1
    ensures Recovers(c, CommitTransfer(c, d, np).dev, o, a, v, true)
  {
    var p := np.Other();
    assert p.Other() == np;
    EraseCut(c, d, p);
    if Lost(d) {
      assert Interrupted(c, d, Reboot(d), np, a, n0, 2, o, 1, free, None);
      RecoverInterrupted(c, d, Reboot(d), np, a, v, n0, o, 1, free, None);
    } else {
      CommittedPage(c, d, np, n0, o, a, v, free);
      CommitAfterErase(c, d, np, o, a, v);
    }
  }

  /** The commit after the erase of the old page went through: the cut comes
      before the erase counter, before the VALID header, or not at all. */
  lemma CommitAfterErase(c: Config, d: Dev, np: PageId, o: seq<Half>, a: Half, v: Half)
    requires Wf(c, d) && Cuts(d) && InFlash(c) && IsPage(o) && !Lost(d)
    requires PageOf(d, np.Other()) == o && Header(o) == PageValid
    requires Header(PageOf(d, np)) == PageReceiveData && LogShaped(PageOf(d, np))
    requires forall b :: b != PageErased ==> Lookup(PageOf(d, np), b) == if b == a then Some(v) else Lookup(o, b)
    ensures Recovers(c, CommitTransfer(c, d, np).dev, o, a, v, true)
  {
    var p := np.Other();
    assert p.Other() == np;
    var n := PageOf(d, np);
    EraseCut(c, d, p);
    var er := ErasePage(c, d, p);
    var data: Half := (Counter(o) + 1) % 0x1_0000;
    ProgramCut(c, er.dev, p, 1, data);
    var w := ProgramHalfWord(c, er.dev, p, 1, data);
    if Lost(er.dev) {
      PromotedRecovers(c, er.dev, np, o, a, v);
    } else {
      var e := CheckErasePage(c, d, p, PageErased);
      assert e == Res(Ok, w.dev);
      ProgramCut(c, w.dev, np, 0, PageValid);
      var h := ProgramHalfWord(c, w.dev, np, 0, PageValid);
      if Lost(w.dev) {
        PromotedRecovers(c, w.dev, np, o, a, v);
      } else {
        CommitDone(c, w.dev, h.dev, np, o, a, v);
      }
    }
  }

  /** The commit ran to the end: the receiving page, now VALID, is the valid
      page of a good state and the write took. */
  lemma CommitDone(c: Config, d: Dev, d2: Dev, np: PageId, o: seq<Half>, a: Half, v: Half)
    requires Wf(c, d) && Wf(c, d2) && IsPage(o)
    requires Ready(PageOf(d, np.Other()), PageErased) && PageOf(d2, np.Other()) == PageOf(d, np.Other())
    requires LogShaped(PageOf(d, np))
    requires forall b :: b != PageErased ==> Lookup(PageOf(d, np), b) == if b == a then Some(v) else Lookup(o, b)
    requires PageOf(d2, np) == PageOf(d, np)[0 := PageValid]
    ensures Recovers(c, d2, o, a, v, true)
  {
    var n := PageOf(d, np);
    HeaderKeepsShape(n, PageValid);
    forall b | b != PageErased
      ensures Lookup(PageOf(d2, np), b) == if b == a then Some(v) else Lookup(o, b)
    {
      HeaderKeepsLookup(n, PageValid, b);
    }
    GoodRecoversAs(c, d2, np, o, a, v, true);
  }

  /** A cut before the first record of a transfer is complete: the receiving
      page holds the RECEIVE_DATA header and at most the value halfword `x` of
      its first slot, so `init` redoes the transfer from scratch and the write did
      not take. */
  lemma RecoverEarly(c: Config, d: Dev, np: PageId, m: seq<Half>, o: seq<Half>, a: Half, v: Half, x: Half)
    requires Wf(c, d) && InFlash(c) && o == PageOf(d, np.Other()) && Header(o) == PageValid
    requires IsPage(m) && Header(m) == PageReceiveData && RecordsBlank(m) && PageOf(d, np) == m[2 := x]
    requires a != PageErased && VariablesCount(o, a) + 1 < Slots(c) - 1
    ensures Recovers(c, d, o, a, v, false)
  {
    var n := m[2 := x];
    assert SlotBlank(m, 1);
    HalfSlot(m, 1, x);
    if x != PageErased {
      CopiedIsCount(n, o, PageErased, 1);
      CountSkipOne(o, a, 1);
    }
    forall b | b != PageErased
      ensures (if Lookup(n, b).Some? then Lookup(n, b) else Lookup(o, b)) == Lookup(o, b)
    {
      LookupBlankTail(m, b, 1);
    }
    RedoRecovers(c, d, np, o, a, v, false);
  }

  /** The transfer of a write into a full page, once the receiving page holds the
      RECEIVE_DATA header and the record (v, a): a cut in the copy loop or in the
      commit leaves `init` a transfer to redo or a page to promote, and the
      write took. */
  lemma TransferCut(c: Config, d: Dev, np: PageId, a: Half, v: Half)
    requires Wf(c, d) && Cuts(d) && InFlash(c) && a != PageErased
    requires var n0 := PageOf(d, np);
             && Header(n0) == PageReceiveData && AddressAt(n0, 1) == a && ValueAt(n0, 1) == v
             && LogShaped(n0) && FirstBlank(n0, 1) == 2
    requires Header(PageOf(d, np.Other())) == PageValid
    requires VariablesCount(PageOf(d, np.Other()), a) + 1 < Slots(c) - 1
    ensures Recovers(c, PageTransfer(c, d, np, a).dev, PageOf(d, np.Other()), a, v, true)
  {
    var n0 := PageOf(d, np);
    var o := PageOf(d, np.Other());
    ReceivedRoom(n0, o, a, v);
    TransferStart(c, Reboot(d), np, a);
    var r, e, k', f', x := CopyLoopCut(c, d, np, a, n0, 2, o, Slots(c), 2);
    if r.stop.Some? {
      RecoverInterrupted(c, r.dev, e, np, a, v, n0, o, k', f', x);
    } else {
      CommitCut(c, r.dev, np, n0, o, a, v, r.free);
    }
  }

  /** The three programs that start the transfer of a write into a full page:
      RECEIVE_DATA into the spare page's header, then `v` and `a` into its first
      slot. */
  lemma StartCut(c: Config, d: Dev, p: PageId, a: Half, v: Half)
    requires Good(c, d, p) && Cuts(d) && InFlash(c) && a != PageErased
    requires VariablesCount(PageOf(d, p), a) + 1 < Slots(c) - 1
    ensures Atomic(c, StartTransfer(c, d, p.Other(), a, v).dev, PageOf(d, p), a, v)
  {
    var np := p.Other();
    assert np.Other() == p;
    var o := PageOf(d, p);
    ProgramCut(c, d, np, 0, PageReceiveData);
    var h := ProgramHalfWord(c, d, np, 0, PageReceiveData);
    if Lost(d) {
      GoodRecoversAs(c, d, p, o, a, v, false);
    } else {
      ReceiveCut(c, d, h.dev, np, a, v);
    }
  }

  /** The first slot of the receiving page, once its header reads RECEIVE_DATA. */
  lemma ReceiveCut(c: Config, d: Dev, d1: Dev, np: PageId, a: Half, v: Half)
    requires Wf(c, d) && Cuts(d1) && InFlash(c) && a != PageErased && !Lost(d)
    requires Header(PageOf(d, np.Other())) == PageValid && Ready(PageOf(d, np), PageErased)
    requires VariablesCount(PageOf(d, np.Other()), a) + 1 < Slots(c) - 1
    requires var h := ProgramHalfWord(c, d, np, 0, PageReceiveData);
             && h.dev == d1 && h.fs == Complete
             && PageOf(d1, np) == PageOf(d, np)[0 := PageReceiveData]
    ensures var r := StartTransfer(c, d, np, a, v);
            Atomic(c, r.dev, PageOf(d, np.Other()), a, v)
  {
    var o := PageOf(d, np.Other());
    var m := PageOf(d1, np);
    assert SlotBlank(PageOf(d, np), 1);
    assert RecordsBlank(m) by {
      forall j | 1 <= j < SlotCount(m)
        ensures SlotBlank(m, j)
      {
        assert SlotBlank(PageOf(d, np), j);
      }
    }
    ProgramCut(c, d1, np, 2, v);
    var w1 := ProgramHalfWord(c, d1, np, 2, v);
    if Lost(d1) {
      assert m[2 := PageErased] == m;
      RecoverEarly(c, d1, np, m, o, a, v, PageErased);
    } else {
      ProgramCut(c, w1.dev, np, 3, a);
      var w2 := ProgramHalfWord(c, w1.dev, np, 3, a);
      if Lost(w1.dev) {
        RecoverEarly(c, w1.dev, np, m, o, a, v, v);
      } else {
        ReceivedShape(m, PageOf(w2.dev, np), a, v);
        TransferCut(c, w2.dev, np, a, v);
      }
    }
  }

  /** The receiving page after its first record: log-shaped with one record. */
  lemma ReceivedShape(m: seq<Half>, n0: seq<Half>, a: Half, v: Half)
    requires IsPage(m) && RecordsBlank(m) && a != PageErased
    requires n0 == m[2 := v][3 := a]
    ensures Header(n0) == Header(m) && AddressAt(n0, 1) == a && ValueAt(n0, 1) == v
    ensures LogShaped(n0) && FirstBlank(n0, 1) == 2
  {
    forall j | 2 <= j < SlotCount(n0)
      ensures SlotBlank(n0, j)
    {
      assert SlotBlank(m, j);
    }
    FirstBlankIs(n0, 1, 2);
  }

  /** The append path under a possible cut: a cut before the value halfword
      changes nothing, one between the halfwords leaves a half slot no lookup
      sees, and otherwise the record is in. */
  lemma AppendCut(c: Config, d: Dev, p: PageId, a: Half, v: Half)
    requires Good(c, d, p) && Cuts(d) && InFlash(c) && a != PageErased
    requires FirstBlank(PageOf(d, p), 1) < Slots(c)
    ensures Atomic(c, AppendRecord(c, d, p, a, v, FirstBlank(PageOf(d, p), 1)).dev, PageOf(d, p), a, v)
  {
    var pg := PageOf(d, p);
    var f := FirstBlank(pg, 1);
    var r := AppendRecord(c, d, p, a, v, f);
    ProgramCut(c, d, p, 2 * f, v);
    var w1 := ProgramHalfWord(c, d, p, 2 * f, v);
    if Lost(d) {
      assert r.dev == d;
      GoodRecoversAs(c, d, p, pg, a, v, false);
    } else {
      AppendSecond(c, d, w1.dev, p, a, v);
    }
  }

  /** The address halfword of an appended record, once its value halfword is
      programmed into device `d1`. */
  lemma AppendSecond(c: Config, d: Dev, d1: Dev, p: PageId, a: Half, v: Half)
    requires Good(c, d, p) && InFlash(c) && a != PageErased && !Lost(d)
    requires var f := FirstBlank(PageOf(d, p), 1);
             && f < Slots(c)
             && var w1 := ProgramHalfWord(c, d, p, 2 * f, v);
             && w1.fs == Complete && w1.dev == d1 && Cuts(d1)
             && PageOf(d1, p) == PageOf(d, p)[2 * f := v]
    ensures Atomic(c, AppendRecord(c, d, p, a, v, FirstBlank(PageOf(d, p), 1)).dev, PageOf(d, p), a, v)
  {
    var pg := PageOf(d, p);
    var f := FirstBlank(pg, 1);
    var r := AppendRecord(c, d, p, a, v, f);
    assert SlotBlank(pg, f);
    ProgramCut(c, d1, p, 2 * f + 1, a);
    var w2 := ProgramHalfWord(c, d1, p, 2 * f + 1, a);
    if Lost(d1) {
      assert r.dev == d1;
      HalfRecovers(c, d1, p, pg, a, v, f);
    } else {
      assert r.dev == w2.dev;
      AppendDone(c, w2.dev, p, pg, a, v, f);
    }
  }

  /** A cut between the two halfwords of an appended record: the half slot is
      invisible to every lookup, so the valid page reads as before. */
  lemma HalfRecovers(c: Config, d: Dev, p: PageId, pg: seq<Half>, a: Half, v: Half, f: nat)
    requires Wf(c, d) && IsPage(pg) && Header(pg) == PageValid && LogShaped(pg)
    requires f == FirstBlank(pg, 1) < SlotCount(pg)
    requires PageOf(d, p) == pg[2 * f := v] && Ready(PageOf(d, p.Other()), PageErased)
    ensures Recovers(c, d, pg, a, v, false)
  {
    HalfSlot(pg, f, v);
    GoodRecoversAs(c, d, p, pg, a, v, false);
  }

  /** Both halfwords of an appended record are programmed: the write took. */
  lemma AppendDone(c: Config, d: Dev, p: PageId, pg: seq<Half>, a: Half, v: Half, f: nat)
    requires Wf(c, d) && IsPage(pg) && Header(pg) == PageValid && LogShaped(pg) && a != PageErased
    requires f == FirstBlank(pg, 1) < SlotCount(pg)
    requires PageOf(d, p) == pg[2 * f := v][2 * f + 1 := a] && Ready(PageOf(d, p.Other()), PageErased)
    ensures Recovers(c, d, pg, a, v, true)
  {
    SlotPrograms(pg, PageOf(d, p), f, v, a);
    AppendKeepsLog(pg, PageOf(d, p), a, v, f);
    GoodRecoversAs(c, d, p, pg, a, v, true);
  }

  /** The in-place path under a possible cut: the value halfword of the latest
      record of `a`, still blank, is programmed with `v`, or the power is gone
      and nothing changed. */
  lemma FillCut(c: Config, d: Dev, p: PageId, a: Half, v: Half, j: nat)
    requires Good(c, d, p) && Cuts(d) && InFlash(c) && a != PageErased
    requires j < Slots(c) && LatestIn(PageOf(d, p), a, 0, Slots(c)) == Some(j)
    requires ValueAt(PageOf(d, p), j) == PageErased
    ensures var w := ProgramHalfWord(c, d, p, 2 * j, v);
            && (Lost(d) ==> w == Flashed(Timeout, d))
            && (!Lost(d) ==> w.fs == Complete && Recovers(c, w.dev, PageOf(d, p), a, v, true))
  {
    var pg := PageOf(d, p);
    assert j != 0;
    LatestInDrop(pg, a, 0, Slots(c));
    ProgramCut(c, d, p, 2 * j, v);
    var w := ProgramHalfWord(c, d, p, 2 * j, v);
    if !Lost(d) {
      FillDone(c, w.dev, p, pg, a, v, j);
    }
  }

  /** The value halfword of the latest record of `a` is programmed: the write
      took. */
  lemma FillDone(c: Config, d: Dev, p: PageId, pg: seq<Half>, a: Half, v: Half, j: nat)
    requires Wf(c, d) && IsPage(pg) && Header(pg) == PageValid && LogShaped(pg) && a != PageErased
    requires 1 <= j < SlotCount(pg) && LatestIn(pg, a, 1, SlotCount(pg)) == Some(j)
    requires PageOf(d, p) == pg[2 * j := v] && Ready(PageOf(d, p.Other()), PageErased)
    ensures Recovers(c, d, pg, a, v, true)
  {
    ValueUpdate(pg, j, v);
    FillKeepsLog(pg, PageOf(d, p), a, v, j);
    GoodRecoversAs(c, d, p, pg, a, v, true);
  }

  /** Once the power is gone, the rest of the write path (append, or the
      full-page path) programs nothing. */
  lemma LostStays(c: Config, d: Dev, p: PageId, a: Half, v: Half)
    requires Good(c, d, p) && InFlash(c) && Lost(d)
    ensures var f := FirstBlank(PageOf(d, p), 1);
            (if f < Slots(c) then AppendRecord(c, d, p, a, v, f) else WriteFull(c, d, p, a, v)).dev == d
  {
    var f := FirstBlank(PageOf(d, p), 1);
    if f < Slots(c) {
      LostProgram(c, d, p, 2 * f, v);
    } else {
      LostProgram(c, d, p.Other(), 0, PageReceiveData);
    }
  }

  /** `EE_VerifyPageFullWriteVariable` from a good state, on hardware that
      reports no fault but may lose power at any primitive: whichever primitive
      the power goes at, `init` after the reboot succeeds and leaves a good state
      whose valid page reads either as before the write or with `a` holding `v`
      and every other address as before. */
  lemma WriteCut(c: Config, d: Dev, p: PageId, a: Half, v: Half)
    requires Good(c, d, p) && Cuts(d) && InFlash(c) && a != PageErased
    ensures Atomic(c, WriteVariable(c, d, a, v).dev, PageOf(d, p), a, v)
  {
    var pg := PageOf(d, p);
    GoodIsFound(c, d, p);
    var m := LatestIn(pg, a, 0, Slots(c));
    var r := WriteVariable(c, d, a, v);
    if m.Some? && ValueAt(pg, m.value) == v {
      assert r == Res(Ok, d);
      GoodRecoversAs(c, d, p, pg, a, v, false);
    } else if m.Some? && ValueAt(pg, m.value) == PageErased {
      FillCut(c, d, p, a, v, m.value);
      if Lost(d) {
        LostStays(c, d, p, a, v);
        GoodRecoversAs(c, d, p, pg, a, v, false);
      }
    } else if FirstBlank(pg, 1) < Slots(c) {
      AppendCut(c, d, p, a, v);
    } else if VariablesCount(pg, a) + 1 >= Slots(c) - 1 {
      assert r == Res(OutSize, d);
      GoodRecoversAs(c, d, p, pg, a, v, false);
    } else {
      StartCut(c, d, p, a, v);
      assert r == StartTransfer(c, d, p.Other(), a, v);
    }
  }
}

=== FILE: eeprom.dfy ===
/** The public face of IEEPROMClass: a store holding the configuration, the flash
    device and the cached `Status`, with lazy initialisation on first use. */
module Eeprom {
  import opened Layout
  import opened Flash
  import opened PageScan
  import Engine

  /** The class state: page layout, the flash it lives in, and the cached status. */
  datatype Store = Store(cfg: Config, dev: Dev, status: Status)

  /** A public operation's return code, the value it wrote to its output
      parameter (None when it left the output untouched), and the store afterwards. */
  datatype Reply = Reply(code: Status, value: Option<Half>, store: Store)

  predicate StoreWf(s: Store)
  {
    Wf(s.cfg, s.dev)
  }

  /** The valid page of the store's flash, if any. */
  function ValidPage(s: Store): Option<PageId>
    requires StoreWf(s)
  {
    Engine.FindValidPage(s.cfg, s.dev)
  }

  /** The constructor: the compiled layout over the given flash, not yet initialised. */
  function Create(dev: Dev): (s: Store)
    requires Wf(DefaultConfig, dev)
    ensures StoreWf(s) && s.status == NotInit && s.cfg == DefaultConfig && s.dev == dev
  {
    Store(DefaultConfig, dev, NotInit)
  }

  /** `init()`: run recovery and cache its result as the status. */
  function Init(s: Store): (r: Store)
    requires StoreWf(s)
    ensures StoreWf(r) && r.cfg == s.cfg
    ensures r.status != NotInit && r.status != BadAddress
    ensures r.status == Ok ==>
              ValidPage(r).Some? && Engine.Settled(r.cfg, r.dev, ValidPage(r).value)
  {
    var e := Engine.InitPages(s.cfg, s.dev);
    Store(s.cfg, e.dev, e.code)
  }

  /** `format()`: destroys every variable; does not touch the cached status. */
  function Format(s: Store): (r: Reply)
    requires StoreWf(s)
    ensures StoreWf(r.store) && r.store.cfg == s.cfg && r.store.status == s.status && r.value.None?
    ensures r.code == Ok ==> ValidPage(r.store) == Some(Page0) && RecordsBlank(r.store.dev.page0)
  {
    var e := Engine.Format(s.cfg, s.dev);
    Reply(e.code, None, s.(dev := e.dev))
  }

  /** The lazy initialisation of read, write and count: only a store that was never
      initialised runs `init` again. */
  function InitIfNotInit(s: Store): (r: Store)
    requires StoreWf(s)
    ensures StoreWf(r) && r.cfg == s.cfg && r.status != NotInit
    ensures s.status != NotInit ==> r == s
    ensures s.status == NotInit ==> r == Init(s)
  {
    if s.status == NotInit then Init(s) else s
  }

  /** `erases()`: unlike the other operations it re-runs `init` whenever the cached
      status is not OK. It reports the valid page's header halfword plus 2, and the
      valid page's header is VALID (0), so on success it always reports 2. */
  function Erases(s: Store): (r: Reply)
    requires StoreWf(s)
    ensures StoreWf(r.store) && r.store.cfg == s.cfg
    ensures r.code == Ok <==> r.value.Some?
    ensures r.code == Ok ==> r.value == Some(2) && ValidPage(r.store).Some?
    ensures s.status == Ok ==> r.store == s
    ensures s.status != Ok ==> r.store == Init(s)
  {
    ErasesReport(if s.status != Ok then Init(s) else s)
  }

  /** The report part of `erases()`, once initialisation is settled. */
  function ErasesReport(s: Store): (r: Reply)
    requires StoreWf(s)
    ensures r.store == s
    ensures r.code == Ok <==> r.value.Some?
    ensures r.code == Ok ==> r.value == Some(2) && ValidPage(s).Some?
    ensures r.code == Ok <==> s.status == Ok && ValidPage(s).Some?
  {
    if s.status != Ok then Reply(s.status, None, s)
    else
      match ValidPage(s)
      case None => Reply(NoValidPage, None, s)
      case Some(p) => Reply(Ok, Some((Header(PageOf(s.dev, p)) + 2) % 0x1_0000), s)
  }

  /** `read(address, &data)`: the value of the highest-offset record of the valid
      page whose address halfword is `a`, scanning record slots only. */
  function Read(s: Store, a: Half): (r: Reply)
    requires StoreWf(s)
    ensures StoreWf(r.store) && r.store == InitIfNotInit(s)
    ensures r.value.Some?
    ensures r.code == Ok ==>
              ValidPage(r.store).Some? && Lookup(PageOf(r.store.dev, ValidPage(r.store).value), a) == r.value
    ensures r.code == BadAddress ==>
              && r.value == Some(DefaultData) && ValidPage(r.store).Some?
              && Lookup(PageOf(r.store.dev, ValidPage(r.store).value), a).None?
    ensures r.code != Ok ==> r.value == Some(DefaultData)
    ensures !(s.status == NotInit && r.store.status != Ok) && ValidPage(r.store).Some? ==>
              && (r.code == Ok || r.code == BadAddress)
              && (r.code == Ok <==> Lookup(PageOf(r.store.dev, ValidPage(r.store).value), a).Some?)
  {
    ReadAfterInit(InitIfNotInit(s), s.status == NotInit, a)
  }

  /** `read` once the lazy initialisation is done: when it has just run and
      failed, its status is reported with the default data. */
  function ReadAfterInit(s: Store, ranInit: bool, a: Half): (r: Reply)
    requires StoreWf(s)
    ensures r.store == s && r.value.Some?
    ensures ranInit && s.status != Ok ==> r.code == s.status
    ensures r.code == Ok ==>
              ValidPage(s).Some? && Lookup(PageOf(s.dev, ValidPage(s).value), a) == r.value
    ensures r.code == BadAddress && !(ranInit && s.status != Ok) ==>
              && ValidPage(s).Some? && Lookup(PageOf(s.dev, ValidPage(s).value), a).None?
    ensures r.code != Ok ==> r.value == Some(DefaultData)
    ensures !(ranInit && s.status != Ok) && ValidPage(s).Some? ==>
              && (r.code == Ok || r.code == BadAddress)
              && (r.code == Ok <==> Lookup(PageOf(s.dev, ValidPage(s).value), a).Some?)
  {
    if ranInit && s.status != Ok then Reply(s.status, Some(DefaultData), s)
    else ReadValidPage(s, a)
  }

  /** The scan part of `read`, once initialisation is settled. */
  function ReadValidPage(s: Store, a: Half): (r: Reply)
    requires StoreWf(s)
    ensures r.store == s && r.value.Some?
    ensures r.code == Ok ==>
              ValidPage(s).Some? && Lookup(PageOf(s.dev, ValidPage(s).value), a) == r.value
    ensures r.code == BadAddress ==>
              && r.value == Some(DefaultData) && ValidPage(s).Some?
              && Lookup(PageOf(s.dev, ValidPage(s).value), a).None?
    ensures r.code == NoValidPage <==> ValidPage(s).None?
    ensures r.code != Ok ==> r.value == Some(DefaultData)
    ensures ValidPage(s).Some? ==>
              && (r.code == Ok || r.code == BadAddress)
              && (r.code == Ok <==> Lookup(PageOf(s.dev, ValidPage(s).value), a).Some?)
  {
    match ValidPage(s)
    case None => Reply(NoValidPage, Some(DefaultData), s)
    case Some(p) =>
      match Lookup(PageOf(s.dev, p), a)
      case Some(v) => Reply(Ok, Some(v), s)
      case None => Reply(BadAddress, Some(DefaultData), s)
  }

  /** What `read(address)` gives: the data and the store the lazy initialisation
      left behind. */
  datatype Data = Data(value: Half, store: Store)

  /** `read(address)`: the data half of `read(address, &data)`; the store keeps what
      the lazy initialisation did. The data is the latest record of `a` on the valid
      page, or 0xFFFF when there is none or the read failed. */
  function ReadValue(s: Store, a: Half): (r: Data)
    requires StoreWf(s)
    ensures StoreWf(r.store) && r.store == InitIfNotInit(s)
    ensures Read(s, a).code == Ok ==>
              ValidPage(r.store).Some? && Lookup(PageOf(r.store.dev, ValidPage(r.store).value), a) == Some(r.value)
    ensures Read(s, a).code != Ok ==> r.value == DefaultData
    ensures !(s.status == NotInit && r.store.status != Ok) && ValidPage(r.store).Some? ==>
              r.value == match Lookup(PageOf(r.store.dev, ValidPage(r.store).value), a)
                         case Some(x) => x
                         case None => DefaultData
  {
    var rd := Read(s, a);
    Data(rd.value.value, rd.store)
  }

  /** `write(address, data)`: the reserved address 0xFFFF is refused, but only after
      the lazy initialisation. */
  function Write(s: Store, a: Half, v: Half): (r: Reply)
    requires StoreWf(s)
    ensures StoreWf(r.store) && r.store.cfg == s.cfg && r.value.None?
    ensures r.store.status == InitIfNotInit(s).status
    ensures a == PageErased && !(s.status == NotInit && InitIfNotInit(s).status != Ok) ==>
              r.code == BadAddress && r.store == InitIfNotInit(s)
    ensures a != PageErased && !(s.status == NotInit && InitIfNotInit(s).status != Ok) ==>
              var i := InitIfNotInit(s);
              var e := Engine.WriteVariable(i.cfg, i.dev, a, v);
              r.code == e.code && r.store == i.(dev := e.dev)
  {
    WriteAfterInit(InitIfNotInit(s), s.status == NotInit, a, v)
  }

  /** `write` once the lazy initialisation is done. */
  function WriteAfterInit(s: Store, ranInit: bool, a: Half, v: Half): (r: Reply)
    requires StoreWf(s)
    ensures StoreWf(r.store) && r.store.cfg == s.cfg && r.store.status == s.status && r.value.None?
    ensures ranInit && s.status != Ok ==> r == Reply(s.status, None, s)
    ensures a == PageErased && !(ranInit && s.status != Ok) ==> r.code == BadAddress && r.store == s
    ensures a != PageErased && !(ranInit && s.status != Ok) ==>
              var e := Engine.WriteVariable(s.cfg, s.dev, a, v);
              r.code == e.code && r.store == s.(dev := e.dev)
  {
    if ranInit && s.status != Ok then Reply(s.status, None, s)
    else if a == PageErased then Reply(BadAddress, None, s)
    else
      var e := Engine.WriteVariable(s.cfg, s.dev, a, v);
      Reply(e.code, None, s.(dev := e.dev))
  }

  /** `count(&n)`: the number of distinct live addresses on the valid page. */
  function Count(s: Store): (r: Reply)
    requires StoreWf(s)
    ensures StoreWf(r.store) && r.store == InitIfNotInit(s)
    ensures r.code == Ok <==> r.value.Some?
    ensures r.code == Ok ==> ValidPage(r.store).Some? && r.value.value <= MaxCount(s.cfg)
    ensures r.code == Ok ==>
              r.value == Some(VariablesCount(PageOf(r.store.dev, ValidPage(r.store).value), PageErased))
    ensures !(s.status == NotInit && r.store.status != Ok) ==> (r.code == Ok <==> ValidPage(r.store).Some?)
  {
    CountAfterInit(InitIfNotInit(s), s.status == NotInit)
  }

  /** `count` once the lazy initialisation is done. */
  function CountAfterInit(s: Store, ranInit: bool): (r: Reply)
    requires StoreWf(s)
    ensures r.store == s
    ensures r.code == Ok <==> r.value.Some?
    ensures r.code == Ok ==> ValidPage(s).Some? && r.value.value <= MaxCount(s.cfg)
    ensures r.code == Ok ==> r.value == Some(VariablesCount(PageOf(s.dev, ValidPage(s).value), PageErased))
    ensures !(ranInit && s.status != Ok) ==> (r.code == Ok <==> ValidPage(s).Some?)
  {
    if ranInit && s.status != Ok then Reply(s.status, None, s)
    else
      match ValidPage(s)
      case None => Reply(NoValidPage, None, s)
      case Some(p) => Reply(Ok, Some(VariablesCount(PageOf(s.dev, p), PageErased)), s)
  }
}

=== FILE: eeprom_proof.dfy ===
/** Properties of the public operations of IEEPROMClass, stated on the store:
    what `read` sees after `write`, what `count` counts, when a full page refuses
    a write, and what `format` leaves. */
module EepromProof {
  import opened Layout
  import opened Flash
  import opened PageScan
  import opened ScanFacts
  import Engine
  import opened WriteProof
  import opened Eeprom

  /** A store that initialised successfully and whose flash is in the shape every
      operation keeps: a valid page with its blank slots as a suffix, and a blank
      spare page. */
  predicate Healthy(s: Store)
  {
    && StoreWf(s) && s.status == Ok
    && ValidPage(s).Some? && Good(s.cfg, s.dev, ValidPage(s).value)
  }

  /** The valid page's image in a healthy store. */
  function Valid(s: Store): seq<Half>
    requires Healthy(s)
  {
    PageOf(s.dev, ValidPage(s).value)
  }

  /** The erase-counter quirk of `write`: `a` has no record, the valid page's erase
      counter equals `a` and the value is 0, so the write matches the counter and
      stores nothing. */
  predicate CounterMatch(s: Store, a: Half, v: Half)
    requires Healthy(s)
  {
    Lookup(Valid(s), a).None? && Counter(Valid(s)) == a && v == 0
  }

  /** On a store past initialisation, `read` is the lookup on the valid page. */
  lemma ReadIsLookup(s: Store, a: Half)
    requires Healthy(s)
    ensures var r := Read(s, a);
            && r.store == s
            && (r.code == Ok <==> Lookup(Valid(s), a).Some?)
            && r.value == Some(if Lookup(Valid(s), a).Some? then Lookup(Valid(s), a).value else DefaultData)
            && (r.code == Ok || r.code == BadAddress)
  {
    assert Read(s, a) == ReadValidPage(s, a);
  }

  /** `write` then `read` with working hardware, from a healthy store and an
      address other than 0xFFFF: the write succeeds or is refused with OUT_SIZE
      leaving the store as it was; after success the store is healthy, `read(a)`
      returns OK with `v` unless the erase-counter quirk applies, and every other
      address reads exactly as before. */
  lemma WriteThenRead(s: Store, a: Half, v: Half)
    requires Healthy(s) && NoFaults(s.dev) && InFlash(s.cfg) && a != PageErased
    ensures var w := Write(s, a, v);
            && (w.code == Ok || w.code == OutSize)
            && (w.code == OutSize ==> w.store == s)
            && (w.code == Ok ==>
                  && Healthy(w.store) && NoFaults(w.store.dev)
                  && (!CounterMatch(s, a, v) ==> Read(w.store, a) == Reply(Ok, Some(v), w.store))
                  && forall b :: b != PageErased && b != a ==>
                       Read(w.store, b).code == Read(s, b).code && Read(w.store, b).value == Read(s, b).value)
  {
    var p := ValidPage(s).value;
    var e := Engine.WriteVariable(s.cfg, s.dev, a, v);
    var w := Write(s, a, v);
    assert w == Reply(e.code, None, s.(dev := e.dev));
    WriteCorrect(s.cfg, s.dev, p, a, v);
    if w.code == Ok {
      var s2 := w.store;
      assert Healthy(s2);
      ReadIsLookup(s2, a);
      forall b | b != PageErased && b != a
        ensures Read(s2, b).code == Read(s, b).code && Read(s2, b).value == Read(s, b).value
      {
        ReadIsLookup(s2, b);
        ReadIsLookup(s, b);
      }
    }
  }

  /** `count` on a healthy store is the number of distinct addresses, other than
      0xFFFF, among the valid page's records. */
  lemma CountIsDistinctAddresses(s: Store)
    requires Healthy(s)
    ensures var r := Count(s);
            && r.code == Ok && r.store == s
            && r.value == Some(|LiveAddresses(Valid(s), PageErased, 1)|)
            && |LiveAddresses(Valid(s), PageErased, 1)| <= MaxCount(s.cfg)
  {
    assert Count(s) == CountAfterInit(s, false);
    CountIsDistinct(Valid(s), PageErased, 1);
  }

  /** Leaving one more address out of the live set removes exactly that address. */
  lemma LiveWithout(pg: seq<Half>, a: Half, i: nat)
    requires i <= SlotCount(pg) && a != PageErased
    ensures LiveAddresses(pg, a, i) == LiveAddresses(pg, PageErased, i) - {a}
  {
    var l := LiveAddresses(pg, a, i);
    var m := LiveAddresses(pg, PageErased, i);
    forall b | b in m - {a}
      ensures b in l
    {
      var j :| i <= j < SlotCount(pg) && Live(pg, PageErased, j) && AddressAt(pg, j) == b;
      assert Live(pg, a, j);
    }
    forall b | b in l
      ensures b in m - {a}
    {
      var j :| i <= j < SlotCount(pg) && Live(pg, a, j) && AddressAt(pg, j) == b;
      assert Live(pg, PageErased, j);
    }
  }

  /** The `>=` of the full-page check: a valid page whose every slot is used and
      that holds `maxcount()` distinct addresses refuses to overwrite one of them
      with OUT_SIZE, although the records a transfer would keep, (v, a) and one per
      other address, number exactly `maxcount()`, the spare page's record slots. */
  lemma FullPageRefusesOverwrite(s: Store, a: Half, v: Half)
    requires Healthy(s) && a != PageErased
    requires FirstBlank(Valid(s), 1) == Slots(s.cfg)
    requires |LiveAddresses(Valid(s), PageErased, 1)| == MaxCount(s.cfg)
    requires Lookup(Valid(s), a).Some? && Lookup(Valid(s), a).value != v && Lookup(Valid(s), a).value != PageErased
    ensures Write(s, a, v) == Reply(OutSize, None, s)
    ensures VariablesCount(Valid(s), a) + 1 == MaxCount(s.cfg)
  {
    var pg := Valid(s);
    var p := ValidPage(s).value;
    OthersCount(pg, a);
    LatestInDrop(pg, a, 0, SlotCount(pg));
    GoodIsFound(s.cfg, s.dev, p);
    assert Engine.WriteVariable(s.cfg, s.dev, a, v) == Engine.WriteFull(s.cfg, s.dev, p, a, v);
    assert Write(s, a, v) == WriteAfterInit(s, false, a, v);
  }

  /** On a page whose records carry one address per slot, the count that skips
      one of those addresses is one less than the slot count less one. */
  lemma OthersCount(pg: seq<Half>, a: Half)
    requires IsPage(pg) && a != PageErased && Lookup(pg, a).Some?
    requires |LiveAddresses(pg, PageErased, 1)| == SlotCount(pg) - 1
    ensures VariablesCount(pg, a) + 1 == SlotCount(pg) - 1
  {
    CountIsDistinct(pg, a, 1);
    LiveWithout(pg, a, 1);
    var j := LatestIn(pg, a, 1, SlotCount(pg)).value;
    assert Live(pg, PageErased, j);
    assert a in LiveAddresses(pg, PageErased, 1);
  }

  /** `format` with working hardware on an initialised store: it succeeds, and
      afterwards every address other than 0xFFFF reads as missing. */
  lemma FormatForgets(s: Store, a: Half)
    requires StoreWf(s) && s.status != NotInit && NoFaults(s.dev) && InFlash(s.cfg) && a != PageErased
    ensures var f := Format(s);
            && f.code == Ok
            && Read(f.store, a).code == BadAddress && Read(f.store, a).value == Some(DefaultData)
  {
    var f := Format(s);
    var s2 := f.store;
    assert Read(s2, a) == ReadValidPage(s2, a);
    LookupBlankTail(s2.dev.page0, a, 1);
  }
}

=== FILE: engine.dfy ===
/** The private page-level routines of the engine (the `EE_*` members of
    IEEPROMClass): verified erase, valid-page lookup, page transfer, the write
    path, format and the power-up recovery in `init`. */
module Engine {
  import opened Layout
  import opened Flash
  import opened PageScan

  /** A status and the device after the operation. */
  datatype Res = Res(code: Status, dev: Dev)

  /** `EE_ErasePage`: erase the page, then program its erase counter with the old
      counter plus one (modulo 2^16) when the old header was a known status, else 0. */
  function EraseWithCounter(c: Config, d: Dev, p: PageId): (r: Flashed)
    requires Wf(c, d)
    ensures Wf(c, r.dev)
    ensures PageOf(r.dev, p.Other()) == PageOf(d, p.Other())
    ensures r.fs == Complete ==>
              var src := PageOf(d, p);
              var pg := PageOf(r.dev, p);
              && Header(pg) == PageErased && RecordsBlank(pg)
              && Counter(pg) == (if Header(src) == PageErased || Header(src) == PageValid || Header(src) == PageReceiveData
                                 then (Counter(src) + 1) % 0x1_0000 else 0)
    ensures NoFaults(d) && InFlash(c) ==> r.fs == Complete && NoFaults(r.dev)
  {
    var pg := PageOf(d, p);
    var data: Half :=
      if Header(pg) == PageErased || Header(pg) == PageValid || Header(pg) == PageReceiveData
      then (Counter(pg) + 1) % 0x1_0000 else 0;
    var e := ErasePage(c, d, p);
    if e.fs == Complete then ProgramHalfWord(c, e.dev, p, 1, data) else e
  }

  /** `EE_CheckErasePage`: a page that is already Ready is left alone; otherwise it
      is erased and checked again. */
  function CheckErasePage(c: Config, d: Dev, p: PageId, status: Half): (r: Res)
    requires Wf(c, d)
    ensures Wf(c, r.dev)
    ensures PageOf(r.dev, p.Other()) == PageOf(d, p.Other())
    ensures r.code == Ok ==> Ready(PageOf(r.dev, p), status)
    ensures Ready(PageOf(d, p), status) ==> r == Res(Ok, d)
    ensures r.code == Ok || r.code == BadFlash || r.code.FlashError?
    ensures NoFaults(d) && InFlash(c) ==> r.code == Ok && NoFaults(r.dev)
  {
    if CheckPage(PageOf(d, p), status) != Ok then
      var e := EraseWithCounter(c, d, p);
      if e.fs != Complete then Res(FlashError(e.fs), e.dev)
      else Res(CheckPage(PageOf(e.dev, p), status), e.dev)
    else
      Res(Ok, d)
  }

  /** `EE_FindValidPage`: a page is the valid one only when its header reads VALID
      and the other page's header reads ERASED. */
  function FindValidPage(c: Config, d: Dev): (r: Option<PageId>)
    requires Wf(c, d)
    ensures r == Some(Page0) <==> Header(d.page0) == PageValid && Header(d.page1) == PageErased
    ensures r == Some(Page1) <==> Header(d.page1) == PageValid && Header(d.page0) == PageErased
    ensures r.Some? ==> Header(PageOf(d, r.value)) == PageValid && Header(PageOf(d, r.value.Other())) == PageErased
  {
    if Header(d.page0) == PageValid && Header(d.page1) == PageErased then Some(Page0)
    else if Header(d.page1) == PageValid && Header(d.page0) == PageErased then Some(Page1)
    else None
  }

  /** Where the copy loop of a page transfer stopped: `stop` is None when it ran
      to the end, `free` is the next free slot of the new page. */
  datatype Copy = Copy(stop: Option<Status>, dev: Dev, free: nat)

  /** The copy loop of `EE_PageTransfer`: walk the old page's slots k-1 down to 1;
      a record whose address is 0xFFFF or `skip`, or is already among the new
      page's slots [1, free), is passed over; any other is appended at `free`,
      value first, then address. */
  function CopyLoop(c: Config, d: Dev, np: PageId, skip: Half, k: nat, free: nat): (r: Copy)
    requires Wf(c, d) && 1 <= k <= Slots(c) && 1 <= free <= Slots(c)
    ensures Wf(c, r.dev)
    ensures PageOf(r.dev, np.Other()) == PageOf(d, np.Other())
    ensures free <= r.free <= Slots(c)
    ensures Header(PageOf(r.dev, np)) == Header(PageOf(d, np))
    ensures r.stop.Some? ==> r.stop.value == OutSize || r.stop.value.FlashError?
    ensures NoFaults(d) && InFlash(c) ==> NoFaults(r.dev)
    decreases k
  {
    if k == 1 then Copy(None, d, free)
    else
      var src := PageOf(d, np.Other());
      var a := AddressAt(src, k - 1);
      if a == PageErased || a == skip then CopyLoop(c, d, np, skip, k - 1, free)
      else if FirstIn(PageOf(d, np), a, 1, free).Some? then CopyLoop(c, d, np, skip, k - 1, free)
      else if free < Slots(c) then
        var w1 := ProgramHalfWord(c, d, np, 2 * free, ValueAt(src, k - 1));
        if w1.fs != Complete then Copy(Some(FlashError(w1.fs)), w1.dev, free)
        else
          var w2 := ProgramHalfWord(c, w1.dev, np, 2 * free + 1, a);
          if w2.fs != Complete then Copy(Some(FlashError(w2.fs)), w2.dev, free)
          else
            CopyLoop(c, w2.dev, np, skip, k - 1, free + 1)
      else Copy(Some(OutSize), d, free)
  }

  /** `EE_PageTransfer(np, other, skip)`: copy the latest record of every address
      from the old page into the new one, then verified-erase the old page, and only
      then mark the new page VALID. */
  function PageTransfer(c: Config, d: Dev, np: PageId, skip: Half): (r: Res)
    requires Wf(c, d)
    ensures Wf(c, r.dev)
    ensures r.code == Ok ==>
              Header(PageOf(r.dev, np)) == PageValid && Ready(PageOf(r.dev, np.Other()), PageErased)
    ensures r.code != Ok ==>
              || Header(PageOf(r.dev, np)) == Header(PageOf(d, np))
              || (r.code == FlashError(Timeout) && Header(PageOf(r.dev, np)) == PageValid)
    ensures r.code != Ok && r.code != FlashError(Timeout) ==> Header(PageOf(r.dev, np)) == Header(PageOf(d, np))
    ensures FirstBlank(PageOf(d, np), 1) == Slots(c) ==> r == Res(OutSize, d)
    ensures r.code == Ok || r.code == OutSize || r.code == BadFlash || r.code.FlashError?
    ensures NoFaults(d) && InFlash(c) ==> NoFaults(r.dev)
  {
    var free := FirstBlank(PageOf(d, np), 1);
    if free >= Slots(c) then Res(OutSize, d)
    else
      var cp := CopyLoop(c, d, np, skip, Slots(c), free);
      if cp.stop.Some? then Res(cp.stop.value, cp.dev)
      else CommitTransfer(c, cp.dev, np)
  }

  /** The end of a page transfer: verified-erase the old page, then program the new
      page's header VALID. The new page's records are left as they are. */
  function CommitTransfer(c: Config, d: Dev, np: PageId): (r: Res)
    requires Wf(c, d)
    ensures Wf(c, r.dev)
    ensures r.code == Ok ==>
              && Header(PageOf(r.dev, np)) == PageValid && Ready(PageOf(r.dev, np.Other()), PageErased)
              && PageOf(r.dev, np) == PageOf(d, np)[0 := PageValid]
    ensures r.code != Ok ==>
              || Header(PageOf(r.dev, np)) == Header(PageOf(d, np))
              || (r.code == FlashError(Timeout) && PageOf(r.dev, np) == PageOf(d, np)[0 := PageValid])
    ensures r.code != Ok && r.code != FlashError(Timeout) ==> Header(PageOf(r.dev, np)) == Header(PageOf(d, np))
    ensures r.code == Ok || r.code == BadFlash || r.code.FlashError?
    ensures NoFaults(d) && InFlash(c) ==> r.code == Ok && NoFaults(r.dev)
  {
    var e := CheckErasePage(c, d, np.Other(), PageErased);
    assert PageOf(e.dev, np) == PageOf(d, np) by { assert np.Other().Other() == np; }
    if e.code != Ok then e
    else
      var w := ProgramHalfWord(c, e.dev, np, 0, PageValid);
      if w.fs != Complete then Res(FlashError(w.fs), w.dev)
      else Res(Ok, w.dev)
  }

  /** The write path once no in-place update applies: fill the first blank slot of
      page `p`, value first, then address. */
  function AppendRecord(c: Config, d: Dev, p: PageId, a: Half, v: Half, f: nat): (r: Res)
    requires Wf(c, d) && 1 <= f < Slots(c)
    ensures Wf(c, r.dev)
    ensures PageOf(r.dev, p.Other()) == PageOf(d, p.Other())
    ensures r.code == Ok ==> PageOf(r.dev, p) == PageOf(d, p)[2 * f := v][2 * f + 1 := a]
    ensures NoFaults(d) && InFlash(c) && SlotBlank(PageOf(d, p), f) ==> r.code == Ok && NoFaults(r.dev)
  {
    var w1 := ProgramHalfWord(c, d, p, 2 * f, v);
    if w1.fs != Complete then Res(FlashError(w1.fs), w1.dev)
    else
      var w2 := ProgramHalfWord(c, w1.dev, p, 2 * f + 1, a);
      if w2.fs != Complete then Res(FlashError(w2.fs), w2.dev)
      else Res(Ok, w2.dev)
  }

  /** The write path when page `p` has no blank slot: refuse with OUT_SIZE when the
      live variables other than `a`, plus `a`, reach the slot count less one;
      otherwise mark the spare page RECEIVE_DATA, put (v, a) in its first slot and
      transfer the rest. */
  function WriteFull(c: Config, d: Dev, p: PageId, a: Half, v: Half): (r: Res)
    requires Wf(c, d)
    ensures Wf(c, r.dev)
    ensures VariablesCount(PageOf(d, p), a) + 1 >= Slots(c) - 1 <==> r == Res(OutSize, d)
  {
    if VariablesCount(PageOf(d, p), a) + 1 >= Slots(c) - 1 then Res(OutSize, d)
    else StartTransfer(c, d, p.Other(), a, v)
  }

  /** Mark page `np` RECEIVE_DATA, program (v, a) into its first slot, then run the
      page transfer from the other page, skipping `a`. */
  function StartTransfer(c: Config, d: Dev, np: PageId, a: Half, v: Half): (r: Res)
    requires Wf(c, d)
    ensures Wf(c, r.dev)
    ensures r.code == OutSize ==>
              Header(PageOf(r.dev, np)) == PageReceiveData && Header(PageOf(d, np)) == PageErased
  {
    var h := ProgramHalfWord(c, d, np, 0, PageReceiveData);
    if h.fs != Complete then Res(FlashError(h.fs), h.dev)
    else
      var w1 := ProgramHalfWord(c, h.dev, np, 2, v);
      if w1.fs != Complete then Res(FlashError(w1.fs), w1.dev)
      else
        var w2 := ProgramHalfWord(c, w1.dev, np, 3, a);
        if w2.fs != Complete then Res(FlashError(w2.fs), w2.dev)
        else PageTransfer(c, w2.dev, np, a)
  }

  /** `EE_VerifyPageFullWriteVariable`. The backward scan for the latest record of
      `a` runs down to the header word, so it also compares the erase counter with
      `a` (and then reads the header as the value). A record already holding `v`
      needs nothing; a record whose value still reads 0xFFFF is completed in place,
      and if that programming fails the write falls through to appending. */
  function WriteVariable(c: Config, d: Dev, a: Half, v: Half): (r: Res)
    requires Wf(c, d)
    ensures Wf(c, r.dev)
    ensures FindValidPage(c, d).None? ==> r == Res(NoValidPage, d)
    ensures FindValidPage(c, d).Some? ==>
              var pg := PageOf(d, FindValidPage(c, d).value);
              var m := LatestIn(pg, a, 0, Slots(c));
              m.Some? && ValueAt(pg, m.value) == v ==> r == Res(Ok, d)
  {
    match FindValidPage(c, d)
    case None => Res(NoValidPage, d)
    case Some(p) =>
      var pg := PageOf(d, p);
      var m := LatestIn(pg, a, 0, Slots(c));
      if m.Some? && ValueAt(pg, m.value) == v then Res(Ok, d)
      else
        var w := if m.Some? && ValueAt(pg, m.value) == PageErased
                 then Some(ProgramHalfWord(c, d, p, 2 * m.value, v)) else None;
        if w.Some? && w.value.fs == Complete then Res(Ok, w.value.dev)
        else
          var d1 := if w.Some? then w.value.dev else d;
          var f := FirstBlank(PageOf(d1, p), 1);
          if f < Slots(c) then AppendRecord(c, d1, p, a, v, f)
          else WriteFull(c, d1, p, a, v)
  }

  /** `format`: verified-erase page 0 allowing a VALID header, mark it VALID if it
      reads ERASED, then verified-erase page 1. */
  function Format(c: Config, d: Dev): (r: Res)
    requires Wf(c, d)
    ensures Wf(c, r.dev)
    ensures r.code == Ok ==>
              && Header(r.dev.page0) == PageValid && RecordsBlank(r.dev.page0)
              && Ready(r.dev.page1, PageErased)
    ensures r.code == Ok || r.code == BadFlash || r.code.FlashError?
    ensures NoFaults(d) && InFlash(c) ==> r.code == Ok && NoFaults(r.dev)
  {
    var e0 := CheckErasePage(c, d, Page0, PageValid);
    if e0.code != Ok then e0
    else
      var w := if Header(e0.dev.page0) == PageErased
               then ProgramHalfWord(c, e0.dev, Page0, 0, PageValid)
               else Flashed(Complete, e0.dev);
      if w.fs != Complete then Res(FlashError(w.fs), w.dev)
      else
        assert Header(w.dev.page0) == PageValid;
        assert RecordsBlank(w.dev.page0) by {
          forall j | 1 <= j < SlotCount(w.dev.page0) ensures SlotBlank(w.dev.page0, j) {
            assert SlotBlank(e0.dev.page0, j);
          }
        }
        var e1 := CheckErasePage(c, w.dev, Page1, PageErased);
        assert e1.dev.page0 == w.dev.page0 by { assert Page1.Other() == Page0; }
        e1
  }

  /** One page holds VALID, the other is ERASED with a blank record area. */
  predicate Settled(c: Config, d: Dev, p: PageId)
    requires Wf(c, d)
  {
    Header(PageOf(d, p)) == PageValid && Ready(PageOf(d, p.Other()), PageErased)
  }

  /** `init`: resolve the pair of page headers a power loss may have left. */
  function InitPages(c: Config, d: Dev): (r: Res)
    requires Wf(c, d)
    ensures Wf(c, r.dev)
    ensures r.code == Ok ==>
              FindValidPage(c, r.dev).Some? && Settled(c, r.dev, FindValidPage(c, r.dev).value)
    ensures r.code == Ok || r.code == NoValidPage || r.code == OutSize || r.code == BadFlash || r.code.FlashError?
    ensures NoFaults(d) && InFlash(c) ==> NoFaults(r.dev)
  {
    var s0 := Header(d.page0);
    var s1 := Header(d.page1);
    if s0 == PageErased then
      if s1 == PageValid then CheckErasePage(c, d, Page0, PageErased)
      else if s1 == PageReceiveData then PromoteThenErase(c, d)
      else if s1 == PageErased then Format(c, d)
      else Res(NoValidPage, d)
    else if s0 == PageReceiveData then
      if s1 == PageValid then PageTransfer(c, d, Page0, PageErased)
      else if s1 == PageErased then
        var e := CheckErasePage(c, d, Page1, PageErased);
        if e.code != Ok then e
        else
          var w := ProgramHalfWord(c, e.dev, Page0, 0, PageValid);
          if w.fs != Complete then Res(FlashError(w.fs), w.dev) else Res(Ok, w.dev)
      else Res(NoValidPage, d)
    else if s0 == PageValid then
      if s1 == PageValid then Res(NoValidPage, d)
      else if s1 == PageReceiveData then PageTransfer(c, d, Page1, PageErased)
      else CheckErasePage(c, d, Page1, PageErased)
    else
      if s1 == PageValid then CheckErasePage(c, d, Page0, PageErased)
      else if s1 == PageReceiveData then PromoteThenErase(c, d)
      else Res(NoValidPage, d)
  }

  /** The recovery step shared by the ERASED/RECEIVE_DATA and other/RECEIVE_DATA
      cases of `init`: mark page 1 VALID, then verified-erase page 0. */
  function PromoteThenErase(c: Config, d: Dev): (r: Res)
    requires Wf(c, d)
    ensures Wf(c, r.dev)
    ensures r.code == Ok ==> r.dev.page1 == d.page1[0 := PageValid] && Ready(r.dev.page0, PageErased)
    ensures r.code == Ok || r.code == BadFlash || r.code.FlashError?
    ensures NoFaults(d) && InFlash(c) ==> r.code == Ok && NoFaults(r.dev)
  {
    var w := ProgramHalfWord(c, d, Page1, 0, PageValid);
    if w.fs != Complete then Res(FlashError(w.fs), w.dev)
    else CheckErasePage(c, w.dev, Page0, PageErased)
  }
}

=== FILE: flash.dfy ===
/** The two flash primitives the engine depends on, `FLASH_ErasePage` and
    `FLASH_ProgramHalfWord`, over a device holding the two emulation pages. */
module Flash {
  import opened Layout

  datatype PageId = Page0 | Page1 {
    /** The spare page when this one holds the data, and the other way round. */
    function Other(): PageId
    {
      if this == Page0 then Page1 else Page0
    }
  }

  /** What the hardware does with the next primitive:
      - `Proceed`: carry it out;
      - `Fault(e)`: the wait before the command reports `e`, so the command is never
        issued and the cells stay as they are;
      - `LateTimeout`: the command is issued and takes effect, but the wait for its
        end times out, so the primitive reports FLASH_TIMEOUT;
      - `PowerLoss`: the power goes before the command is issued. Power loss is
        sticky: the operation and every later one leave the cells as they are. */
  datatype Outcome = Proceed | Fault(err: FlashFault) | LateTimeout | PowerLoss

  /** The flash device: both pages as halfword sequences, and the outcomes the
      hardware will give to the coming primitives (an empty plan means every
      primitive the hardware carries out succeeds). */
  datatype Dev = Dev(page0: seq<Half>, page1: seq<Half>, plan: seq<Outcome>)

  /** A primitive's reported status and the device afterwards. */
  datatype Flashed = Flashed(fs: FlashStatus, dev: Dev)

  function Base(c: Config, p: PageId): nat
  {
    if p == Page0 then c.base0 else c.base1
  }

  function PageOf(d: Dev, p: PageId): seq<Half>
  {
    if p == Page0 then d.page0 else d.page1
  }

  function WithPage(d: Dev, p: PageId, pg: seq<Half>): (r: Dev)
    ensures PageOf(r, p) == pg && PageOf(r, p.Other()) == PageOf(d, p.Other())
    ensures r.plan == d.plan
  {
    if p == Page0 then d.(page0 := pg) else d.(page1 := pg)
  }

  /** Both pages have the configured size: two halfwords per 4-byte word. */
  predicate Wf(c: Config, d: Dev)
  {
    && ValidConfig(c)
    && |d.page0| == 2 * Slots(c)
    && |d.page1| == 2 * Slots(c)
  }

  /** The hardware carries out every coming primitive. */
  predicate NoFaults(d: Dev)
  {
    d.plan == []
  }

  function Next(plan: seq<Outcome>): Outcome
  {
    if plan == [] then Proceed else plan[0]
  }

  /** The plan after one primitive has consumed its outcome. */
  function Advance(plan: seq<Outcome>): (r: seq<Outcome>)
    ensures plan == [] ==> r == []
  {
    if plan == [] then [] else if plan[0] == PowerLoss then plan else plan[1..]
  }

  function Blank(n: nat): (r: seq<Half>)
    ensures |r| == n && forall i :: 0 <= i < n ==> r[i] == PageErased
  {
    seq(n, _ => PageErased)
  }

  /** `FLASH_ProgramHalfWord` at halfword `i` of page `p`. Outside the flash range it
      reports AddressFault without touching the hardware. The STM32F1 controller
      programs a halfword only if it reads 0xFFFF or the new value is 0x0000 (either
      way the cell ends up holding `v`, i.e. bits are only cleared); otherwise it
      reports a programming error. A timeout of the wait after the write was issued
      is reported, while the cell may already hold `v`. */
  function ProgramHalfWord(c: Config, d: Dev, p: PageId, i: nat, v: Half): (r: Flashed)
    requires Wf(c, d) && i < 2 * Slots(c)
    ensures Wf(c, r.dev)
    ensures PageOf(r.dev, p.Other()) == PageOf(d, p.Other())
    ensures r.fs == Complete ==>
              && (PageOf(d, p)[i] == PageErased || v == 0)
              && PageOf(r.dev, p) == PageOf(d, p)[i := v]
    ensures r.fs != Complete ==>
              || PageOf(r.dev, p) == PageOf(d, p)
              || (&& r.fs == Timeout && (PageOf(d, p)[i] == PageErased || v == 0)
                  && PageOf(r.dev, p) == PageOf(d, p)[i := v])
    ensures r.fs != Complete && r.fs != Timeout ==> PageOf(r.dev, p) == PageOf(d, p)
    ensures NoFaults(d) && InFlash(c) ==>
              && NoFaults(r.dev)
              && (r.fs == Complete <==> PageOf(d, p)[i] == PageErased || v == 0)
  {
    if !IsFlashAddress(Base(c, p) + 2 * i) then
      Flashed(AddressFault, d)
    else
      match Next(d.plan)
      case PowerLoss => Flashed(Timeout, d)
      case Fault(e) => Flashed(e, d.(plan := Advance(d.plan)))
      case LateTimeout => Flashed(Timeout, Programmed(d, p, i, v).dev)
      case Proceed => Programmed(d, p, i, v)
  }

  /** The issued program command: the controller programs the cell or refuses. */
  function Programmed(d: Dev, p: PageId, i: nat, v: Half): (r: Flashed)
    requires i < |PageOf(d, p)|
    ensures r.dev.plan == Advance(d.plan)
    ensures PageOf(r.dev, p.Other()) == PageOf(d, p.Other())
    ensures r.fs == Complete <==> PageOf(d, p)[i] == PageErased || v == 0
    ensures r.fs == Complete ==> PageOf(r.dev, p) == PageOf(d, p)[i := v]
    ensures r.fs != Complete ==> r.fs == ErrorPg && PageOf(r.dev, p) == PageOf(d, p)
  {
    var d' := d.(plan := Advance(d.plan));
    var pg := PageOf(d, p);
    if pg[i] == PageErased || v == 0 then
      Flashed(Complete, WithPage(d', p, pg[i := v]))
    else
      Flashed(ErrorPg, d')
  }

  /** `FLASH_ErasePage`: sets every halfword of the page to 0xFFFF. A timeout of
      the wait after the erase was started is reported, while the page may already
      be blank. */
  function ErasePage(c: Config, d: Dev, p: PageId): (r: Flashed)
    requires Wf(c, d)
    ensures Wf(c, r.dev)
    ensures PageOf(r.dev, p.Other()) == PageOf(d, p.Other())
    ensures r.fs == Complete ==> PageOf(r.dev, p) == Blank(2 * Slots(c))
    ensures r.fs != Complete ==>
              || PageOf(r.dev, p) == PageOf(d, p)
              || (r.fs == Timeout && PageOf(r.dev, p) == Blank(2 * Slots(c)))
    ensures r.fs != Complete && r.fs != Timeout ==> PageOf(r.dev, p) == PageOf(d, p)
    ensures NoFaults(d) ==> NoFaults(r.dev) && r.fs == Complete
  {
    var erased := WithPage(d.(plan := Advance(d.plan)), p, Blank(2 * Slots(c)));
    match Next(d.plan)
    case PowerLoss => Flashed(Timeout, d)
    case Fault(e) => Flashed(e, d.(plan := Advance(d.plan)))
    case LateTimeout => Flashed(Timeout, erased)
    case Proceed => Flashed(Complete, erased)
  }

  /** A timeout after the program command was issued: the cell is programmed, yet
      the primitive reports FLASH_TIMEOUT. */
  lemma ProgramLateTimeout(c: Config, d: Dev, p: PageId, i: nat, v: Half)
    requires Wf(c, d) && InFlash(c) && i < 2 * Slots(c) && Next(d.plan) == LateTimeout
    requires PageOf(d, p)[i] == PageErased || v == 0
    ensures var r := ProgramHalfWord(c, d, p, i, v);
            r.fs == Timeout && PageOf(r.dev, p) == PageOf(d, p)[i := v]
  {
    assert IsFlashAddress(Base(c, p) + 2 * i);
  }

  /** A timeout after the erase was started: the page is blank, yet the primitive
      reports FLASH_TIMEOUT. */
  lemma EraseLateTimeout(c: Config, d: Dev, p: PageId)
    requires Wf(c, d) && Next(d.plan) == LateTimeout
    ensures var r := ErasePage(c, d, p);
            r.fs == Timeout && PageOf(r.dev, p) == Blank(2 * Slots(c))
  {
  }
}

=== FILE: init_proof.dfy ===
/** The recovery case table of `init`: which pairs of page headers it refuses,
    and, with hardware that carries out every primitive, what it makes of each
    pair it accepts. */
module InitProof {
  import opened Layout
  import opened Flash
  import opened PageScan
  import opened Engine
  import opened ScanFacts
  import opened CopyInvariant
  import opened TransferProof

  /** A header `init` knows by name. */
  predicate Known(h: Half)
  {
    h == PageErased || h == PageReceiveData || h == PageValid
  }

  /** The header pairs `init` refuses without touching the flash: both VALID, and
      every pair its case table has no entry for. */
  predicate Refused(h0: Half, h1: Half)
  {
    || (h0 == PageErased && !Known(h1))
    || (h0 == PageReceiveData && h1 != PageValid && h1 != PageErased)
    || (h0 == PageValid && h1 == PageValid)
    || (!Known(h0) && h1 != PageValid && h1 != PageReceiveData)
  }

  /** `init` reports NO_VALID_PAGE exactly for the refused pairs, and then leaves
      the flash as it was; no primitive failure is reported as NO_VALID_PAGE. */
  lemma InitRefuses(c: Config, d: Dev)
    requires Wf(c, d)
    ensures var r := InitPages(c, d);
            && (r.code == NoValidPage <==> Refused(Header(d.page0), Header(d.page1)))
            && (Refused(Header(d.page0), Header(d.page1)) ==> r == Res(NoValidPage, d))
  {
  }

  /** Lookups never read the header word, so changing the header keeps them. */
  lemma HeaderKeepsLookup(pg: seq<Half>, h: Half, a: Half)
    requires IsPage(pg)
    ensures Lookup(pg[0 := h], a) == Lookup(pg, a)
  {
    var pg' := pg[0 := h];
    assert forall j :: 1 <= j < SlotCount(pg) ==> AddressAt(pg', j) == AddressAt(pg, j) && ValueAt(pg', j) == ValueAt(pg, j);
    LookupBelowFrame(pg', pg, a, SlotCount(pg));
  }

  /** One page VALID and the other neither VALID nor RECEIVE_DATA: `init` succeeds,
      leaves the valid page exactly as it was and makes the other one ERASED and
      blank. */
  lemma InitKeepsValid(c: Config, d: Dev, p: PageId)
    requires Wf(c, d) && NoFaults(d) && InFlash(c)
    requires Header(PageOf(d, p)) == PageValid
    requires Header(PageOf(d, p.Other())) != PageValid && Header(PageOf(d, p.Other())) != PageReceiveData
    ensures var r := InitPages(c, d);
            && r.code == Ok && NoFaults(r.dev)
            && FindValidPage(c, r.dev) == Some(p)
            && PageOf(r.dev, p) == PageOf(d, p)
  {
    var r := InitPages(c, d);
    assert p.Other().Other() == p;
    assert r == CheckErasePage(c, d, p.Other(), PageErased);
  }

  /** One page RECEIVE_DATA, which a power loss left after a complete transfer,
      and the other ERASED (or, for page 1, any header but VALID and RECEIVE_DATA):
      `init` succeeds and promotes it to VALID; its records, and so every lookup, are
      unchanged. */
  lemma InitPromotes(c: Config, d: Dev, p: PageId)
    requires Wf(c, d) && NoFaults(d) && InFlash(c)
    requires Header(PageOf(d, p)) == PageReceiveData
    requires var h := Header(PageOf(d, p.Other()));
             if p == Page0 then h == PageErased else h != PageValid && h != PageReceiveData
    ensures var r := InitPages(c, d);
            && r.code == Ok && NoFaults(r.dev)
            && FindValidPage(c, r.dev) == Some(p)
            && PageOf(r.dev, p) == PageOf(d, p)[0 := PageValid]
            && forall a :: Lookup(PageOf(r.dev, p), a) == Lookup(PageOf(d, p), a)
  {
    var r := InitPages(c, d);
    forall a
      ensures Lookup(PageOf(d, p)[0 := PageValid], a) == Lookup(PageOf(d, p), a)
    {
      HeaderKeepsLookup(PageOf(d, p), PageValid, a);
    }
    if p == Page0 {
      var e := CheckErasePage(c, d, Page1, PageErased);
      assert e.dev.page0 == d.page0 by { assert Page1.Other() == Page0; }
      var w := ProgramHalfWord(c, e.dev, Page0, 0, PageValid);
      assert r == Res(Ok, w.dev);
    } else {
      assert r == PromoteThenErase(c, d);
    }
  }

  /** Both pages ERASED: `init` formats, leaving page 0 the valid page with no
      records, so every address is missing. */
  lemma InitFormats(c: Config, d: Dev)
    requires Wf(c, d) && NoFaults(d) && InFlash(c)
    requires Header(d.page0) == PageErased && Header(d.page1) == PageErased
    ensures var r := InitPages(c, d);
            && r.code == Ok && NoFaults(r.dev)
            && FindValidPage(c, r.dev) == Some(Page0)
            && RecordsBlank(r.dev.page0)
            && forall a :: a != PageErased ==> Lookup(r.dev.page0, a).None?
  {
    var r := InitPages(c, d);
    assert r == Format(c, d);
    forall a | a != PageErased
      ensures Lookup(r.dev.page0, a).None?
    {
      LookupBlankTail(r.dev.page0, a, 1);
    }
  }

  /** One page RECEIVE_DATA and the other VALID: a power loss interrupted a
      transfer. When the receiving page keeps its blank slots as a suffix and has
      room, `init` redoes the transfer with no address skipped, and the receiving
      page becomes the valid page, reading its own records first and the old valid
      page's latest records for the rest. */
  lemma InitRedoesTransfer(c: Config, d: Dev, np: PageId)
    requires Wf(c, d) && NoFaults(d) && InFlash(c)
    requires Header(PageOf(d, np)) == PageReceiveData && Header(PageOf(d, np.Other())) == PageValid
    requires FirstBlank(PageOf(d, np), 1) < Slots(c) && LogShaped(PageOf(d, np))
    requires Copied(PageOf(d, np), FirstBlank(PageOf(d, np), 1), PageOf(d, np.Other()), PageErased, 1)
             <= Slots(c) - FirstBlank(PageOf(d, np), 1)
    ensures var r := InitPages(c, d);
            && r.code == Ok && NoFaults(r.dev)
            && FindValidPage(c, r.dev) == Some(np)
            && Settled(c, r.dev, np) && LogShaped(PageOf(r.dev, np))
            && forall a :: a != PageErased ==>
                 Lookup(PageOf(r.dev, np), a) ==
                   if Lookup(PageOf(d, np), a).Some? then Lookup(PageOf(d, np), a)
                   else Lookup(PageOf(d, np.Other()), a)
  {
    var r := TransferMerges(c, d, np, PageErased);
    assert InitPages(c, d) == PageTransfer(c, d, np, PageErased);
  }
}

=== FILE: layout.dfy ===
/** Layout, sentinels and result codes of the flash-backed EEPROM emulation
    (the constants of IEEPROM.h). */
module Layout {

  /** A 16-bit flash halfword, the source's `uint16`. */
  type Half = x: int | 0 <= x < 0x1_0000

  datatype Option<+T> = None | Some(value: T)

  /** Page status sentinels, stored in the first halfword of a page. */
  const PageErased: Half := 0xFFFF
  const PageReceiveData: Half := 0xEEEE
  const PageValid: Half := 0x0000

  /** Value `read` reports when it finds no record. */
  const DefaultData: Half := 0xFFFF

  /** Result of a flash primitive (the source's `FLASH_Status`, numbered 1..7). */
  datatype FlashStatus = Busy | ErrorPg | ErrorWrp | ErrorOpt | Complete | Timeout | AddressFault

  /** A primitive result other than success. */
  type FlashFault = f: FlashStatus | f != Complete witness Busy

  function FlashCode(f: FlashStatus): (c: Half)
    ensures 1 <= c <= 7
  {
    match f
    case Busy => 1
    case ErrorPg => 2
    case ErrorWrp => 3
    case ErrorOpt => 4
    case Complete => 5
    case Timeout => 6
    case AddressFault => 7
  }

  /** Result of an engine operation. The source keeps these in one `uint16`,
      into which flash errors are propagated unchanged. */
  datatype Status =
    | Ok
    | OutSize
    | BadAddress
    | BadFlash
    | NotInit
    | NoValidPage
    | FlashError(flash: FlashFault)

  /** The `uint16` the source stores for a status. */
  function Code(s: Status): (c: Half)
    ensures s.FlashError? <==> 1 <= c <= 7 && c != 5
    ensures s == Ok <==> c == 0
  {
    match s
    case Ok => 0x0000
    case OutSize => 0x0081
    case BadAddress => 0x0082
    case BadFlash => 0x0083
    case NotInit => 0x0084
    case NoValidPage => 0x00AB
    case FlashError(f) => FlashCode(f)
  }

  /** Distinct statuses are stored as distinct codes, so a propagated flash
      error is never read back as success or as an engine code. */
  lemma CodeInjective(s: Status, t: Status)
    requires Code(s) == Code(t)
    ensures s == t
  {
    if s.FlashError? && t.FlashError? {
      FlashCodeInjective(s.flash, t.flash);
    }
  }

  lemma FlashCodeInjective(f: FlashStatus, g: FlashStatus)
    requires FlashCode(f) == FlashCode(g)
    ensures f == g
  {
  }

  /** The three page sentinels are distinct, and each step of the lifecycle
      ERASED -> RECEIVE_DATA -> VALID only clears bits, so it needs no erase. */
  lemma SentinelsOnlyClearBits()
    ensures PageErased != PageReceiveData && PageReceiveData != PageValid && PageErased != PageValid
    ensures PageErased == 0xFFFF && PageReceiveData == 0xEEEE && PageValid == 0x0000
    ensures (0xEEEE as bv16) & (0xFFFF as bv16) == 0xEEEE
    ensures (0x0000 as bv16) & (0xEEEE as bv16) == 0x0000
  {
  }

  /** The value reported for a missing variable is the erased-halfword value. */
  lemma DefaultDataIsErased()
    ensures DefaultData == PageErased
  {
  }

  /** The main flash array as `IS_FLASH_ADDRESS` sees it: [0x08000000, 0x0807FFFF). */
  predicate IsFlashAddress(a: int)
  {
    0x0800_0000 <= a < 0x0807_FFFF
  }

  /** Where the two pages live and how large they are. */
  datatype Config = Config(base0: nat, base1: nat, pageSize: nat)

  /** Number of 4-byte words in a page; word 0 holds the header and the erase counter. */
  function Slots(c: Config): nat
  {
    c.pageSize / 4
  }

  /** A configuration the two-page representation can describe: disjoint pages at
      nonzero 32-bit addresses whose ends are 32-bit addresses too (the code's
      `uint32` page end never wraps to 0), a size that is a multiple of 4 with room for at least
      one record, and small enough that record counts fit in 16 bits. */
  predicate ValidConfig(c: Config)
  {
    && c.pageSize % 4 == 0
    && 8 <= c.pageSize <= 0x1_0000
    && 0 < c.base0 && c.base0 + c.pageSize < 0x1_0000_0000
    && 0 < c.base1 && c.base1 + c.pageSize < 0x1_0000_0000
    && (c.base0 + c.pageSize <= c.base1 || c.base1 + c.pageSize <= c.base0)
  }

  /** Both pages lie inside the range `IS_FLASH_ADDRESS` accepts. */
  predicate InFlash(c: Config)
  {
    && IsFlashAddress(c.base0) && IsFlashAddress(c.base0 + c.pageSize - 2)
    && IsFlashAddress(c.base1) && IsFlashAddress(c.base1 + c.pageSize - 2)
  }

  /** The compiled configuration: MCU_STM32F103RB, 1 KB pages, the last two
      kilobytes of 128 KB of flash. */
  const DefaultPageSize: nat := 0x400
  const StartAddress: nat := 0x0800_0000 + 128 * 1024 - 2 * DefaultPageSize
  const DefaultConfig: Config := Config(StartAddress, StartAddress + DefaultPageSize, DefaultPageSize)

  /** The compiled pages are adjacent, disjoint, and every halfword of both lies in flash. */
  lemma DefaultConfigSound()
    ensures ValidConfig(DefaultConfig) && InFlash(DefaultConfig)
    ensures DefaultConfig.base1 == DefaultConfig.base0 + DefaultConfig.pageSize
    ensures DefaultConfig.base0 == 0x0801_F800 && DefaultConfig.pageSize == 0x400
    ensures forall i :: 0 <= i < DefaultConfig.pageSize / 2 ==>
              IsFlashAddress(DefaultConfig.base0 + 2 * i) && IsFlashAddress(DefaultConfig.base1 + 2 * i)
  {
  }

  /** `maxcount()`: the number of record slots, as the source's `uint16`. */
  function MaxCount(c: Config): (r: Half)
    requires ValidConfig(c)
    ensures r + 1 == Slots(c)
  {
    (c.pageSize / 4 - 1) % 0x1_0000
  }
}

=== FILE: page.dfy ===
/** Scans over one page image. A page is a sequence of halfwords read as 4-byte
    words: word 0 holds the status header and the erase counter, every later word
    is a record slot holding a value halfword followed by a virtual-address halfword. */
module PageScan {
  import opened Layout

  /** An image of a page: an even number of halfwords, at least one record slot. */
  predicate IsPage(pg: seq<Half>)
  {
    |pg| % 2 == 0 && 4 <= |pg|
  }

  function SlotCount(pg: seq<Half>): nat
  {
    |pg| / 2
  }

  function Header(pg: seq<Half>): Half
    requires IsPage(pg)
  {
    pg[0]
  }

  function Counter(pg: seq<Half>): Half
    requires IsPage(pg)
  {
    pg[1]
  }

  /** The first halfword of word `i` (for word 0, the header). */
  function ValueAt(pg: seq<Half>, i: nat): Half
    requires i < SlotCount(pg)
  {
    pg[2 * i]
  }

  /** The second halfword of word `i` (for word 0, the erase counter). */
  function AddressAt(pg: seq<Half>, i: nat): Half
    requires i < SlotCount(pg)
  {
    pg[2 * i + 1]
  }

  /** The 32-bit word reads 0xFFFFFFFF. */
  predicate SlotBlank(pg: seq<Half>, i: nat)
    requires i < SlotCount(pg)
  {
    ValueAt(pg, i) == PageErased && AddressAt(pg, i) == PageErased
  }

  /** Every slot from `i` on is blank. */
  predicate BlankFrom(pg: seq<Half>, i: nat)
  {
    forall j :: i <= j < SlotCount(pg) ==> SlotBlank(pg, j)
  }

  /** The record area (every word after the header word) is blank. */
  predicate RecordsBlank(pg: seq<Half>)
  {
    BlankFrom(pg, 1)
  }

  /** What `EE_CheckPage` accepts: the header reads ERASED or `status`, and the
      record area is blank. The erase counter is not looked at. */
  predicate Ready(pg: seq<Half>, status: Half)
    requires IsPage(pg)
  {
    (Header(pg) == PageErased || Header(pg) == status) && RecordsBlank(pg)
  }

  /** The first blank slot at or after `i`, or SlotCount(pg) when there is none. */
  function FirstBlank(pg: seq<Half>, i: nat): (r: nat)
    requires i <= SlotCount(pg)
    ensures i <= r <= SlotCount(pg)
    ensures r < SlotCount(pg) ==> SlotBlank(pg, r)
    ensures forall j :: i <= j < r ==> !SlotBlank(pg, j)
    decreases SlotCount(pg) - i
  {
    if i == SlotCount(pg) then i
    else if SlotBlank(pg, i) then i
    else FirstBlank(pg, i + 1)
  }

  /** Blank slots form a suffix of the record area, as appending keeps them. */
  predicate LogShaped(pg: seq<Half>)
    requires IsPage(pg)
  {
    BlankFrom(pg, FirstBlank(pg, 1))
  }

  /** The first non-blank slot at or after `i`, or SlotCount(pg) when there is none. */
  function FirstUsed(pg: seq<Half>, i: nat): (r: nat)
    requires i <= SlotCount(pg)
    ensures i <= r <= SlotCount(pg)
    ensures r < SlotCount(pg) ==> !SlotBlank(pg, r)
    ensures r == SlotCount(pg) <==> BlankFrom(pg, i)
    decreases SlotCount(pg) - i
  {
    if i == SlotCount(pg) then i
    else if !SlotBlank(pg, i) then i
    else FirstUsed(pg, i + 1)
  }

  /** `EE_CheckPage`: OK exactly when the page is Ready for `status`, BAD_FLASH otherwise. */
  function CheckPage(pg: seq<Half>, status: Half): (r: Status)
    requires IsPage(pg)
    ensures r == Ok <==> Ready(pg, status)
    ensures r == Ok || r == BadFlash
  {
    if Header(pg) != PageErased && Header(pg) != status then BadFlash
    else if FirstUsed(pg, 1) < SlotCount(pg) then BadFlash
    else Ok
  }

  /** Backward scan: the highest slot in [lo, hi) whose address halfword is `a`. */
  function LatestIn(pg: seq<Half>, a: Half, lo: nat, hi: nat): (r: Option<nat>)
    requires lo <= hi <= SlotCount(pg)
    ensures r.Some? ==> lo <= r.value < hi && AddressAt(pg, r.value) == a
    ensures r.Some? ==> forall j :: r.value < j < hi ==> AddressAt(pg, j) != a
    ensures r.None? <==> forall j :: lo <= j < hi ==> AddressAt(pg, j) != a
    decreases hi - lo
  {
    if hi == lo then None
    else if AddressAt(pg, hi - 1) == a then Some(hi - 1)
    else LatestIn(pg, a, lo, hi - 1)
  }

  /** Forward scan: the lowest slot in [lo, hi) whose address halfword is `a`. */
  function FirstIn(pg: seq<Half>, a: Half, lo: nat, hi: nat): (r: Option<nat>)
    requires lo <= hi <= SlotCount(pg)
    ensures r.Some? ==> lo <= r.value < hi && AddressAt(pg, r.value) == a
    ensures r.Some? ==> forall j :: lo <= j < r.value ==> AddressAt(pg, j) != a
    ensures r.None? <==> forall j :: lo <= j < hi ==> AddressAt(pg, j) != a
    decreases hi - lo
  {
    if hi == lo then None
    else if AddressAt(pg, lo) == a then Some(lo)
    else FirstIn(pg, a, lo + 1, hi)
  }

  /** The value of the latest record for `a` among slots [1, hi). */
  function LookupBelow(pg: seq<Half>, a: Half, hi: nat): Option<Half>
    requires 1 <= hi <= SlotCount(pg)
  {
    match LatestIn(pg, a, 1, hi)
    case None => None
    case Some(j) => Some(ValueAt(pg, j))
  }

  /** What the page says variable `a` holds: the value of its highest-offset record. */
  function Lookup(pg: seq<Half>, a: Half): Option<Half>
    requires IsPage(pg)
  {
    LookupBelow(pg, a, SlotCount(pg))
  }

  /** A record in slot `i` that the variable count sees. */
  predicate Live(pg: seq<Half>, skip: Half, i: nat)
    requires i < SlotCount(pg)
  {
    AddressAt(pg, i) != PageErased && AddressAt(pg, i) != skip
  }

  /** The outer loop of `EE_GetVariablesCount` from slot `i`: a live record counts
      unless a later slot carries the same address. */
  function CountFrom(pg: seq<Half>, skip: Half, i: nat): (r: nat)
    requires 1 <= i <= SlotCount(pg)
    ensures r <= SlotCount(pg) - i
    decreases SlotCount(pg) - i
  {
    if i == SlotCount(pg) then 0
    else if !Live(pg, skip, i) then CountFrom(pg, skip, i + 1)
    else if FirstIn(pg, AddressAt(pg, i), i + 1, SlotCount(pg)).Some? then CountFrom(pg, skip, i + 1)
    else CountFrom(pg, skip, i + 1) + 1
  }

  /** `EE_GetVariablesCount(page, skip)`. */
  function VariablesCount(pg: seq<Half>, skip: Half): (r: nat)
    requires IsPage(pg)
    ensures r <= SlotCount(pg) - 1
  {
    CountFrom(pg, skip, 1)
  }

  /** The distinct live addresses in slots [i, SlotCount(pg)). */
  ghost function LiveAddresses(pg: seq<Half>, skip: Half, i: nat): set<Half>
    requires i <= SlotCount(pg)
  {
    set j | i <= j < SlotCount(pg) && Live(pg, skip, j) :: AddressAt(pg, j)
  }

  /** The count equals the number of distinct addresses other than 0xFFFF and `skip`. */
  lemma {:induction false} CountIsDistinct(pg: seq<Half>, skip: Half, i: nat)
    requires 1 <= i <= SlotCount(pg)
    ensures CountFrom(pg, skip, i) == |LiveAddresses(pg, skip, i)|
    decreases SlotCount(pg) - i
  {
    if i < SlotCount(pg) {
      CountIsDistinct(pg, skip, i + 1);
      var rest := LiveAddresses(pg, skip, i + 1);
      if !Live(pg, skip, i) {
        assert LiveAddresses(pg, skip, i) == rest;
      } else {
        var a := AddressAt(pg, i);
        assert LiveAddresses(pg, skip, i) == rest + {a};
        match FirstIn(pg, a, i + 1, SlotCount(pg))
        case Some(j) =>
          assert Live(pg, skip, j);
          assert a in rest;
        case None =>
          assert a !in rest;
      }
    }
  }
}

=== FILE: power_cut.dfy ===
/** Power cuts: hardware that reports no fault but may lose power at any
    primitive, after which nothing more reaches the cells; the reboot that brings
    the hardware back with the flash as the cut left it; and what `init` must make
    of such a flash. */
module PowerCut {
  import opened Layout
  import opened Flash
  import opened PageScan
  import opened Engine
  import opened ScanFacts
  import opened WriteProof

  /** The hardware reports no fault; the power may go at some point, and then
      stays gone. */
  predicate Cuts(d: Dev)
  {
    FaultFree(d.plan)
  }

  /** Every outcome in the plan carries the primitive out or loses the power:
      no fault and no late timeout is reported. */
  predicate FaultFree(plan: seq<Outcome>)
  {
    plan == [] || ((plan[0] == Proceed || plan[0] == PowerLoss) && FaultFree(plan[1..]))
  }

  /** The power is gone: no coming primitive reaches the cells. */
  predicate Lost(d: Dev)
  {
    Next(d.plan) == PowerLoss
  }

  /** The power comes back: the flash keeps what the cut left, and the hardware
      carries out every primitive again. */
  function Reboot(d: Dev): (r: Dev)
    ensures NoFaults(r) && r.page0 == d.page0 && r.page1 == d.page1
  {
    d.(plan := [])
  }

  /** `FLASH_ProgramHalfWord` on a programmable cell, under a possible power cut:
      either the halfword is programmed, or the power is already gone and the
      primitive reports a timeout with nothing changed. */
  lemma ProgramCut(c: Config, d: Dev, p: PageId, i: nat, v: Half)
    requires Wf(c, d) && Cuts(d) && InFlash(c) && i < 2 * Slots(c)
    requires PageOf(d, p)[i] == PageErased || v == 0
    ensures var r := ProgramHalfWord(c, d, p, i, v);
            && Cuts(r.dev)
            && (Lost(d) ==> r == Flashed(Timeout, d))
            && (!Lost(d) ==> r.fs == Complete && PageOf(r.dev, p) == PageOf(d, p)[i := v])
  {
    var r := ProgramHalfWord(c, d, p, i, v);
    assert IsFlashAddress(Base(c, p) + 2 * i);
  }

  /** Once the power is gone, `FLASH_ProgramHalfWord` inside the flash range
      reports a timeout and changes nothing, whatever the cell holds. */
  lemma LostProgram(c: Config, d: Dev, p: PageId, i: nat, v: Half)
    requires Wf(c, d) && InFlash(c) && i < 2 * Slots(c) && Lost(d)
    ensures ProgramHalfWord(c, d, p, i, v) == Flashed(Timeout, d)
  {
    assert IsFlashAddress(Base(c, p) + 2 * i);
  }

  /** `FLASH_ErasePage` under a possible power cut: the page is erased, or the
      power is already gone and nothing changes. */
  lemma EraseCut(c: Config, d: Dev, p: PageId)
    requires Wf(c, d) && Cuts(d)
    ensures var r := ErasePage(c, d, p);
            && Cuts(r.dev)
            && (Lost(d) ==> r == Flashed(Timeout, d))
            && (!Lost(d) ==> r.fs == Complete && PageOf(r.dev, p) == Blank(2 * Slots(c)))
  {
    var r := ErasePage(c, d, p);
  }

  /** What a reboot after a cut must give: `init` succeeds and leaves a good
      state whose valid page reads, for every address but 0xFFFF, `v` for `a` when
      the write took and otherwise as page `o`. */
  ghost predicate Recovers(c: Config, d: Dev, o: seq<Half>, a: Half, v: Half, took: bool)
    requires Wf(c, d) && IsPage(o)
  {
    var i := InitPages(c, Reboot(d));
    && i.code == Ok && NoFaults(i.dev)
    && FindValidPage(c, i.dev).Some?
    && Good(c, i.dev, FindValidPage(c, i.dev).value)
    && forall b :: b != PageErased ==>
         Lookup(PageOf(i.dev, FindValidPage(c, i.dev).value), b) == if took && b == a then Some(v) else Lookup(o, b)
  }

  /** A good state survives a reboot as it is: `init` finds the valid page and
      the blank spare page and programs nothing. */
  lemma GoodRecovers(c: Config, d: Dev, p: PageId)
    requires Good(c, d, p)
    ensures var i := InitPages(c, Reboot(d));
            && i == Res(Ok, Reboot(d))
            && FindValidPage(c, i.dev) == Some(p) && Good(c, i.dev, p)
  {
    assert Good(c, Reboot(d), p);
    GoodIsFound(c, Reboot(d), p);
    assert p.Other().Other() == p;
  }

  /** A good state whose valid page reads as a recovery must read. */
  lemma GoodRecoversAs(c: Config, d: Dev, p: PageId, o: seq<Half>, a: Half, v: Half, took: bool)
    requires Good(c, d, p) && IsPage(o)
    requires forall b :: b != PageErased ==>
               Lookup(PageOf(d, p), b) == if took && b == a then Some(v) else Lookup(o, b)
    ensures Recovers(c, d, o, a, v, took)
  {
    GoodRecovers(c, d, p);
  }

  /** A cut between the two halfwords of a record leaves value `x` programmed
      and the address 0xFFFF: the slot is no longer blank unless `x` is 0xFFFF,
      the blank slots still form a suffix, and no lookup of another address sees
      the slot. */
  lemma HalfSlot(m: seq<Half>, f: nat, x: Half)
    requires IsPage(m) && 1 <= f < SlotCount(m)
    requires BlankFrom(m, f) && forall j :: 1 <= j < f ==> !SlotBlank(m, j)
    ensures var n := m[2 * f := x];
            var f' := if x == PageErased then f else f + 1;
            && IsPage(n) && Header(n) == Header(m) && LogShaped(n) && FirstBlank(n, 1) == f'
            && forall b :: b != PageErased ==>
                 LookupBelow(n, b, f') == LookupBelow(m, b, f) && Lookup(n, b) == Lookup(m, b)
  {
    var n := m[2 * f := x];
    var f' := if x == PageErased then f else f + 1;
    HalfSlotShape(m, f, x);
    forall b | b != PageErased
      ensures LookupBelow(n, b, f') == LookupBelow(m, b, f) && Lookup(n, b) == Lookup(m, b)
    {
      HalfSlotLookup(m, f, x, b);
    }
  }

  /** The slot layout after a half-programmed record. */
  lemma HalfSlotShape(m: seq<Half>, f: nat, x: Half)
    requires IsPage(m) && 1 <= f < SlotCount(m)
    requires BlankFrom(m, f) && forall j :: 1 <= j < f ==> !SlotBlank(m, j)
    ensures var n := m[2 * f := x];
            var f' := if x == PageErased then f else f + 1;
            && IsPage(n) && Header(n) == Header(m) && BlankFrom(n, f') && LogShaped(n) && FirstBlank(n, 1) == f'
            && AddressAt(n, f) == PageErased
            && forall j :: 0 <= j < SlotCount(m) && j != f ==>
                 AddressAt(n, j) == AddressAt(m, j) && ValueAt(n, j) == ValueAt(m, j)
  {
    var n := m[2 * f := x];
    var f' := if x == PageErased then f else f + 1;
    assert SlotBlank(m, f);
    forall j | f' <= j < SlotCount(n)
      ensures SlotBlank(n, j)
    {
      assert SlotBlank(m, j);
    }
    forall j | 1 <= j < f'
      ensures !SlotBlank(n, j)
    {
      if j < f {
        assert !SlotBlank(m, j);
      }
    }
    FirstBlankIs(n, 1, f');
  }

  /** No lookup of an address other than 0xFFFF sees a half-programmed record. */
  lemma HalfSlotLookup(m: seq<Half>, f: nat, x: Half, b: Half)
    requires IsPage(m) && 1 <= f < SlotCount(m) && b != PageErased
    requires BlankFrom(m, f) && forall j :: 1 <= j < f ==> !SlotBlank(m, j)
    ensures var n := m[2 * f := x];
            var f' := if x == PageErased then f else f + 1;
            LookupBelow(n, b, f') == LookupBelow(m, b, f) && Lookup(n, b) == Lookup(m, b)
  {
    var n := m[2 * f := x];
    var f' := if x == PageErased then f else f + 1;
    HalfSlotShape(m, f, x);
    LatestInFrame(n, m, b, 1, f);
    if x != PageErased {
      LatestInRaise(n, b, 1, f);
    }
    LookupBlankTail(n, b, f');
    LookupBlankTail(m, b, f);
  }
}

=== FILE: scan_facts.dfy ===
/** General facts about the backward and forward scans of a page image. */
module ScanFacts {
  import opened Layout
  import opened PageScan

  /** Widening the scanned range by one slot at the bottom: the latest match is
      the one above, if any, else the new bottom slot if it matches. */
  lemma LatestInDrop(pg: seq<Half>, a: Half, lo: nat, hi: nat)
    requires lo < hi <= SlotCount(pg)
    ensures LatestIn(pg, a, lo, hi) ==
              if LatestIn(pg, a, lo + 1, hi).Some? then LatestIn(pg, a, lo + 1, hi)
              else if AddressAt(pg, lo) == a then Some(lo) else None
  {
    var r := LatestIn(pg, a, lo, hi);
    var r' := LatestIn(pg, a, lo + 1, hi);
    if r'.Some? {
      assert r.Some?;
    } else if AddressAt(pg, lo) == a {
      assert r.Some?;
    }
  }

  /** Widening the scanned range by one slot at the top. */
  lemma LatestInRaise(pg: seq<Half>, a: Half, lo: nat, hi: nat)
    requires lo <= hi < SlotCount(pg)
    ensures LatestIn(pg, a, lo, hi + 1) ==
              if AddressAt(pg, hi) == a then Some(hi) else LatestIn(pg, a, lo, hi)
  {
  }

  /** The scan only depends on the address halfwords of the scanned slots. */
  lemma LatestInFrame(pg: seq<Half>, pg': seq<Half>, a: Half, lo: nat, hi: nat)
    requires lo <= hi <= SlotCount(pg) && hi <= SlotCount(pg')
    requires forall j :: lo <= j < hi ==> AddressAt(pg, j) == AddressAt(pg', j)
    ensures LatestIn(pg, a, lo, hi) == LatestIn(pg', a, lo, hi)
  {
    var r := LatestIn(pg, a, lo, hi);
    var r' := LatestIn(pg', a, lo, hi);
    if r.Some? {
      assert AddressAt(pg', r.value) == a;
      assert r'.Some?;
    }
  }

  /** The lookup only depends on the scanned slots. */
  lemma LookupBelowFrame(pg: seq<Half>, pg': seq<Half>, a: Half, hi: nat)
    requires 1 <= hi <= SlotCount(pg) && hi <= SlotCount(pg')
    requires forall j :: 1 <= j < hi ==> AddressAt(pg, j) == AddressAt(pg', j) && ValueAt(pg, j) == ValueAt(pg', j)
    ensures LookupBelow(pg, a, hi) == LookupBelow(pg', a, hi)
  {
    LatestInFrame(pg, pg', a, 1, hi);
  }

  /** Blank slots carry the address 0xFFFF, so a scan for any other address may
      stop where the blank tail begins. */
  lemma LatestInBlankTail(pg: seq<Half>, a: Half, lo: nat, h: nat)
    requires lo <= h <= SlotCount(pg) && a != PageErased && BlankFrom(pg, h)
    ensures LatestIn(pg, a, lo, SlotCount(pg)) == LatestIn(pg, a, lo, h)
  {
    var r := LatestIn(pg, a, lo, SlotCount(pg));
    var r' := LatestIn(pg, a, lo, h);
    if r.Some? {
      assert !SlotBlank(pg, r.value);
      assert r'.Some?;
    }
  }

  lemma LookupBlankTail(pg: seq<Half>, a: Half, h: nat)
    requires IsPage(pg) && 1 <= h <= SlotCount(pg) && a != PageErased && BlankFrom(pg, h)
    ensures Lookup(pg, a) == LookupBelow(pg, a, h)
  {
    LatestInBlankTail(pg, a, 1, h);
  }

  /** The forward and backward scans agree on whether a match exists. */
  lemma FirstInLatestIn(pg: seq<Half>, a: Half, lo: nat, hi: nat)
    requires lo <= hi <= SlotCount(pg)
    ensures FirstIn(pg, a, lo, hi).Some? <==> LatestIn(pg, a, lo, hi).Some?
  {
    if FirstIn(pg, a, lo, hi).Some? {
      assert AddressAt(pg, FirstIn(pg, a, lo, hi).value) == a;
    }
    if LatestIn(pg, a, lo, hi).Some? {
      assert AddressAt(pg, LatestIn(pg, a, lo, hi).value) == a;
    }
  }

  /** Filling slot `f` with a record (v, a) makes it the latest record for `a`
      below f + 1 and leaves every other address's lookup as it was. */
  lemma LookupAppend(pg: seq<Half>, pg': seq<Half>, a: Half, v: Half, f: nat)
    requires 1 <= f < SlotCount(pg) && SlotCount(pg') == SlotCount(pg)
    requires forall j :: 1 <= j < f ==> AddressAt(pg', j) == AddressAt(pg, j) && ValueAt(pg', j) == ValueAt(pg, j)
    requires AddressAt(pg', f) == a && ValueAt(pg', f) == v
    ensures forall b :: LookupBelow(pg', b, f + 1) == if b == a then Some(v) else LookupBelow(pg, b, f)
  {
    forall b
      ensures LookupBelow(pg', b, f + 1) == if b == a then Some(v) else LookupBelow(pg, b, f)
    {
      LatestInRaise(pg', b, 1, f);
      LatestInFrame(pg, pg', b, 1, f);
    }
  }

  /** The first blank slot is pinned down by the slots before it being used and
      itself being blank (or the end of the page). */
  lemma FirstBlankIs(pg: seq<Half>, i: nat, f: nat)
    requires i <= f <= SlotCount(pg)
    requires forall j :: i <= j < f ==> !SlotBlank(pg, j)
    requires f < SlotCount(pg) ==> SlotBlank(pg, f)
    ensures FirstBlank(pg, i) == f
  {
  }

  /** Appending the record (v, a) into the first blank slot of a log-shaped page
      keeps it log-shaped, moves the first blank slot on by one, and makes `a` read
      `v` while every other address reads as before. */
  lemma AppendKeepsLog(pg: seq<Half>, pg': seq<Half>, a: Half, v: Half, f: nat)
    requires IsPage(pg) && |pg'| == |pg| && LogShaped(pg) && a != PageErased
    requires f == FirstBlank(pg, 1) < SlotCount(pg)
    requires forall j :: 0 <= j < SlotCount(pg) && j != f ==>
               AddressAt(pg', j) == AddressAt(pg, j) && ValueAt(pg', j) == ValueAt(pg, j)
    requires AddressAt(pg', f) == a && ValueAt(pg', f) == v
    ensures Header(pg') == Header(pg) && LogShaped(pg') && FirstBlank(pg', 1) == f + 1
    ensures forall b :: b != PageErased ==> Lookup(pg', b) == if b == a then Some(v) else Lookup(pg, b)
  {
    assert ValueAt(pg', 0) == ValueAt(pg, 0);
    forall j | 1 <= j < f + 1
      ensures !SlotBlank(pg', j)
    {
      if j < f {
        assert !SlotBlank(pg, j);
      }
    }
    forall j | f + 1 <= j < SlotCount(pg')
      ensures SlotBlank(pg', j)
    {
      assert SlotBlank(pg, j);
    }
    FirstBlankIs(pg', 1, f + 1);
    LookupAppend(pg, pg', a, v, f);
    forall b | b != PageErased
      ensures Lookup(pg', b) == if b == a then Some(v) else Lookup(pg, b)
    {
      LookupBlankTail(pg', b, f + 1);
      LookupBlankTail(pg, b, f);
    }
  }

  /** Completing a record whose value still reads 0xFFFF: when slot `j` is the
      latest record of `a`, `a` then reads `v`; every other address and the shape
      of the page are unchanged. */
  lemma FillKeepsLog(pg: seq<Half>, pg': seq<Half>, a: Half, v: Half, j: nat)
    requires IsPage(pg) && |pg'| == |pg| && LogShaped(pg) && a != PageErased
    requires 1 <= j < SlotCount(pg) && LatestIn(pg, a, 1, SlotCount(pg)) == Some(j)
    requires forall i :: 0 <= i < SlotCount(pg) ==> AddressAt(pg', i) == AddressAt(pg, i)
    requires forall i :: 0 <= i < SlotCount(pg) && i != j ==> ValueAt(pg', i) == ValueAt(pg, i)
    requires ValueAt(pg', j) == v
    ensures Header(pg') == Header(pg) && LogShaped(pg') && FirstBlank(pg', 1) == FirstBlank(pg, 1)
    ensures Lookup(pg', a) == Some(v)
    ensures forall b :: b != a ==> Lookup(pg', b) == Lookup(pg, b)
  {
    assert ValueAt(pg', 0) == ValueAt(pg, 0);
    var f := FirstBlank(pg, 1);
    assert !SlotBlank(pg', j);
    forall i | 1 <= i < f
      ensures !SlotBlank(pg', i)
    {
      assert !SlotBlank(pg, i);
    }
    forall i | f <= i < SlotCount(pg')
      ensures SlotBlank(pg', i)
    {
      assert SlotBlank(pg, i);
    }
    FirstBlankIs(pg', 1, f);
    forall b
      ensures LatestIn(pg', b, 1, SlotCount(pg)) == LatestIn(pg, b, 1, SlotCount(pg))
    {
      LatestInFrame(pg, pg', b, 1, SlotCount(pg));
    }
  }

  /** Overwriting the value halfword of slot `j` leaves every address halfword and
      every other value halfword as it was. */
  lemma ValueUpdate(pg: seq<Half>, j: nat, v: Half)
    requires j < SlotCount(pg)
    ensures var pg' := pg[2 * j := v];
            && SlotCount(pg') == SlotCount(pg) && ValueAt(pg', j) == v
            && (forall i :: 0 <= i < SlotCount(pg) ==> AddressAt(pg', i) == AddressAt(pg, i))
            && (forall i :: 0 <= i < SlotCount(pg) && i != j ==> ValueAt(pg', i) == ValueAt(pg, i))
  {
  }
}

=== FILE: transfer_proof.dfy ===
/** Correctness of the page transfer: with hardware that carries out every
    primitive, the new page ends up holding, for every address, the record it
    already had, or else the latest record of the old page (unless the address is
    skipped), one slot per copied address, and the old page is left blank. */
module TransferProof {
  import opened Layout
  import opened Flash
  import opened PageScan
  import opened Engine
  import opened ScanFacts
  import opened CopyInvariant

  /** What a page transfer promises for address `a`: a record already on the new
      page wins; otherwise the old page's latest record, unless `a` is skipped. */
  function Merged(n0: seq<Half>, o: seq<Half>, skip: Half, a: Half): Option<Half>
    requires IsPage(n0) && IsPage(o)
  {
    if Lookup(n0, a).Some? then Lookup(n0, a)
    else if a != skip then Lookup(o, a)
    else None
  }

  /** Walking one more old slot changes the target only for the address of that
      slot, and only when nothing earlier decided it. */
  lemma TargetDrop(n0: seq<Half>, f0: nat, o: seq<Half>, skip: Half, k: nat, b: Half)
    requires 1 <= f0 <= SlotCount(n0) && 1 < k <= SlotCount(o)
    ensures Target(n0, f0, o, skip, k - 1, b) ==
              if LatestIn(n0, b, 1, f0).None? && b != skip && LatestIn(o, b, k, SlotCount(o)).None? && AddressAt(o, k - 1) == b
              then Some(ValueAt(o, k - 1))
              else Target(n0, f0, o, skip, k, b)
  {
    LatestInDrop(o, b, k - 1, SlotCount(o));
  }

  /** An old slot that is not copied (blank address, skipped, or already on the
      new page) leaves the invariant holding one slot further down. */
  lemma PassStep(c: Config, d: Dev, np: PageId, skip: Half, n0: seq<Half>, f0: nat, o: seq<Half>, k: nat, free: nat)
    requires Inv(c, d, np, skip, n0, f0, o, k, free) && k > 1
    requires var a := AddressAt(o, k - 1);
             a == PageErased || a == skip || FirstIn(PageOf(d, np), a, 1, free).Some?
    ensures Inv(c, d, np, skip, n0, f0, o, k - 1, free)
    ensures CopyLoop(c, d, np, skip, k, free) == CopyLoop(c, d, np, skip, k - 1, free)
  {
    var a := AddressAt(o, k - 1);
    var pg := PageOf(d, np);
    if a != PageErased && a != skip {
      FirstInLatestIn(pg, a, 1, free);
      assert AgreeAt(pg, n0, f0, o, skip, k, free, a);
      assert LookupBelow(pg, a, free).Some?;
      assert Target(n0, f0, o, skip, k, a).Some?;
    }
    var nk := k - 1;
    forall b: Half
      ensures AgreeAt(pg, n0, f0, o, skip, nk, free, b)
    {
      assert AgreeAt(pg, n0, f0, o, skip, k, free, b);
      TargetDrop(n0, f0, o, skip, k, b);
    }
    assert !Copies(n0, f0, o, skip, k - 1);
  }

  /** A copied slot counts once, and the room hypothesis leaves a blank slot
      for it. */
  lemma CopyRoom(c: Config, d: Dev, np: PageId, skip: Half, n0: seq<Half>, f0: nat, o: seq<Half>, k: nat, free: nat)
    requires Inv(c, d, np, skip, n0, f0, o, k, free) && k > 1
    requires Copied(n0, f0, o, skip, 1) <= Slots(c) - f0
    requires var a := AddressAt(o, k - 1);
             a != PageErased && a != skip && FirstIn(PageOf(d, np), a, 1, free).None?
    ensures free < Slots(c)
    ensures LatestIn(n0, AddressAt(o, k - 1), 1, f0).None?
    ensures LatestIn(o, AddressAt(o, k - 1), k, SlotCount(o)).None?
    ensures Copied(n0, f0, o, skip, k - 1) == Copied(n0, f0, o, skip, k) + 1
  {
    CopyCounts(c, d, np, skip, n0, f0, o, k, free);
    CopiedMonotone(n0, f0, o, skip, k - 1, 1);
  }

  /** An old slot the loop has to copy (not blank, not skipped, not yet on the new
      page) is the latest record of its address and counts once. */
  lemma CopyCounts(c: Config, d: Dev, np: PageId, skip: Half, n0: seq<Half>, f0: nat, o: seq<Half>, k: nat, free: nat)
    requires Inv(c, d, np, skip, n0, f0, o, k, free) && k > 1
    requires var a := AddressAt(o, k - 1);
             a != PageErased && a != skip && FirstIn(PageOf(d, np), a, 1, free).None?
    ensures LatestIn(n0, AddressAt(o, k - 1), 1, f0).None?
    ensures LatestIn(o, AddressAt(o, k - 1), k, SlotCount(o)).None?
    ensures Copied(n0, f0, o, skip, k - 1) == Copied(n0, f0, o, skip, k) + 1
  {
    var a := AddressAt(o, k - 1);
    var pg := PageOf(d, np);
    FirstInLatestIn(pg, a, 1, free);
    assert AgreeAt(pg, n0, f0, o, skip, k, free, a);
    assert LookupBelow(pg, a, free).None?;
    assert Target(n0, f0, o, skip, k, a).None?;
    assert Copies(n0, f0, o, skip, k - 1);
  }

  /** Programming value then address into a blank slot of an in-flash page with
      working hardware: both succeed and the slot holds the record, all else kept. */
  lemma ProgramSlot(c: Config, d: Dev, np: PageId, f: nat, v: Half, a: Half)
    requires Wf(c, d) && NoFaults(d) && InFlash(c)
    requires 1 <= f < Slots(c) && SlotBlank(PageOf(d, np), f)
    ensures var w1 := ProgramHalfWord(c, d, np, 2 * f, v);
            && w1.fs == Complete
            && var w2 := ProgramHalfWord(c, w1.dev, np, 2 * f + 1, a);
            && w2.fs == Complete && Wf(c, w2.dev) && NoFaults(w2.dev)
            && PageOf(w2.dev, np.Other()) == PageOf(d, np.Other())
            && AddressAt(PageOf(w2.dev, np), f) == a && ValueAt(PageOf(w2.dev, np), f) == v
            && forall j :: 0 <= j < Slots(c) && j != f ==>
                 AddressAt(PageOf(w2.dev, np), j) == AddressAt(PageOf(d, np), j)
                 && ValueAt(PageOf(w2.dev, np), j) == ValueAt(PageOf(d, np), j)
  {
    var w1 := ProgramHalfWord(c, d, np, 2 * f, v);
    var w2 := ProgramHalfWord(c, w1.dev, np, 2 * f + 1, a);
    var pg := PageOf(d, np);
    var half: seq<Half> := pg[2 * f := v];
    assert PageOf(w2.dev, np) == half[2 * f + 1 := a];
  }

  /** A copied old slot with a free slot left on the new page, whether or not the
      whole transfer has room: the invariant holds one slot further down. */
  lemma CopyStepAt(c: Config, d: Dev, np: PageId, skip: Half, n0: seq<Half>, f0: nat, o: seq<Half>, k: nat, free: nat)
      returns (d2: Dev)
    requires Inv(c, d, np, skip, n0, f0, o, k, free) && k > 1 && free < Slots(c)
    requires var a := AddressAt(o, k - 1);
             a != PageErased && a != skip && FirstIn(PageOf(d, np), a, 1, free).None?
    ensures Inv(c, d2, np, skip, n0, f0, o, k - 1, free + 1)
    ensures CopyLoop(c, d, np, skip, k, free) == CopyLoop(c, d2, np, skip, k - 1, free + 1)
  {
    var a := AddressAt(o, k - 1);
    var v := ValueAt(o, k - 1);
    CopyCounts(c, d, np, skip, n0, f0, o, k, free);
    ProgramSlot(c, d, np, free, v, a);
    var w1 := ProgramHalfWord(c, d, np, 2 * free, v);
    var w2 := ProgramHalfWord(c, w1.dev, np, 2 * free + 1, a);
    d2 := w2.dev;
    CopyInv(c, d, d2, np, skip, n0, f0, o, k, free);
    CopyUnroll(c, d, np, skip, k, free);
  }

  /** The invariant one slot further down, on the device where the copied
      record was programmed into the free slot. */
  lemma CopyInv(c: Config, d: Dev, d2: Dev, np: PageId, skip: Half, n0: seq<Half>, f0: nat, o: seq<Half>, k: nat, free: nat)
    requires Inv(c, d, np, skip, n0, f0, o, k, free) && k > 1 && free < Slots(c)
    requires var a := AddressAt(o, k - 1);
             && a != PageErased && a != skip
             && LatestIn(n0, a, 1, f0).None? && LatestIn(o, a, k, SlotCount(o)).None?
    requires Copied(n0, f0, o, skip, k - 1) == Copied(n0, f0, o, skip, k) + 1
    requires Wf(c, d2) && NoFaults(d2) && PageOf(d2, np.Other()) == o
    requires AddressAt(PageOf(d2, np), free) == AddressAt(o, k - 1) && ValueAt(PageOf(d2, np), free) == ValueAt(o, k - 1)
    requires forall j :: 0 <= j < Slots(c) && j != free ==>
               AddressAt(PageOf(d2, np), j) == AddressAt(PageOf(d, np), j)
               && ValueAt(PageOf(d2, np), j) == ValueAt(PageOf(d, np), j)
    ensures Inv(c, d2, np, skip, n0, f0, o, k - 1, free + 1)
  {
    NextPage(c, PageOf(d, np), PageOf(d2, np), skip, n0, f0, o, k, free, k - 1, free + 1);
  }

  /** With both programs of a copied record succeeding, the loop continues from
      the programmed device. */
  lemma CopyUnroll(c: Config, d: Dev, np: PageId, skip: Half, k: nat, free: nat)
    requires Wf(c, d) && 1 < k <= Slots(c) && 1 <= free < Slots(c)
    requires var a := AddressAt(PageOf(d, np.Other()), k - 1);
             a != PageErased && a != skip && FirstIn(PageOf(d, np), a, 1, free).None?
    requires var w1 := ProgramHalfWord(c, d, np, 2 * free, ValueAt(PageOf(d, np.Other()), k - 1));
             && w1.fs == Complete
             && ProgramHalfWord(c, w1.dev, np, 2 * free + 1, AddressAt(PageOf(d, np.Other()), k - 1)).fs == Complete
    ensures var w1 := ProgramHalfWord(c, d, np, 2 * free, ValueAt(PageOf(d, np.Other()), k - 1));
            var w2 := ProgramHalfWord(c, w1.dev, np, 2 * free + 1, AddressAt(PageOf(d, np.Other()), k - 1));
            CopyLoop(c, d, np, skip, k, free) == CopyLoop(c, w2.dev, np, skip, k - 1, free + 1)
  {
  }

  /** The page-level half of a copy step: slot `free` of `pg'` now holds the old
      page's slot k - 1, which moves the invariant to `nk` = k - 1 and `nf` = free + 1. */
  lemma NextPage(c: Config, pg: seq<Half>, pg': seq<Half>, skip: Half, n0: seq<Half>, f0: nat, o: seq<Half>, k: nat, free: nat, nk: nat, nf: nat)
    requires |pg| == |pg'| == |n0| == |o| == 2 * Slots(c)
    requires 1 < k <= Slots(c) && 1 <= f0 <= free < Slots(c) && nk + 1 == k && nf == free + 1
    requires BlankFrom(pg, free) && (forall j :: 1 <= j < free ==> !SlotBlank(pg, j))
    requires forall b: Half :: AgreeAt(pg, n0, f0, o, skip, k, free, b)
    requires var a := AddressAt(o, nk);
             && a != PageErased && a != skip
             && LatestIn(n0, a, 1, f0).None? && LatestIn(o, a, k, SlotCount(o)).None?
             && AddressAt(pg', free) == a && ValueAt(pg', free) == ValueAt(o, nk)
    requires forall j :: 0 <= j < Slots(c) && j != free ==>
               AddressAt(pg', j) == AddressAt(pg, j) && ValueAt(pg', j) == ValueAt(pg, j)
    ensures BlankFrom(pg', nf) && (forall j :: 1 <= j < nf ==> !SlotBlank(pg', j))
    ensures forall b: Half :: AgreeAt(pg', n0, f0, o, skip, nk, nf, b)
  {
    var a := AddressAt(o, nk);
    LookupAppend(pg, pg', a, ValueAt(o, nk), free);
    forall b: Half
      ensures AgreeAt(pg', n0, f0, o, skip, nk, nf, b)
    {
      assert AgreeAt(pg, n0, f0, o, skip, k, free, b);
      TargetDrop(n0, f0, o, skip, k, b);
    }
    forall j | nf <= j < SlotCount(pg')
      ensures SlotBlank(pg', j)
    {
      assert SlotBlank(pg, j);
    }
    forall j | 1 <= j < nf
      ensures !SlotBlank(pg', j)
    {
      if j < free {
        assert !SlotBlank(pg, j);
      }
    }
  }

  /** The copy loop, started in the invariant and with room for every address it
      has to copy, runs to the end and leaves the invariant holding for the whole
      old page. */
  lemma {:induction false} CopyLoopCorrect(c: Config, d: Dev, np: PageId, skip: Half, n0: seq<Half>, f0: nat, o: seq<Half>, k: nat, free: nat)
    requires Inv(c, d, np, skip, n0, f0, o, k, free)
    requires Copied(n0, f0, o, skip, 1) <= Slots(c) - f0
    ensures Done(c, CopyLoop(c, d, np, skip, k, free), np, skip, n0, f0, o)
    decreases k
  {
    if k > 1 {
      var d2, f2 := LoopStep(c, d, np, skip, n0, f0, o, k, free);
      CopyLoopCorrect(c, d2, np, skip, n0, f0, o, k - 1, f2);
    }
  }

  /** The copy loop, started in the invariant, stops with OUT_SIZE exactly when the
      old page holds more records to copy than the new page had free slots, and
      otherwise runs to the end. */
  lemma {:induction false} CopyLoopStops(c: Config, d: Dev, np: PageId, skip: Half, n0: seq<Half>, f0: nat, o: seq<Half>, k: nat, free: nat)
    requires Inv(c, d, np, skip, n0, f0, o, k, free)
    ensures CopyLoop(c, d, np, skip, k, free).stop ==
              if Copied(n0, f0, o, skip, 1) <= Slots(c) - f0 then None else Some(OutSize)
    decreases k
  {
    if k > 1 {
      var a := AddressAt(o, k - 1);
      if a != PageErased && a != skip && FirstIn(PageOf(d, np), a, 1, free).None? && free == Slots(c) {
        FullStop(c, d, np, skip, n0, f0, o, k, free);
      } else {
        var d2, f2 := TurnOn(c, d, np, skip, n0, f0, o, k, free);
        CopyLoopStops(c, d2, np, skip, n0, f0, o, k - 1, f2);
      }
    }
  }

  /** A record to copy when the new page has no free slot left: the loop stops
      with OUT_SIZE, and the old page indeed holds more to copy than there was room. */
  lemma FullStop(c: Config, d: Dev, np: PageId, skip: Half, n0: seq<Half>, f0: nat, o: seq<Half>, k: nat, free: nat)
    requires Inv(c, d, np, skip, n0, f0, o, k, free) && k > 1 && free == Slots(c)
    requires var a := AddressAt(o, k - 1);
             a != PageErased && a != skip && FirstIn(PageOf(d, np), a, 1, free).None?
    ensures CopyLoop(c, d, np, skip, k, free).stop == Some(OutSize)
    ensures Copied(n0, f0, o, skip, 1) > Slots(c) - f0
  {
    CopyCounts(c, d, np, skip, n0, f0, o, k, free);
    CopiedMonotone(n0, f0, o, skip, k - 1, 1);
  }

  /** A turn of the copy loop that does not stop it, whether or not the whole
      transfer has room: the loop goes on from device `d2` and free slot `f2` with
      the invariant one slot further down. */
  lemma TurnOn(c: Config, d: Dev, np: PageId, skip: Half, n0: seq<Half>, f0: nat, o: seq<Half>, k: nat, free: nat)
      returns (d2: Dev, f2: nat)
    requires Inv(c, d, np, skip, n0, f0, o, k, free) && k > 1
    requires var a := AddressAt(o, k - 1);
             a == PageErased || a == skip || FirstIn(PageOf(d, np), a, 1, free).Some? || free < Slots(c)
    ensures Inv(c, d2, np, skip, n0, f0, o, k - 1, f2)
    ensures CopyLoop(c, d, np, skip, k, free) == CopyLoop(c, d2, np, skip, k - 1, f2)
  {
    var a := AddressAt(o, k - 1);
    if a == PageErased || a == skip || FirstIn(PageOf(d, np), a, 1, free).Some? {
      PassStep(c, d, np, skip, n0, f0, o, k, free);
      d2, f2 := d, free;
    } else {
      d2 := CopyStepAt(c, d, np, skip, n0, f0, o, k, free);
      f2 := free + 1;
    }
  }

  /** One turn of the copy loop, copied or passed over: the loop goes on from
      device `d2` and free slot `f2` with the invariant one slot further down. */
  lemma LoopStep(c: Config, d: Dev, np: PageId, skip: Half, n0: seq<Half>, f0: nat, o: seq<Half>, k: nat, free: nat)
      returns (d2: Dev, f2: nat)
    requires Inv(c, d, np, skip, n0, f0, o, k, free) && k > 1
    requires Copied(n0, f0, o, skip, 1) <= Slots(c) - f0
    ensures Inv(c, d2, np, skip, n0, f0, o, k - 1, f2)
    ensures CopyLoop(c, d, np, skip, k, free) == CopyLoop(c, d2, np, skip, k - 1, f2)
  {
    var a := AddressAt(o, k - 1);
    if a != PageErased && a != skip && FirstIn(PageOf(d, np), a, 1, free).None? {
      CopyRoom(c, d, np, skip, n0, f0, o, k, free);
    }
    d2, f2 := TurnOn(c, d, np, skip, n0, f0, o, k, free);
  }

  /** The invariant holds before the copy loop starts: nothing of the old page
      walked, the new page's records untouched. */
  lemma TransferStart(c: Config, d: Dev, np: PageId, skip: Half)
    requires Wf(c, d) && NoFaults(d) && InFlash(c)
    requires LogShaped(PageOf(d, np))
    ensures var n0 := PageOf(d, np);
            var f0 := FirstBlank(n0, 1);
            Inv(c, d, np, skip, n0, f0, PageOf(d, np.Other()), Slots(c), f0)
  {
    var n0 := PageOf(d, np);
    var o := PageOf(d, np.Other());
    var f0 := FirstBlank(n0, 1);
    forall a: Half
      ensures AgreeAt(n0, n0, f0, o, skip, Slots(c), f0, a)
    {
    }
  }

  /** Once the loop has walked the whole old page: the verified erase of the old
      page and the programming of the VALID header both succeed, and the new page
      answers every lookup with its target. */
  lemma TransferEnd(c: Config, d1: Dev, np: PageId, skip: Half, n0: seq<Half>, f0: nat, o: seq<Half>, free: nat)
    requires Inv(c, d1, np, skip, n0, f0, o, 1, free)
    ensures var r := CommitTransfer(c, d1, np);
            && r.code == Ok && NoFaults(r.dev)
            && var n1 := PageOf(r.dev, np);
            && Header(n1) == PageValid && Ready(PageOf(r.dev, np.Other()), PageErased)
            && LogShaped(n1) && FirstBlank(n1, 1) == free
            && forall a: Half :: a != PageErased ==> Lookup(n1, a) == Target(n0, f0, o, skip, 1, a)
  {
    var r := CommitTransfer(c, d1, np);
    var mid := PageOf(d1, np);
    var n1 := PageOf(r.dev, np);
    assert forall j :: 1 <= j < SlotCount(n1) ==>
             AddressAt(n1, j) == AddressAt(mid, j) && ValueAt(n1, j) == ValueAt(mid, j);
    forall j | 1 <= j < free
      ensures !SlotBlank(n1, j)
    {
      assert !SlotBlank(mid, j);
    }
    forall j | free <= j < SlotCount(n1)
      ensures SlotBlank(n1, j)
    {
      assert SlotBlank(mid, j);
    }
    FirstBlankIs(n1, 1, free);
    forall a: Half | a != PageErased
      ensures Lookup(n1, a) == Target(n0, f0, o, skip, 1, a)
    {
      assert AgreeAt(mid, n0, f0, o, skip, 1, free, a);
      LookupBlankTail(n1, a, free);
      LookupBelowFrame(n1, mid, a, free);
    }
  }

  /** With the whole old page walked, an address's target is what Merged says. */
  lemma TargetIsMerged(n0: seq<Half>, f0: nat, o: seq<Half>, skip: Half, a: Half)
    requires IsPage(n0) && IsPage(o) && 1 <= f0 <= SlotCount(n0) && BlankFrom(n0, f0) && a != PageErased
    ensures Target(n0, f0, o, skip, 1, a) == Merged(n0, o, skip, a)
  {
    LookupBlankTail(n0, a, f0);
  }

  /** `EE_PageTransfer` with working hardware, a new page whose blank slots form a
      suffix, and room for every address to copy: it succeeds; the new page is VALID,
      log-shaped and uses one slot per copied address; it answers every lookup as
      Merged says; and the old page is ERASED and blank. */
  lemma TransferMerges(c: Config, d: Dev, np: PageId, skip: Half) returns (r: Res)
    requires Wf(c, d) && NoFaults(d) && InFlash(c)
    requires FirstBlank(PageOf(d, np), 1) < Slots(c)
    requires LogShaped(PageOf(d, np))
    requires Copied(PageOf(d, np), FirstBlank(PageOf(d, np), 1), PageOf(d, np.Other()), skip, 1)
             <= Slots(c) - FirstBlank(PageOf(d, np), 1)
    ensures r == PageTransfer(c, d, np, skip)
    ensures var n1 := PageOf(r.dev, np);
            && r.code == Ok && NoFaults(r.dev)
            && Header(n1) == PageValid && Ready(PageOf(r.dev, np.Other()), PageErased)
            && LogShaped(n1)
            && FirstBlank(n1, 1) == FirstBlank(PageOf(d, np), 1)
                 + Copied(PageOf(d, np), FirstBlank(PageOf(d, np), 1), PageOf(d, np.Other()), skip, 1)
            && forall a :: a != PageErased ==>
                 Lookup(n1, a) == Merged(PageOf(d, np), PageOf(d, np.Other()), skip, a)
  {
    var n0 := PageOf(d, np);
    var o := PageOf(d, np.Other());
    var f0 := FirstBlank(n0, 1);
    TransferStart(c, d, np, skip);
    CopyLoopCorrect(c, d, np, skip, n0, f0, o, Slots(c), f0);
    var cp := CopyLoop(c, d, np, skip, Slots(c), f0);
    TransferEnd(c, cp.dev, np, skip, n0, f0, o, cp.free);
    r := PageTransfer(c, d, np, skip);
    forall a: Half | a != PageErased
      ensures Target(n0, f0, o, skip, 1, a) == Merged(n0, o, skip, a)
    {
      TargetIsMerged(n0, f0, o, skip, a);
    }
  }

  /** `EE_PageTransfer` with working hardware and a new page whose blank slots form
      a suffix with at least one free: it reports OUT_SIZE exactly when the old page
      holds more addresses to copy than the new page has free slots, and then the
      old page and the new page's header are as they were; otherwise it succeeds. */
  lemma TransferOutSize(c: Config, d: Dev, np: PageId, skip: Half) returns (r: Res)
    requires Wf(c, d) && NoFaults(d) && InFlash(c)
    requires FirstBlank(PageOf(d, np), 1) < Slots(c) && LogShaped(PageOf(d, np))
    ensures r == PageTransfer(c, d, np, skip)
    ensures r.code == OutSize <==>
              Copied(PageOf(d, np), FirstBlank(PageOf(d, np), 1), PageOf(d, np.Other()), skip, 1)
                > Slots(c) - FirstBlank(PageOf(d, np), 1)
    ensures r.code != OutSize ==> r.code == Ok
    ensures r.code == OutSize ==>
              && NoFaults(r.dev) && PageOf(r.dev, np.Other()) == PageOf(d, np.Other())
              && Header(PageOf(r.dev, np)) == Header(PageOf(d, np))
  {
    var n0 := PageOf(d, np);
    var o := PageOf(d, np.Other());
    var f0 := FirstBlank(n0, 1);
    TransferStart(c, d, np, skip);
    CopyLoopStops(c, d, np, skip, n0, f0, o, Slots(c), f0);
    if Copied(n0, f0, o, skip, 1) <= Slots(c) - f0 {
      r := TransferMerges(c, d, np, skip);
    } else {
      r := PageTransfer(c, d, np, skip);
    }
  }
}

=== FILE: write_proof.dfy ===
/** Correctness of `EE_VerifyPageFullWriteVariable` with hardware that carries out
    every primitive: starting from a settled pair of pages whose valid page keeps
    its blank slots as a suffix, a write either is refused with OUT_SIZE and
    touches nothing, or succeeds, keeps that shape, leaves every other address
    alone and makes the written address read the written value, except for the
    erase-counter quirk. */
module WriteProof {
  import opened Layout
  import opened Flash
  import opened PageScan
  import opened Engine
  import opened ScanFacts
  import opened CopyInvariant
  import opened TransferProof

  /** The state between operations: page `p` is VALID with its blank slots forming a
      suffix, the other page is ERASED and blank. */
  predicate Good(c: Config, d: Dev, p: PageId)
  {
    Wf(c, d) && Settled(c, d, p) && LogShaped(PageOf(d, p))
  }

  /** The valid page of a good state is the one FindValidPage reports. */
  lemma GoodIsFound(c: Config, d: Dev, p: PageId)
    requires Good(c, d, p)
    ensures FindValidPage(c, d) == Some(p)
  {
    if p == Page1 {
      assert Page1.Other() == Page0;
    }
  }

  /** What a successful write from good state `d` (valid page `p`) to `d2` promises:
      a good state again, every address other than `a` reads as before, and `a`
      reads `v` unless the erase-counter quirk applies (no record of `a`, the
      counter equal to `a`, and `v` equal to 0). */
  ghost predicate Written(c: Config, d: Dev, p: PageId, d2: Dev, a: Half, v: Half)
    requires Good(c, d, p) && Wf(c, d2)
  {
    var pg := PageOf(d, p);
    && FindValidPage(c, d2).Some?
    && Good(c, d2, FindValidPage(c, d2).value)
    && var pg2 := PageOf(d2, FindValidPage(c, d2).value);
    && (forall b :: b != PageErased && b != a ==> Lookup(pg2, b) == Lookup(pg, b))
    && (Lookup(pg, a).Some? || Counter(pg) != a || v != 0 ==> Lookup(pg2, a) == Some(v))
  }

  /** The append path: the record goes into the first blank slot. */
  lemma AppendCorrect(c: Config, d: Dev, p: PageId, a: Half, v: Half)
    requires Good(c, d, p) && NoFaults(d) && InFlash(c) && a != PageErased
    requires FirstBlank(PageOf(d, p), 1) < Slots(c)
    ensures var r := AppendRecord(c, d, p, a, v, FirstBlank(PageOf(d, p), 1));
            && r.code == Ok && NoFaults(r.dev) && Good(c, r.dev, p)
            && FirstBlank(PageOf(r.dev, p), 1) == FirstBlank(PageOf(d, p), 1) + 1
            && Lookup(PageOf(r.dev, p), a) == Some(v)
            && forall b :: b != PageErased && b != a ==> Lookup(PageOf(r.dev, p), b) == Lookup(PageOf(d, p), b)
  {
    var pg := PageOf(d, p);
    var f := FirstBlank(pg, 1);
    var r := AppendRecord(c, d, p, a, v, f);
    var half: seq<Half> := pg[2 * f := v];
    assert PageOf(r.dev, p) == half[2 * f + 1 := a];
    assert PageOf(r.dev, p.Other()) == PageOf(d, p.Other());
    AppendKeepsLog(pg, PageOf(r.dev, p), a, v, f);
  }

  /** The in-place path: the latest record of `a` still has a blank value. */
  lemma FillCorrect(c: Config, d: Dev, p: PageId, a: Half, v: Half, j: nat)
    requires Good(c, d, p) && NoFaults(d) && InFlash(c) && a != PageErased
    requires j < Slots(c) && LatestIn(PageOf(d, p), a, 0, Slots(c)) == Some(j)
    requires ValueAt(PageOf(d, p), j) == PageErased
    ensures var w := ProgramHalfWord(c, d, p, 2 * j, v);
            && w.fs == Complete && NoFaults(w.dev) && Good(c, w.dev, p)
            && Lookup(PageOf(w.dev, p), a) == Some(v)
            && forall b :: b != a ==> Lookup(PageOf(w.dev, p), b) == Lookup(PageOf(d, p), b)
  {
    var pg := PageOf(d, p);
    assert j != 0;
    LatestInDrop(pg, a, 0, Slots(c));
    var w := ProgramHalfWord(c, d, p, 2 * j, v);
    var pg' := PageOf(w.dev, p);
    assert pg' == pg[2 * j := v];
    assert PageOf(w.dev, p.Other()) == PageOf(d, p.Other());
    ValueUpdate(pg, j, v);
    FillKeepsLog(pg, pg', a, v, j);
  }

  /** Without a RECEIVE_DATA page in between, the record count of a transfer that
      skips `a` into a page holding only a record of `a` is the variable count. */
  lemma {:induction false} CopiedIsCount(n0: seq<Half>, o: seq<Half>, a: Half, k: nat)
    requires 2 <= SlotCount(n0) && AddressAt(n0, 1) == a && k <= SlotCount(o)
    ensures k >= 1 ==> Copied(n0, 2, o, a, k) == CountFrom(o, a, k)
    decreases SlotCount(o) - k
  {
    if 1 <= k < SlotCount(o) {
      CopiedIsCount(n0, o, a, k + 1);
      FirstInLatestIn(o, AddressAt(o, k), k + 1, SlotCount(o));
    }
  }

  /** The first three programs of a write into a full page: the spare page gets the
      RECEIVE_DATA header and (v, a) in its first slot, and is then log-shaped with
      one record. */
  lemma ReceiveCorrect(c: Config, d: Dev, p: PageId, a: Half, v: Half)
    requires Good(c, d, p) && NoFaults(d) && InFlash(c) && a != PageErased && Slots(c) >= 3
    ensures var np := p.Other();
            var h := ProgramHalfWord(c, d, np, 0, PageReceiveData);
            && h.fs == Complete
            && var w1 := ProgramHalfWord(c, h.dev, np, 2, v);
            && w1.fs == Complete
            && var w2 := ProgramHalfWord(c, w1.dev, np, 3, a);
            && w2.fs == Complete && NoFaults(w2.dev)
            && PageOf(w2.dev, p) == PageOf(d, p)
            && var n0 := PageOf(w2.dev, np);
            && Header(n0) == PageReceiveData && AddressAt(n0, 1) == a && ValueAt(n0, 1) == v
            && LogShaped(n0) && FirstBlank(n0, 1) == 2
  {
    var np := p.Other();
    assert np.Other() == p;
    var n := PageOf(d, np);
    var h := ProgramHalfWord(c, d, np, 0, PageReceiveData);
    var w1 := ProgramHalfWord(c, h.dev, np, 2, v);
    assert SlotBlank(n, 1);
    var w2 := ProgramHalfWord(c, w1.dev, np, 3, a);
    var n0 := PageOf(w2.dev, np);
    assert forall j :: 2 <= j < SlotCount(n0) ==> ValueAt(n0, j) == ValueAt(n, j) && AddressAt(n0, j) == AddressAt(n, j);
    forall j | 2 <= j < SlotCount(n0)
      ensures SlotBlank(n0, j)
    {
      assert SlotBlank(n, j);
    }
    assert !SlotBlank(n0, 1);
    FirstBlankIs(n0, 1, 2);
  }

  /** The full-page path when the count leaves room: the spare page becomes the
      valid page, holding (v, a) and the latest record of every other address. */
  lemma FullCorrect(c: Config, d: Dev, p: PageId, a: Half, v: Half)
    requires Good(c, d, p) && NoFaults(d) && InFlash(c) && a != PageErased
    requires VariablesCount(PageOf(d, p), a) + 1 < Slots(c) - 1
    ensures var r := StartTransfer(c, d, p.Other(), a, v);
            && r.code == Ok && NoFaults(r.dev) && Good(c, r.dev, p.Other())
            && Lookup(PageOf(r.dev, p.Other()), a) == Some(v)
            && forall b :: b != PageErased && b != a ==> Lookup(PageOf(r.dev, p.Other()), b) == Lookup(PageOf(d, p), b)
  {
    var np := p.Other();
    assert np.Other() == p;
    var o := PageOf(d, p);
    ReceiveCorrect(c, d, p, a, v);
    var h := ProgramHalfWord(c, d, np, 0, PageReceiveData);
    var w1 := ProgramHalfWord(c, h.dev, np, 2, v);
    var w2 := ProgramHalfWord(c, w1.dev, np, 3, a);
    assert StartTransfer(c, d, np, a, v) == PageTransfer(c, w2.dev, np, a);
    var r := ReceivedMerges(c, w2.dev, np, a, v);
  }

  /** The transfer half of the full-page path, from the spare page holding the
      RECEIVE_DATA header and only the record (v, a). */
  lemma ReceivedMerges(c: Config, d: Dev, np: PageId, a: Half, v: Half) returns (r: Res)
    requires Wf(c, d) && NoFaults(d) && InFlash(c) && a != PageErased
    requires var n0 := PageOf(d, np);
             && AddressAt(n0, 1) == a && ValueAt(n0, 1) == v && LogShaped(n0) && FirstBlank(n0, 1) == 2
    requires VariablesCount(PageOf(d, np.Other()), a) + 1 < Slots(c) - 1
    ensures r == PageTransfer(c, d, np, a)
    ensures && r.code == Ok && NoFaults(r.dev) && Good(c, r.dev, np)
            && Lookup(PageOf(r.dev, np), a) == Some(v)
            && forall b :: b != PageErased && b != a ==> Lookup(PageOf(r.dev, np), b) == Lookup(PageOf(d, np.Other()), b)
  {
    var n0 := PageOf(d, np);
    var o := PageOf(d, np.Other());
    ReceivedRoom(n0, o, a, v);
    r := TransferMerges(c, d, np, a);
    OneRecordReads(n0, o, PageOf(r.dev, np), a, v);
  }

  /** A spare page holding only the record (v, a) has room for the transfer that
      skips `a` whenever the old page's variable count, plus one, is below the slot
      count less one. */
  lemma ReceivedRoom(n0: seq<Half>, o: seq<Half>, a: Half, v: Half)
    requires IsPage(n0) && IsPage(o) && SlotCount(n0) == SlotCount(o)
    requires AddressAt(n0, 1) == a && ValueAt(n0, 1) == v && FirstBlank(n0, 1) == 2
    requires VariablesCount(o, a) + 1 < SlotCount(o) - 1
    ensures FirstBlank(n0, 1) < SlotCount(n0)
    ensures Copied(n0, FirstBlank(n0, 1), o, a, 1) <= SlotCount(n0) - FirstBlank(n0, 1)
  {
    CopiedIsCount(n0, o, a, 1);
  }

  /** A page reading as the merge of the old page into a page whose only record
      is (v, a), skipping `a`, reads `v` for `a` and as the old page elsewhere. */
  lemma OneRecordReads(n0: seq<Half>, o: seq<Half>, n1: seq<Half>, a: Half, v: Half)
    requires IsPage(n0) && IsPage(o) && IsPage(n1)
    requires AddressAt(n0, 1) == a && ValueAt(n0, 1) == v && LogShaped(n0) && FirstBlank(n0, 1) == 2
    requires forall b :: b != PageErased ==> Lookup(n1, b) == Merged(n0, o, a, b)
    ensures forall b :: b != PageErased ==> Lookup(n1, b) == if b == a then Some(v) else Lookup(o, b)
  {
    assert BlankFrom(n0, 2);
    forall b: Half | b != PageErased
      ensures Lookup(n1, b) == if b == a then Some(v) else Lookup(o, b)
    {
      OneRecordMerged(n0, o, a, v, b);
    }
  }

  /** Merging into a page whose only record is (v, a), skipping `a`: `a` reads `v`
      and every other address `b` reads as on the old page. */
  lemma OneRecordMerged(n0: seq<Half>, o: seq<Half>, a: Half, v: Half, b: Half)
    requires IsPage(n0) && IsPage(o) && AddressAt(n0, 1) == a && ValueAt(n0, 1) == v && BlankFrom(n0, 2)
    requires b != PageErased
    ensures Merged(n0, o, a, b) == if b == a then Some(v) else Lookup(o, b)
  {
    LookupBlankTail(n0, b, 2);
  }

  /** The write is settled on the valid page itself: the latest record of `a`,
      scanning down to the erase counter, already holds `v` or has a blank value. */
  predicate InPlace(pg: seq<Half>, a: Half, v: Half)
  {
    var m := LatestIn(pg, a, 0, SlotCount(pg));
    m.Some? && (ValueAt(pg, m.value) == v || ValueAt(pg, m.value) == PageErased)
  }

  /** A record of `a` that already holds `v`: nothing is programmed, and `a` reads
      `v` unless the erase-counter quirk is what matched. */
  lemma MatchCorrect(c: Config, d: Dev, p: PageId, a: Half, v: Half)
    requires Good(c, d, p)
    requires var pg := PageOf(d, p);
             var m := LatestIn(pg, a, 0, Slots(c));
             m.Some? && ValueAt(pg, m.value) == v
    ensures WriteVariable(c, d, a, v) == Res(Ok, d)
    ensures Written(c, d, p, d, a, v)
  {
    var pg := PageOf(d, p);
    GoodIsFound(c, d, p);
    LatestInDrop(pg, a, 0, Slots(c));
  }

  /** `EE_VerifyPageFullWriteVariable` from a good state with working hardware and
      an address other than 0xFFFF: the outcome is OK or OUT_SIZE; OUT_SIZE comes
      exactly when no in-place update applies, the valid page has no blank slot
      and the live variables other than `a`, plus one, reach the slot count less
      one, and then nothing was touched; OK leaves a good state where `a` reads
      `v` (but for the counter quirk) and every other address reads as before. */
  lemma WriteCorrect(c: Config, d: Dev, p: PageId, a: Half, v: Half)
    requires Good(c, d, p) && NoFaults(d) && InFlash(c) && a != PageErased
    ensures var r := WriteVariable(c, d, a, v);
            var pg := PageOf(d, p);
            && Wf(c, r.dev) && NoFaults(r.dev)
            && (r.code == Ok || r.code == OutSize)
            && (r.code == OutSize <==>
                  !InPlace(pg, a, v) && FirstBlank(pg, 1) == Slots(c) && VariablesCount(pg, a) + 1 >= Slots(c) - 1)
            && (r.code == OutSize ==> r.dev == d)
            && (r.code == Ok ==> Written(c, d, p, r.dev, a, v))
  {
    var pg := PageOf(d, p);
    GoodIsFound(c, d, p);
    var m := LatestIn(pg, a, 0, Slots(c));
    var r := WriteVariable(c, d, a, v);
    if m.Some? && ValueAt(pg, m.value) == v {
      MatchCorrect(c, d, p, a, v);
    } else if m.Some? && ValueAt(pg, m.value) == PageErased {
      FillCorrect(c, d, p, a, v, m.value);
      var w := ProgramHalfWord(c, d, p, 2 * m.value, v);
      assert r == Res(Ok, w.dev);
      GoodIsFound(c, w.dev, p);
    } else if FirstBlank(pg, 1) < Slots(c) {
      AppendCorrect(c, d, p, a, v);
      assert r == AppendRecord(c, d, p, a, v, FirstBlank(pg, 1));
      GoodIsFound(c, r.dev, p);
    } else if VariablesCount(pg, a) + 1 >= Slots(c) - 1 {
      assert r == Res(OutSize, d);
    } else {
      FullCorrect(c, d, p, a, v);
      assert r == StartTransfer(c, d, p.Other(), a, v);
      GoodIsFound(c, r.dev, p.Other());
    }
  }

  /** Once `a` reads `v` on the valid page, writing `v` to `a` programs nothing. */
  lemma RewriteIsNoop(c: Config, d: Dev, p: PageId, a: Half, v: Half)
    requires Good(c, d, p) && Lookup(PageOf(d, p), a) == Some(v)
    ensures WriteVariable(c, d, a, v) == Res(Ok, d)
  {
    LatestInDrop(PageOf(d, p), a, 0, Slots(c));
    MatchCorrect(c, d, p, a, v);
  }

  /** The erase-counter quirk: with no record of `a`, the counter equal to `a` and
      `v` equal to 0, the scan matches the counter, reads the VALID header 0 as the
      value and reports OK without storing anything. */
  lemma CounterQuirk(c: Config, d: Dev, p: PageId, a: Half, v: Half)
    requires Good(c, d, p)
    requires Lookup(PageOf(d, p), a).None? && Counter(PageOf(d, p)) == a && v == 0
    ensures WriteVariable(c, d, a, v) == Res(Ok, d)
    ensures Lookup(PageOf(d, p), a).None?
  {
    LatestInDrop(PageOf(d, p), a, 0, Slots(c));
    MatchCorrect(c, d, p, a, v);
  }

  /** Writing the same value twice: once the first write succeeded, the second
      finds the value in place and programs nothing. */
  lemma WriteTwice(c: Config, d: Dev, p: PageId, a: Half, v: Half)
    requires Good(c, d, p) && NoFaults(d) && InFlash(c) && a != PageErased
    requires WriteVariable(c, d, a, v).code == Ok
    ensures var d1 := WriteVariable(c, d, a, v).dev;
            WriteVariable(c, d1, a, v) == Res(Ok, d1)
  {
    var pg := PageOf(d, p);
    if Lookup(pg, a).Some? || Counter(pg) != a || v != 0 {
      WriteCorrect(c, d, p, a, v);
      var d1 := WriteVariable(c, d, a, v).dev;
      RewriteIsNoop(c, d1, FindValidPage(c, d1).value, a, v);
    } else {
      CounterQuirk(c, d, p, a, v);
    }
  }
}
